=== FILE: README.md ===
# packagefinder import detector — a Dafny model

This project models the part of the `packagefinder` import detector that turns regular-expression matches
into `PackageUsage` records. The Go package `finder` walks a JavaScript/TypeScript project. It runs one
regular expression per import style over each file and, for every match that names the requested package, it:

- records a 1-based line/character position;
- records a trimmed statement;
- records the list of imported symbols;
- records the import style.

A second pass then looks up where those symbols are used in each file.

The Go regular-expression engine is not modelled. Each match is an input: a record of capture spans in
Go's convention, with `-1` for a group that did not take part. A few small patterns that the code applies
to derived strings are modelled as scanning functions, because their result feeds a property:

- the quick check `['"]pkg['"]`;
- the callback parameter pattern `function\s*\(([^)]*)\)`. The define pass uses the variant `function\s*\(\s*([^)]*)\s*\)` (finder.go:605), whose capture only lacks the leading blanks; as the capture is split at commas and each piece trimmed, both give the same parameters, and one scan models both;
- the AMD dependency pattern `\[\s*([^\]]*)\s*\]`;
- the quoted-item pattern `['"]([^'"]+)['"]`;
- the ES6 named-import pattern `import\s+{([^}]*)}` (finder.go:866), so that what a mixed import reports can be stated.

The remaining inner patterns are fields of the match record: the name or clause they produced, or none.
These are the ES6 default and named patterns (finder.go:859, finder.go:866), `const x =`, `.then(x =>`
and the 200-byte look-around of `extractImportedNameFromContext`.

Modules, in dependency order:

- `GoStrings` (`strings.dfy`): the Go `strings` functions the code calls, on byte strings — `TrimSpace`, `Index`, `Split`, `Join`, `Contains`, `HasPrefix`, `TrimPrefix`, `ToLower`.
- `Types` (`types.dfy`): `ImportStyle` with its ten tags, `Location`, `SymbolUsage`, `PackageUsage`, capture spans, and the nine placeholder symbols.
- `Position` (`position.dfy`): `getLineAndCharacter`.
- `Lines` (`lines.dfy`): the line window each matcher cuts around a match.
- `Patterns` (`patterns.dfy`): the small patterns above.
- `Symbols` (`symbols.dfy`): the symbol lists of each style, the React casing rule, `contains`, and the context name.
- `Amd` (`amd.dfy`): the end-of-`define` scan, the >100-byte truncation, the positional dependency→parameter binding, and `extractAMDParameterName`.
- `Finder` (`finder.dfy`): `isJavaScriptFile` and `filepath.Ext`, one result per match for each of the nine passes, and `findPackageInFile`.
- `UsagePass` (`usage.dfy`): the symbol set of each file, the usage line filter, `findSymbolUsages` and the two-pass `FindPackageUsage`.

Points where the code behaves differently from what a reader might expect, and which the model keeps:

- Positions are 1-based, as the ES6 pass's comment says (finder.go:171).
- The quick check (finder.go:147-150) returns before any pass runs when the file has no quoted occurrence of the package name. A file that only writes `window.lodash` reports nothing (`Finder.GlobalOnlyNotReported`).
- The UMD pass reads parameters from the first `function(...)` in the window that starts at the UMD match. That is the wrapper `function (root, factory)`, not the factory. So the symbols are the wrapper's parameter names (`Finder.FactoryParamsAreWrapperParams`).
- The define pass is modelled as written: its end scan starts with the count at 1, and its symbols are parsed from the truncated statement (`Amd.DefineReportAsWritten`). The intended behaviour is modelled beside it (`Amd.DefineReportCorrected`); see "## Findings".
- Of the placeholder symbols, only `(side-effect only)` is ever produced. The usage pass still filters all nine.
- The usages of a file are attached to every result of that file alike (`UsagePass.SameFileSameUsages`).
- A mixed import `import React, { useState } from 'react'` reports `React` alone. The named pattern needs `{` right after `import` and its blanks, so it does not match after a default name (`Symbols.MixedImportDefaultOnly`).

## Model

| member | source | states |
|---|---|---|
| Types.StyleName | packagefinder/pkg/finder/types.go:19-30 | the JSON string of each import style, which is never empty; the strings themselves are the constants' own names |
| Position.LineAndCharacter | packagefinder/pkg/finder/finder.go:995-1008 | line is one more than the number of newlines before the offset, character is the distance from the line start plus one; both are at least 1 |
| Position.LineAndCharacterIsScan | packagefinder/pkg/finder/finder.go:995-1008 | the closed form agrees at every offset with a left-to-right scan that resets the column after each newline |
| Position.PositionInjective | packagefinder/pkg/finder/finder.go:995-1008 | two offsets of one content with the same (line, character) are equal, so positions identify matches |
| Position.LineOneExamples | packagefinder/pkg/finder/finder_test.go:40-47 | offsets 0 and 5 of "line1\nline2\nline3\nline4" are (1,1) and (1,6) |
| Position.LineTwoExamples | packagefinder/pkg/finder/finder_test.go:40-47 | offsets 6 and 11 are (2,1) and (2,6) |
| Position.LineThreeExamples | packagefinder/pkg/finder/finder_test.go:40-47 | offsets 12 and 17 are (3,1) and (3,6) |
| Position.LineFourExamples | packagefinder/pkg/finder/finder_test.go:40-47 | offsets 18 and 23 are (4,1) and (4,6) |
| Lines.LineStart | packagefinder/pkg/finder/finder.go:175-178 | the window starts just after the last newline before the match, or at 0 |
| Lines.LineEnd | packagefinder/pkg/finder/finder.go:179-185 | the window ends at the first newline at or after the match end, or at the end of the content |
| Lines.StatementWindow | packagefinder/pkg/finder/finder.go:175-185 | lineStart ≤ start ≤ end ≤ lineEnd ≤ \|content\|, with no newline between lineStart and start nor between end and lineEnd |
| Lines.StatementText | packagefinder/pkg/finder/finder.go:186 | the statement is the stretch of the window left after dropping the blanks at both borders: a slice of the content inside the window with only blanks between it and each window border, with a non-blank first and last byte |
| Lines.SplitLine | packagefinder/pkg/finder/finder.go:963-966 | element n of the newline split, where n counts the newlines before an offset, is exactly that offset's line window |
| Lines.SingleLineWindow | packagefinder/pkg/finder/finder.go:175-185 | a match without a newline has the window of its start |
| GoStrings.TrimSpace | packagefinder/pkg/finder/finder.go:186 | the result is the input minus all-blank borders, with a non-blank first and last byte |
| GoStrings.TrimSpaceIdempotent | packagefinder/pkg/finder/finder.go:186 | trimming twice equals trimming once |
| GoStrings.SplitJoin | packagefinder/pkg/finder/finder.go:870-877 | splitting a join of separator-free parts at the separator gives the parts back |
| GoStrings.SplitJoinsBack | packagefinder/pkg/finder/finder.go:870-877 | joining the pieces of a split with the separator gives the original string back, so splitting loses no bytes but the separators |
| GoStrings.IndexOf | packagefinder/pkg/finder/finder.go:678-680 | the result is the first occurrence, or -1 exactly when there is none |
| GoStrings.TrimPrefix | packagefinder/pkg/finder/finder.go:910-913 | with the prefix present, prefix + result is the input; otherwise the input is unchanged |
| Patterns.HasQuoted | packagefinder/pkg/finder/finder.go:146-150 | true exactly when the name occurs with a quote character on each side |
| Patterns.HasQuotedWritten | packagefinder/pkg/finder/finder.go:146-150 | any quoted occurrence, with either quote kind on either side, passes the quick check |
| Patterns.ParamsClauseOf | packagefinder/pkg/finder/finder.go:700-701 | for text shaped as `function`, blanks, `(params)`, the parameter capture is exactly params |
| Patterns.ParamListRoundTrip | packagefinder/pkg/finder/finder.go:703-709 | splitting ", "-joined parameter names at commas and dropping blank pieces gives the names back |
| Patterns.DepsClauseOf | packagefinder/pkg/finder/finder.go:578-579 | the dependency capture of text with one bracket pair is the bracket's contents |
| Patterns.QuotedItemsRoundTrip | packagefinder/pkg/finder/finder.go:584-591 | the quoted-item scan of a comma-separated quoted list gives the items back in order |
| Patterns.FirstIndex | packagefinder/pkg/finder/finder.go:594-600 | the first index holding the name, or -1 exactly when the name is absent |
| Symbols.ES6Symbols | packagefinder/pkg/finder/finder.go:855-893 | never empty: the default name first, then the named bindings, or exactly the side-effect placeholder when both are absent |
| Symbols.ES6SymbolsRoundTrip | packagefinder/pkg/finder/finder.go:858-885 | for captures holding a rendered `{ a, b as c }` clause, the symbols are the captured default name, if any, followed by each element's bound name (the alias where there is one); both captures together arise only from a statement holding a second `import {` after a default import |
| Symbols.NamedImportSymbols | packagefinder/pkg/finder/finder.go:865-885 | for `import { specs } ...` the named pattern captures the clause, and the symbols are each specifier's bound name |
| Symbols.MixedImportDefaultOnly | packagefinder/pkg/finder/finder.go:858-891 | for `import d, { ... }` with no other `import` in the statement, the named pattern finds nothing and the symbols are exactly `[d]` |
| Patterns.NamedClauseFromComplete | packagefinder/pkg/finder/finder.go:866-867 | the leftmost match at or after the offset, and none exactly when no offset matches |
| Patterns.NamedClauseOfImport | packagefinder/pkg/finder/finder.go:866-867 | `import`, blanks and `{clause}` at the start capture exactly the clause |
| Patterns.NamedClauseAfterDefault | packagefinder/pkg/finder/finder.go:866-867 | a default name after `import` and its blanks leaves the pattern without a match when the statement has no other `import` |
| Symbols.ClauseRoundTrip | packagefinder/pkg/finder/finder.go:870-884 | rendering specifiers and extracting their bindings gives each specifier's bound name |
| Symbols.TrailingCommaIgnored | packagefinder/pkg/finder/finder.go:870-884 | a trailing comma and blanks add no symbol |
| Symbols.NamespaceSymbols | packagefinder/pkg/finder/finder.go:239 | the one symbol is "* as " followed by the namespace name |
| Symbols.CommonJSSymbols | packagefinder/pkg/finder/finder.go:274-313 | with a variable captured, the trimmed variable followed by the destructured bindings when a destructuring was captured; with only a destructuring, its bindings, or the declared name or package name when it binds nothing; with neither, the declared name or the package name |
| Symbols.CommonJSDestructuringRoundTrip | packagefinder/pkg/finder/finder.go:274-301 | for `const { a, b: c } = x = require(...)`, with both groups captured as the require pattern captures them, the symbols are the trimmed `x` followed by the bound names (the alias after ':' where there is one) |
| Symbols.ReactCasing | packagefinder/pkg/finder/finder.go:316-336 | appends "React" exactly when the package is React-like, "react" or the package name is present and "React" is not; appends "react" exactly when the package is react, "React" is present and "react" is not; otherwise the symbols are unchanged |
| Symbols.ReactCasingIdempotent | packagefinder/pkg/finder/finder.go:316-336 | applying the casing rule twice equals applying it once |
| Symbols.SliceContains | packagefinder/pkg/finder/finder.go:1208-1215 | true exactly when the string is an element |
| Symbols.ReactAugment | packagefinder/pkg/finder/finder.go:715-742 | for a React-like package with React usage seen and no "React" yet, appends "React" and, for react itself without "react", also "react"; otherwise it is the casing rule; non-React packages are unchanged |
| Symbols.GlobalSymbols | packagefinder/pkg/finder/finder.go:467-477 | the package name first; a second symbol exactly when the context name is nonempty and different, and then it is the context name |
| Symbols.GlobalSymbolsNames | packagefinder/pkg/finder/finder.go:467-477 | the reported names are exactly the package name and the nonempty context name, with no name listed twice |
| Symbols.ContextSymbols | packagefinder/pkg/finder/finder.go:378-384 | one symbol: the context name when nonempty, else the package name |
| Symbols.ImportedNameFromContext | packagefinder/pkg/finder/finder.go:1135-1205 | the statement's own declared name wins; else, when the line is not the first, the first declaration among the last three lines before; else, when the statement does not reach the end, the first name among the first three lines after; "" exactly when none of these gives a name |
| Symbols.BeforeBeatsAfter | packagefinder/pkg/finder/finder.go:1144-1165 | with no name in the statement, a declaration among the last three lines before it is the result, whatever the lines after it hold |
| Symbols.ImportMapSymbols | packagefinder/pkg/finder/finder.go:784-797 | one symbol: the context name when nonempty, else the name the statement declares, else the package name; Symbols.ImportMapFallbackUnreachable shows the middle case never arises after a context lookup |
| Amd.FindClose | packagefinder/pkg/finder/finder.go:523-533 | the bounded loop returns the first index where the running depth returns to zero at ')' before the bound, or -1 when there is none |
| Amd.DefineEndMatches | packagefinder/pkg/finder/finder.go:517-542 | with depth 0 the scan stops at the ')' that matches define's '(', and the end includes one following ';' |
| Amd.AsWrittenMissesMatchingParen | packagefinder/pkg/finder/finder.go:517-533 | with the source's start depth 1 the scan never stops at the matching ')' |
| Amd.DefineEndRunsOn | packagefinder/pkg/finder/finder.go:517-545 | for `define(args);rest` the corrected end is just after ';', while the source's end runs to the end of the content |
| Amd.DefineEndFrom | packagefinder/pkg/finder/finder.go:516-542 | the end is the end of the content when the bounded scan does not stop, else one past the closing parenthesis plus one for a directly following `;` |
| Amd.DefineStatementFrom | packagefinder/pkg/finder/finder.go:510-545 | the statement is the stretch of content from the line start to the end of the call left after dropping the blanks at both borders: a slice with only blanks between it and each border, with non-blank first and last bytes |
| Amd.DefineStatementRunsOn | packagefinder/pkg/finder/finder.go:516-545 | for `define(args);rest` without other parentheses, the statement as written is the whole trimmed content, while the corrected one is exactly `define(args);` |
| Amd.Truncate | packagefinder/pkg/finder/finder.go:548-571 | statements of at most 100 bytes are kept; a longer one with `function(` before byte 80 is cut after the first `)` from there (or kept whole when that `)` is last or missing); else it is cut after the first `]` when a `[` comes first and `]` is before byte 100, with ", function(...) {...}" appended; else 97 bytes and "..." |
| Amd.BoundParam | packagefinder/pkg/finder/finder.go:594-624 | a parameter is bound exactly when the package is a dependency, parameters were found, and its first index is below their count; the bound one is the parameter at that index |
| Amd.AmdBinding | packagefinder/pkg/finder/finder.go:594-630 | one symbol: the bound parameter, else the package name |
| Amd.AmdSymbolsRoundTrip | packagefinder/pkg/finder/finder.go:578-630 | for `define([deps], function(params) body)` the symbol is the parameter at the package's first dependency index, else the package name |
| Amd.TruncatedParamsLost | packagefinder/pkg/finder/finder.go:548-630 | parsing a statement truncated after its dependency list reads the parameter list as ["..."] |
| Amd.AmdSymbols | packagefinder/pkg/finder/finder.go:573-630 | one symbol: the callback parameter at the package's first index among the statement's dependencies when there is one, else the package name |
| Amd.DefineReportAsWritten | packagefinder/pkg/finder/finder.go:516-630 | the statement is `Truncate` of the define statement scanned with the count at 1; one symbol, read from that truncated statement: the callback parameter at the package's dependency index when one is bound there, the package name when the statement does not list it |
| Amd.DefineReportCorrected | packagefinder/pkg/finder/finder.go:516-630 | the statement is `Truncate` of the define statement scanned with the count at 0; one symbol, read from the untruncated statement: the callback parameter at the package's dependency index when one is bound there, the package name when the statement does not list it |
| Amd.LongDefineReports | packagefinder/pkg/finder/finder.go:548-630 | for a define over 100 bytes cut after its dependency list, both matchers report the same statement, the corrected one binds the callback parameter at the package's index, and the one as written gives "..." or the package name |
| Amd.DefineCallMatches | packagefinder/pkg/finder/finder.go:1052-1070 | the corrected scan cuts exactly `define(...)` up to the matching ')', while the source's scan does not |
| Amd.ExtractAsWrittenEmpty | packagefinder/pkg/finder/finder.go:1052-1079 | with the source's scan, a balanced define with no later parenthesis gives an empty call and no parameter name |
| Amd.ParameterOfCall | packagefinder/pkg/finder/finder.go:1075-1131 | the parameter bound through the dependencies re-read from the module capture whenever one is bound, and "" exactly when the capture fails or binds none |
| Amd.ExtractAmdParameterNameAsWritten | packagefinder/pkg/finder/finder.go:1052-1131 | with the call scanned as written: the parameter the module capture's dependencies bind whenever they bind one, "" exactly when the capture fails or binds none, and "" for an empty call |
| Amd.ExtractAmdParameterName | packagefinder/pkg/finder/finder.go:1052-1131 | the same, with the call cut at the parenthesis matching `define(` |
| Amd.ParameterOfCallAgrees | packagefinder/pkg/finder/finder.go:1075-1131 | when the module capture lists the statement's dependencies, the helper's result agrees with the in-line AMD binding |
| Amd.CaptureAt | packagefinder/pkg/finder/finder.go:1075-1076 | a capture at a `[` is the text between it and the first quoted package name before the first `]`, and the text from after that name up to the first `]` following it; neither part holds a `]` |
| Amd.CaptureAtComplete | packagefinder/pkg/finder/finder.go:1075-1076 | no capture at a `[` exactly when no bracket pair from there matches the pattern, and a capture is the one of the match whose lazy first group stops at the first quoted name |
| Amd.ModuleMatchFromComplete | packagefinder/pkg/finder/finder.go:1075-1076 | the search finds nothing exactly when no `[` at or after the offset gives a capture, and otherwise returns the capture of the leftmost `[` that gives one |
| Amd.DefineCallOfText | packagefinder/pkg/finder/finder.go:1052-1070 | the corrected scan cuts a written `define([deps], function(params) {code})` with no parentheses inside its parts as the whole text |
| Amd.ExtractAmdParameterNameRoundTrip | packagefinder/pkg/finder/finder.go:1052-1131 | for a written define listing the package among its dependencies, the name is the parameter at the package's first dependency index, or "" when there are fewer parameters |
| Amd.ExtractAmdParameterNameExample | packagefinder/pkg/finder/finder.go:1052-1131 | `define(['x', 'pkg'], function(a, b) {})` binds "pkg" to `b` |
| Finder.Ext | packagefinder/pkg/finder/finder.go:66 | the extension is empty or a suffix of the path starting with its only '.', with no '/' |
| Finder.IsJavaScriptFile | packagefinder/pkg/finder/finder.go:135-137 | true exactly for ".js", ".jsx", ".ts" and ".tsx" |
| Finder.JavaScriptFileExamples | packagefinder/pkg/finder/finder_test.go:9-30 | any file stem with .js/.jsx/.ts/.tsx is JavaScript, and with .go/.py/.html/.css is not |
| Finder.FactoryContent | packagefinder/pkg/finder/finder.go:674-683 | the UMD window is the content from the match up to and including the first `)(` found past its first byte, or the rest of the content when there is none |
| Finder.ContextName | packagefinder/pkg/finder/finder.go:1144-1169 | the statement's declared name when there is one; "" exactly when there is none, and the line is the first or the lines before declare nothing, and the line start plus the trimmed statement's length reaches the end or the lines after name nothing |
| Finder.Surroundings | packagefinder/pkg/finder/finder.go:800-809 | the slice of the content from 200 bytes before the window's line start (0 when the line starts within the first 200 bytes) to 200 bytes past its line end (the content's end when that is nearer); it covers the window |
| Finder.ContextUsage | packagefinder/pkg/finder/finder.go:349-443 | the dynamic-import and SystemJS reports carry the trimmed window, the given style, and one symbol: the context name, else the package name |
| Finder.DefineUsage | packagefinder/pkg/finder/finder.go:492-663 | the define report carries the as-written statement and the as-written symbols with the React casing |
| Finder.FactoryUsage | packagefinder/pkg/finder/finder.go:665-753 | the UMD report carries the fixed text naming the package and the wrapper parameters augmented by the React rule over its window |
| Finder.ResolveUsage | packagefinder/pkg/finder/finder.go:755-849 | the import-map report carries the trimmed window and the import-map symbols (context name, else the statement's declared name, else the package name) augmented by the React rule with `React.` looked for in the surroundings |
| Finder.ReactUsed | packagefinder/pkg/finder/finder.go:718 | true exactly when `root.React`, `React.`, `React` followed by blanks and ',', or ',' and blanks followed by `React` occurs |
| Finder.UsageOf | packagefinder/pkg/finder/finder.go:152-853 | a match is reported exactly when its module capture equals the package (AMD: its dependencies quote it; UMD: its window quotes it; globals always); the report has the match's position and style, the trimmed window as statement except for AMD (the statement of Amd.DefineReportAsWritten) and UMD (the fixed text naming the package), and for AMD the as-written symbols with the React casing |
| Finder.UsageOfWellReported | packagefinder/pkg/finder/finder.go:191-199 | every report carries the file name, a position of at least (1,1), and dynamic set exactly for the dynamic styles |
| Finder.FindPackageInFile | packagefinder/pkg/finder/finder.go:140-853 | no results without a quoted occurrence; no more results than matches, all well reported (file name, position of at least (1,1), dynamic flag matching the style, no symbol usages yet) |
| Finder.KeptAppend | packagefinder/pkg/finder/finder.go:153-199 | keeping the present outcomes of two stretches of matches gives the first stretch's usages followed by the second's, so each is kept once, where it stands |
| Finder.OutcomesAppend | packagefinder/pkg/finder/finder.go:153-199 | the outcomes of two stretches of matches are the outcomes of the first followed by those of the second |
| Finder.FindPackageInFileAppend | packagefinder/pkg/finder/finder.go:152-853 | past the quick check, the usages for the matches of one pass followed by a later one are the first's usages followed by the second's |
| Finder.FindPackageInFileSingle | packagefinder/pkg/finder/finder.go:153-199 | past the quick check, one match gives exactly its Finder.UsageOf usage, or nothing; with the append law, each match's usage is appended once, in match order |
| Finder.FindPackageInFileReports | packagefinder/pkg/finder/finder.go:152-853 | every reported match appears in the result, every result comes from a match, and the styles come in pass order |
| Finder.GlobalOnlyNotReported | packagefinder/pkg/finder/finder.go:146-150 | a file without quote characters gives no results, whatever global accesses it holds |
| Finder.FactoryParamsAreWrapperParams | packagefinder/pkg/finder/finder.go:665-713 | for a UMD match starting `(function (root, factory)`, the reported symbols are the wrapper's own parameter names |
| UsagePass.FileSymbolsIs | packagefinder/pkg/finder/finder.go:86-102 | a symbol is in a file's set exactly when a result of the file imports it and it is not one of the nine placeholders |
| UsagePass.OnlyPlaceholders | packagefinder/pkg/finder/finder.go:86-105 | a file whose symbols are all placeholders gets an empty set |
| UsagePass.RecordFile | packagefinder/pkg/finder/finder.go:103-105 | the file gets an entry only when its set is nonempty, and no other entry changes |
| UsagePass.SearchName | packagefinder/pkg/finder/finder.go:910-917 | a "* as X" symbol is searched as X, and any other symbol as itself |
| UsagePass.SearchNameOfNamespace | packagefinder/pkg/finder/finder.go:910-917 | the namespace symbol of the ES6 pass is searched as its namespace name |
| UsagePass.UsageLine | packagefinder/pkg/finder/finder.go:937-949 | the line is the slice of the content from the match's line start to the first newline at or after the match end, or to the end of the content |
| UsagePass.ImportLineSkipped | packagefinder/pkg/finder/finder.go:952-954 | a line holding "import" before "from" is never counted |
| UsagePass.RequireLineSkipped | packagefinder/pkg/finder/finder.go:955-957 | a line holding "require(" is never counted |
| UsagePass.PlainLineCounts | packagefinder/pkg/finder/finder.go:951-957 | a line without "require(" and without both "import" and "from" is counted |
| UsagePass.LocationOf | packagefinder/pkg/finder/finder.go:960-981 | the location's position is that of the match start, and its context is the trimmed line holding that start |
| UsagePass.LineTextAt | packagefinder/pkg/finder/finder.go:963-966 | the split line indexed by the reported line number is the line window of the offset |
| UsagePass.EntryOf | packagefinder/pkg/finder/finder.go:928-982 | a symbol match yields an entry exactly when it is counted, with the captured symbol and its location |
| UsagePass.CollectIs | packagefinder/pkg/finder/finder.go:968-982 | a symbol has an entry exactly when it has a counted match, and its locations are those matches' locations in content order |
| UsagePass.FindSymbolUsages | packagefinder/pkg/finder/finder.go:985-991 | one usage per symbol, each with at least one location |
| UsagePass.FindSymbolUsagesIs | packagefinder/pkg/finder/finder.go:928-991 | a symbol's usage lists exactly its counted locations in content order |
| UsagePass.ImportLineNotCounted | packagefinder/pkg/finder/finder.go:951-957 | a match on a skipped line contributes to no symbol's locations |
| UsagePass.Reports | packagefinder/pkg/finder/finder.go:78-84 | one report per scanned file in walk order, holding the file's path and the usages `findPackageInFile` finds in it |
| UsagePass.ReportsUnattached | packagefinder/pkg/finder/finder.go:78-84 | no usage of the first pass carries symbol usages yet |
| UsagePass.FirstPass | packagefinder/pkg/finder/finder.go:86-108 | every recorded symbol set is nonempty, and the collected usages carry no symbol usages when the reports carry none |
| UsagePass.FirstPassCollects | packagefinder/pkg/finder/finder.go:78-108 | the collected usages are the reports' usages concatenated in walk order, each report's in its own order |
| UsagePass.FirstPassEntries | packagefinder/pkg/finder/finder.go:86-108 | a path has an entry exactly when one of its reports leaves a nonempty symbol set after the placeholder filter |
| UsagePass.FileIndex | packagefinder/pkg/finder/finder.go:119-121 | the index of the scanned file with that path, or -1 exactly when none has it |
| UsagePass.AttachUsages | packagefinder/pkg/finder/finder.go:118-129 | only the usages field changes, it becomes nonempty when it changes, and results of files without an entry are unchanged |
| UsagePass.FindPackageUsage | packagefinder/pkg/finder/finder.go:44-131 | one output per usage `findPackageInFile` reports for the files, in walk order; each is that usage with, as its symbol usages, the second-pass usages of its file when the file has searched names, else none |
| UsagePass.SameFileSameUsages | packagefinder/pkg/finder/finder.go:118-129 | two results of one file get the same usages |
| UsagePass.AttachUsagesAt | packagefinder/pkg/finder/finder.go:118-129 | each result gets the usages of its file's symbol set, or none when that is empty or the file has no entry |

## Left out

- The directory walk, file reading, the warnings printed on errors, `SaveResultsToFile`, `PrintResults` and the command line in `cmd/main.go` are I/O. `FindPackageUsage` takes the scanned files (path, content, and the matches of the import patterns and of the symbol pattern) as input; the first-pass usages are computed from them by `Finder.FindPackageInFile`.
- Which substrings the patterns at finder.go:14-38 match, the global-variable pattern at finder.go:446, and the symbol pattern at finder.go:924 built from unescaped names: the Go regular-expression engine is not modelled, and matches are inputs.
- The ES6 default-import pattern at finder.go:859 and the named-import pattern at finder.go:866 are applied to the statement by the source. In the match record their captures are inputs. The named pattern is also written as a scanner (`Patterns.NamedClauseFrom`), but only to state what a mixed import reports.
- The inner patterns `(?:const|let|var)\s+(\w+)\s*=` and `.then(...)` used by `extractImportedNameFromContext` and the CommonJS fallback are regular-expression results and are inputs too. The priority order of the context lookup (same statement, 3 lines before, 3 lines after) is modelled; the 200-byte windows are not.
- The order of `findSymbolUsages` output comes from Go map iteration, which is unspecified. The model returns a set of usages, one per symbol.
- `SymbolResolutions` is never filled by the code and stays empty.
- Errors: `findPackageInFile` and `findSymbolUsages` only fail on I/O, so the model has no error path. A file the second pass cannot read is not modelled.
- Amd.DefineEndAsWritten: states only the bounds of the end. The behaviour of the source's start depth is stated by Amd.AsWrittenMissesMatchingParen and Amd.DefineEndRunsOn.
- GoStrings.TrimSpace: trims only the six ASCII blanks. Go's `strings.TrimSpace` also trims Unicode spaces such as U+0085 and U+00A0 when the bytes decode to them; strings are modelled as byte strings without UTF-8 decoding.
- GoStrings.ToLower: folds only `A`-`Z`. Go's `strings.ToLower` also folds non-ASCII letters; it is only ever compared with the ASCII words "react" and "react-", so the difference shows only for package names with non-ASCII capitals.
- The lines the context lookup inspects after a statement start at the line start plus the trimmed statement's length (finder.go:1168). For an indented line this is inside the statement's own line. The model takes the names found in those lines as inputs, so which bytes form the lines is not modelled.

## Findings

| source | as written | input that shows it | evidently intended | confidence | as-written member | corrected member |
|---|---|---|---|---|---|---|
| packagefinder/pkg/finder/finder.go:517-545 | the end scan starts at the '(' after `define` with depth already 1, so that '(' is counted twice and the matching ')' leaves depth 1 | `define(['a'], f);\nx = 1`: the ')' that matches define's '(' only brings the count back to 1, so the scan never stops and runs to the end of the content (or to the 1000-byte bound); the statement is the whole trimmed content (Amd.DefineStatementRunsOn) | stop at the ')' that matches define's '(' and include a following ';' | not executed | Amd.DefineEndAsWritten, with Amd.AsWrittenMissesMatchingParen, Amd.DefineEndRunsOn and Amd.DefineStatementRunsOn | Amd.DefineEnd, with Amd.DefineEndMatches and Amd.DefineStatementRunsOn |
| packagefinder/pkg/finder/finder.go:545-630 | AMD parameters are parsed from the statement after truncation; when it is cut after the dependency list, the callback text is the literal `function(...)` | a define longer than 100 bytes whose `function(` is at byte 80 or later and whose ']' is before byte 100: the package's symbol becomes "..." when it is the first dependency, else the package name | bind the package to the callback parameter from the untruncated statement | not executed | Amd.DefineReportAsWritten, with Amd.TruncatedParamsLost and Amd.LongDefineReports | Amd.DefineReportCorrected, with Amd.LongDefineReports and Amd.AmdSymbolsRoundTrip |
| packagefinder/pkg/finder/finder.go:1052-1070 | `extractAMDParameterName` scans from one past the start of `define` with depth 1; the '(' of `define(` is then counted on top of that depth | `define(['a'], function(a) {})` with nothing after it: no ')' brings the depth to 0, the call is empty and the name is "" | cut the call at the ')' that matches `define(` | not executed | Amd.ExtractAmdParameterNameAsWritten, with Amd.ExtractAsWrittenEmpty | Amd.ExtractAmdParameterName, with Amd.DefineCallMatches and Amd.ParameterOfCallAgrees |

=== FILE: amd.dfy ===
/** The AMD `define([...], function (...) {...})` matcher (finder.go:493-663)
    and the unused helper `extractAMDParameterName` (finder.go:1052-1132):
    the parenthesis-depth scan for the end of the call, the statement
    truncation, and the positional binding of the package to a callback
    parameter. */
module Amd {
  import opened GoStrings
  import opened Types
  import opened Lines
  import opened Patterns

  /** The depth change one byte causes. */
  function Delta(c: char): (d: int)
    ensures c == '(' ==> d == 1
    ensures c == ')' ==> d == -1
    ensures c != '(' && c != ')' ==> d == 0
  {
    if c == '(' then 1 else if c == ')' then -1 else 0
  }

  /** Opening minus closing parentheses in `content[a..b]`. */
  function Depth(content: string, a: nat, b: nat): int
    requires a <= b <= |content|
    decreases b - a
  {
    if a == b then 0 else Delta(content[a]) + Depth(content, a + 1, b)
  }

  /** Extending the range by one byte on the right adds that byte's change. */
  lemma {:induction false} DepthSnoc(content: string, a: nat, b: nat)
    requires a <= b < |content|
    ensures Depth(content, a, b + 1) == Depth(content, a, b) + Delta(content[b])
    decreases b - a
  {
    if a < b {
      DepthSnoc(content, a + 1, b);
    }
  }

  /** A scan that starts at `from` with depth `depth0` stops at `c`: a closing
      parenthesis at which the depth drops to zero. */
  predicate Closes(content: string, from: nat, depth0: int, c: int) {
    from <= c < |content| && content[c] == ')' && depth0 + Depth(content, from, c + 1) == 0
  }

  /** The first stop of the scan below `limit`, or -1: what the loop of
      finder.go:523-534 computes, one byte per call. */
  function ScanClose(content: string, i: nat, limit: int, depth: int): (r: int)
    ensures r == -1 || (i <= r < |content| && r < limit && Closes(content, i, depth, r))
    ensures r >= 0 ==> forall c :: i <= c < r ==> !Closes(content, i, depth, c)
    ensures r == -1 ==> forall c :: i <= c < |content| && c < limit ==> !Closes(content, i, depth, c)
    decreases |content| - i
  {
    if i >= |content| || i >= limit then -1
    else
      var d := depth + Delta(content[i]);
      forall c | i < c < |content|
        ensures Closes(content, i, depth, c) <==> Closes(content, i + 1, d, c)
      {
      }
      assert Closes(content, i, depth, i) <==> content[i] == ')' && d == 0 by {
        assert Depth(content, i, i + 1) == Delta(content[i]);
      }
      if content[i] == ')' && d == 0 then i
      else ScanClose(content, i + 1, limit, d)
  }

  /** The scan as the source writes it: a bounded loop over the bytes from
      `from`, counting parentheses and stopping at the first `)` that brings
      the count to zero. */
  method FindClose(content: string, from: nat, limit: int, depth0: int) returns (close: int)
    ensures close == -1 || (from <= close < |content| && close < limit && Closes(content, from, depth0, close))
    ensures close >= 0 ==> forall c :: from <= c < close ==> !Closes(content, from, depth0, c)
    ensures close == -1 ==> forall c :: from <= c < |content| && c < limit ==> !Closes(content, from, depth0, c)
    ensures close == ScanClose(content, from, limit, depth0)
  {
    close := -1;
    if from > |content| {
      return;
    }
    var openParens := depth0;
    var i := from;
    while i < |content| && i < limit
      invariant from <= i <= |content|
      invariant openParens == depth0 + Depth(content, from, i)
      invariant forall c :: from <= c < i ==> !Closes(content, from, depth0, c)
      decreases |content| - i
    {
      DepthSnoc(content, from, i);
      if content[i] == '(' {
        openParens := openParens + 1;
      } else if content[i] == ')' {
        openParens := openParens - 1;
        if openParens == 0 {
          close := i;
          return;
        }
      }
      i := i + 1;
    }
  }

  /** The end of the define statement (finder.go:516-542): one past the stop
      of a scan from `start + 6` bounded by `start + 1000`, plus a following
      `;`; the end of the content when the scan does not stop. `depth0` is the
      count the scan starts with. */
  function DefineEndFrom(content: string, start: nat, depth0: int): (end: nat)
    ensures end <= |content|
    ensures start <= |content| ==> start <= end
    ensures ScanClose(content, start + 6, start + 1000, depth0) == -1 ==> end == |content|
    ensures ScanClose(content, start + 6, start + 1000, depth0) >= 0 ==>
      end == ScanClose(content, start + 6, start + 1000, depth0) + 1 + SemicolonAfter(content, ScanClose(content, start + 6, start + 1000, depth0))
  {
    var close := ScanClose(content, start + 6, start + 1000, depth0);
    if close > start then
      var e := close + 1;
      if e < |content| && content[e] == ';' then e + 1 else e
    else |content|
  }

  /** 1 when a `;` directly follows the closing parenthesis at `c`. */
  function SemicolonAfter(content: string, c: int): nat {
    if 0 <= c && c + 1 < |content| && content[c + 1] == ';' then 1 else 0
  }

  /** The end as written: the scan starts at `start + 6` with the count
      already at 1, so the `(` of `define(` is counted a second time. */
  function DefineEndAsWritten(content: string, start: nat): (end: nat)
    ensures end <= |content|
    ensures start <= |content| ==> start <= end
  {
    DefineEndFrom(content, start, 1)
  }

  /** The end as intended: the same scan started with the count at 0, so the
      `(` of `define(` brings it to 1 and its matching `)` back to 0. */
  function DefineEnd(content: string, start: nat): (end: nat)
    ensures end <= |content|
    ensures start <= |content| ==> start <= end
  {
    DefineEndFrom(content, start, 0)
  }

  /** `c` is the parenthesis matching the `(` at `p`. */
  predicate Matching(content: string, p: nat, c: nat) {
    p < c < |content| && content[p] == '(' && content[c] == ')'
    && Depth(content, p, c + 1) == 0
    && forall k :: p < k <= c ==> Depth(content, p, k) > 0
  }

  /** The corrected scan ends the statement right after the `)` matching
      `define(`, plus a following `;`. */
  lemma DefineEndMatches(content: string, start: nat, c: nat)
    requires Matching(content, start + 6, c) && c < start + 1000
    ensures ScanClose(content, start + 6, start + 1000, 0) == c
    ensures DefineEnd(content, start) == c + 1 + SemicolonAfter(content, c)
  {
    var p := start + 6;
    assert Closes(content, p, 0, c);
    forall k | p <= k < c
      ensures !Closes(content, p, 0, k)
    {
      assert Depth(content, p, k + 1) > 0;
    }
  }

  /** The scan as written never stops at the `)` matching `define(`: it runs
      past it to a later unbalanced `)` or, failing one, to the end of the
      content. */
  lemma AsWrittenMissesMatchingParen(content: string, start: nat, c: nat)
    requires Matching(content, start + 6, c)
    ensures ScanClose(content, start + 6, start + 1000, 1) == -1 || ScanClose(content, start + 6, start + 1000, 1) > c
  {
    var p := start + 6;
    forall k | p <= k <= c
      ensures !Closes(content, p, 1, k)
    {
      if k < c {
        assert Depth(content, p, k + 1) > 0;
      }
    }
  }

  /** Bytes other than parentheses leave the scan going with its count unchanged. */
  lemma {:induction false} ScanSkip(content: string, i: nat, j: nat, limit: int, depth: int)
    requires i <= j <= |content| && j <= limit
    requires forall k :: i <= k < j ==> content[k] != '(' && content[k] != ')'
    ensures ScanClose(content, i, limit, depth) == ScanClose(content, j, limit, depth)
    decreases j - i
  {
    if i < j {
      ScanSkip(content, i + 1, j, limit, depth);
    }
  }

  /** No parentheses anywhere in `s`. */
  predicate ParenFree(s: string) {
    forall k :: 0 <= k < |s| ==> s[k] != '(' && s[k] != ')'
  }

  /** A define whose arguments hold no parentheses, followed by more code: the
      corrected end is right after `);`, while the end as written runs over
      the following code to the end of the content. */
  lemma DefineEndRunsOn(args: string, rest: string)
    requires ParenFree(args) && ParenFree(rest) && |args| < 990
    ensures DefineEnd("define(" + args + ");" + rest, 0) == |args| + 9
    ensures DefineEndAsWritten("define(" + args + ");" + rest, 0) == |args| + 9 + |rest|
  {
    var c := "define(" + args + ");" + rest;
    var n := |args|;
    assert c[6] == '(' && c[7 + n] == ')' && c[8 + n] == ';';
    assert forall k :: 7 <= k < 7 + n ==> c[k] == args[k - 7];
    assert forall k :: 9 + n <= k < |c| ==> c[k] == rest[k - 9 - n];
    var stop := if |c| < 1000 then |c| else 1000;
    ScanSkip(c, 7, 7 + n, 1000, 1);
    ScanSkip(c, 7, 7 + n, 1000, 2);
    assert ScanClose(c, 6, 1000, 0) == 7 + n;
    ScanSkip(c, 9 + n, stop, 1000, 1);
    assert ScanClose(c, 8 + n, 1000, 1) == -1;
    assert ScanClose(c, 6, 1000, 1) == -1;
  }

  // ---------------------------------------------------------------------
  // The statement and its truncation (finder.go:510-571).

  /** The define statement: from the start of the line holding the match to
      the end of the call, trimmed; `depth0` as in `DefineEndFrom`. */
  function DefineStatementFrom(content: string, start: nat, depth0: int): (r: string)
    requires start <= |content|
    ensures Trimmed(r)
    ensures |r| <= DefineEndFrom(content, start, depth0) - LineStart(content, start)
    ensures exists a :: (LineStart(content, start) <= a
      && a + |r| <= DefineEndFrom(content, start, depth0) && r == content[a..a + |r|]
      && SpaceBetween(content, LineStart(content, start), a)
      && SpaceBetween(content, a + |r|, DefineEndFrom(content, start, depth0)))
  {
    var b := LineStart(content, start);
    var e := DefineEndFrom(content, start, depth0);
    TrimmedSlice(content, b, e);
    TrimSpace(content[b..e])
  }

  /** The shapes a truncated statement can take: the statement itself, or a
      proper prefix of it followed by one of the three markers. */
  predicate IsTruncation(stmt: string, r: string) {
    r == stmt
    || exists n :: 0 < n < |stmt| && (r == stmt[..n] + " {...}"
                                     || r == stmt[..n] + ", function(...) {...}"
                                     || r == stmt[..n] + "...")
  }

  /** The readability truncation of statements longer than 100 bytes
      (finder.go:547-571): keep up to the callback's first `)` when
      `function(` starts before byte 80; else keep up to the first `]` when it
      follows a `[` and comes before byte 100; else keep 97 bytes. */
  function Truncate(stmt: string): (r: string)
    ensures IsTruncation(stmt, r)
    ensures |stmt| <= 100 ==> r == stmt
    ensures |stmt| > 100 && !(0 < IndexOf(stmt, "function(") < 80) ==> |r| <= 121
    ensures (|stmt| > 100 && 0 < IndexOf(stmt, "function(") < 80
             && exists c :: IndexOf(stmt, "function(") <= c < |stmt| - 1 && stmt[c] == ')') ==>
      exists c :: FirstCloseFrom(stmt, IndexOf(stmt, "function("), c) && c + 1 < |stmt| && r == stmt[..c + 1] + " {...}"
    ensures (|stmt| > 100 && 0 < IndexOf(stmt, "function(") < 80
             && forall c :: IndexOf(stmt, "function(") <= c < |stmt| - 1 ==> stmt[c] != ')') ==> r == stmt
    ensures (|stmt| > 100 && !(0 < IndexOf(stmt, "function(") < 80)
             && 0 < IndexOfChar(stmt, '[') < IndexOfChar(stmt, ']') < 100) ==>
      r == stmt[..IndexOfChar(stmt, ']') + 1] + ", function(...) {...}"
    ensures (|stmt| > 100 && !(0 < IndexOf(stmt, "function(") < 80)
             && !(0 < IndexOfChar(stmt, '[') < IndexOfChar(stmt, ']') < 100)) ==> r == stmt[..97] + "..."
  {
    if |stmt| <= 100 then stmt
    else
      var f := IndexOf(stmt, "function(");
      if 0 < f < 80 then
        var cp := IndexOf(stmt[f..], ")");
        CalleeClose(stmt, f, cp);
        if cp > 0 && f + cp + 1 < |stmt| then stmt[..f + cp + 1] + " {...}"
        else stmt
      else
        var ds := IndexOf(stmt, "[");
        var de := IndexOf(stmt, "]");
        IndexOfSingle(stmt, '[');
        IndexOfSingle(stmt, ']');
        if 0 < ds < de < 100 then stmt[..de + 1] + ", function(...) {...}"
        else stmt[..97] + "..."
  }

  /** `c` is the first `)` at or after `f`. */
  predicate FirstCloseFrom(stmt: string, f: int, c: int) {
    0 <= f <= c < |stmt| && stmt[c] == ')' && forall k :: f <= k < c ==> stmt[k] != ')'
  }

  /** The first `)` after a `function(` at `f`, found by searching the rest
      of the statement: it is past `f` when there is one. */
  lemma CalleeClose(stmt: string, f: nat, cp: int)
    requires f < |stmt| && OccursAt(stmt, "function(", f) && cp == IndexOf(stmt[f..], ")")
    ensures cp != 0
    ensures cp > 0 ==> FirstCloseFrom(stmt, f, f + cp)
    ensures cp < 0 ==> forall c :: f <= c < |stmt| ==> stmt[c] != ')'
  {
    var t := stmt[f..];
    IndexOfSingle(t, ')');
    assert t[0] == stmt[f..f + 9][0] == 'f';
    forall k | f <= k < |stmt| && (cp < 0 || k < f + cp)
      ensures stmt[k] != ')'
    {
      assert stmt[k] == t[k - f];
    }
  }

  lemma KeptPrefix(kept: string, marker: string)
    ensures (kept + marker)[..|kept|] == kept
  {
  }

  // ---------------------------------------------------------------------
  // The positional binding (finder.go:594-630, finder.go:1099-1131).

  /** The callback parameter bound to the package: the one at the index of
      the package's first occurrence among the dependencies, when there is a
      parameter list and it is long enough. */
  function BoundParam(deps: seq<string>, params: Option<seq<string>>, packageName: string): (r: Option<string>)
    ensures r.Some? <==> packageName in deps && params.Some? && FirstIndex(deps, packageName) < |params.value|
    ensures r.Some? ==> exists i :: 0 <= i < |deps| && i < |params.value| && deps[i] == packageName && r.value == params.value[i]
  {
    var i := FirstIndex(deps, packageName);
    if i >= 0 && params.Some? && i < |params.value| then Some(params.value[i]) else None
  }

  /** The symbols of the define matcher: the bound parameter, else the
      package name (finder.go:627-630). */
  function AmdBinding(deps: seq<string>, params: Option<seq<string>>, packageName: string): (r: seq<string>)
    ensures |r| == 1
    ensures BoundParam(deps, params, packageName).None? ==> r == [packageName]
    ensures BoundParam(deps, params, packageName).Some? ==> r == [BoundParam(deps, params, packageName).value]
  {
    match BoundParam(deps, params, packageName)
    case Some(p) => [p]
    case None => [packageName]
  }

  /** The dependency names of a statement's first array. */
  function StatementDeps(stmt: string): (r: seq<string>)
    ensures DepsClause(stmt).None? ==> r == []
    ensures DepsClause(stmt).Some? ==> r == QuotedItems(DepsClause(stmt).value)
  {
    match DepsClause(stmt)
    case Some(d) => QuotedItems(d)
    case None => []
  }

  /** The callback parameters of a statement, if it has a callback. */
  function StatementParams(stmt: string): (r: Option<seq<string>>)
    ensures ParamsClause(stmt).None? ==> r.None?
    ensures ParamsClause(stmt).Some? ==> r == Some(ParamList(ParamsClause(stmt).value))
  {
    match ParamsClause(stmt)
    case Some(p) => Some(ParamList(p))
    case None => None
  }

  /** The symbols the define matcher derives from a statement, before the
      React casing (finder.go:573-630). */
  function AmdSymbols(stmt: string, packageName: string): (r: seq<string>)
    ensures |r| == 1
    ensures packageName !in StatementDeps(stmt) ==> r == [packageName]
    ensures BoundParam(StatementDeps(stmt), StatementParams(stmt), packageName).Some? ==>
      r == [StatementParams(stmt).value[FirstIndex(StatementDeps(stmt), packageName)]]
    ensures BoundParam(StatementDeps(stmt), StatementParams(stmt), packageName).None? ==> r == [packageName]
  {
    AmdBinding(StatementDeps(stmt), StatementParams(stmt), packageName)
  }

  // ---------------------------------------------------------------------
  // Round trip: a define written out from its dependencies and parameters.

  /** `define([<deps>], function<ws>(<params>) <body>` */
  function DefineText(deps: seq<string>, ws: string, params: seq<string>, body: string): string {
    Callback("define([" + QuotedList(deps) + "], ", ws, Join(params, ", "), body)
  }

  /** A dependency name the list can carry: non-empty, without quotes, `]`,
      or the word `function`. */
  predicate IsDepName(d: string) {
    d != [] && QuoteFree(d) && (forall k :: 0 <= k < |d| ==> d[k] != ']') && !Contains(d, "function")
  }

  predicate AllDepNames(deps: seq<string>) {
    forall i :: 0 <= i < |deps| ==> IsDepName(deps[i])
  }

  predicate AllParamNames(params: seq<string>) {
    forall i :: 0 <= i < |params| ==> IsParamName(params[i]) && forall k :: 0 <= k < |params[i]| ==> params[i][k] != ')'
  }

  /** A written list ends in a quote and holds no `]` and no `function`. */
  lemma {:induction false} QuotedListShape(deps: seq<string>)
    requires AllDepNames(deps)
    ensures deps != [] ==> |QuotedList(deps)| > 0 && QuotedList(deps)[0] == '\''
    ensures deps != [] ==> QuotedList(deps)[|QuotedList(deps)| - 1] == '\''
    ensures Lacks(QuotedList(deps), ']')
    ensures !Contains(QuotedList(deps), "function")
  {
    if |deps| == 1 {
      QuotedNameShape(deps[0], "'");
    } else if |deps| > 1 {
      QuotedListShape(deps[1..]);
      QuotedNameShape(deps[0], "', ");
      LacksAppend("'" + deps[0] + "', ", QuotedList(deps[1..]), ']');
      NoOccurrenceConcat("'" + deps[0] + "', ", QuotedList(deps[1..]), "function");
    }
  }

  /** A dependency name after a quote and before `close`, which starts with a quote. */
  lemma QuotedNameShape(d: string, close: string)
    requires IsDepName(d) && |close| > 0 && close[0] == '\''
    requires Lacks(close, ']') && !Contains(close, "function")
    ensures Lacks("'" + d + close, ']')
    ensures !Contains("'" + d + close, "function")
  {
    assert Lacks(d, ']');
    LacksAppend("'", d, ']');
    LacksAppend("'" + d, close, ']');
    NoOccurrenceConcat("'", d, "function");
    NoOccurrenceConcat("'" + d, close, "function");
  }

  /** The dependency array of a written define is read back exactly. */
  lemma DefineTextDeps(deps: seq<string>, ws: string, params: seq<string>, body: string)
    requires AllDepNames(deps)
    ensures StatementDeps(DefineText(deps, ws, params, body)) == deps
  {
    QuotedListShape(deps);
    DefineTextRegroup(QuotedList(deps), ws, Join(params, ", "), body);
    DepsClauseOf("define(", QuotedList(deps), ", function" + ws + "(" + Join(params, ", ") + ")" + body);
    QuotedItemsRoundTrip(deps);
  }

  /** A written define, cut before its `[` and after its `]`. */
  lemma DefineTextRegroup(ql: string, ws: string, params: string, body: string)
    ensures Callback("define([" + ql + "], ", ws, params, body)
      == "define(" + "[" + ql + "]" + (", function" + ws + "(" + params + ")" + body)
  {
  }

  /** The text in front of the callback holds no `function`. */
  lemma DefinePrefixClean(deps: seq<string>)
    requires AllDepNames(deps)
    ensures !Contains("define([" + QuotedList(deps) + "], ", "function")
  {
    QuotedListShape(deps);
    var ql := QuotedList(deps);
    assert !Contains("define([", "function") by {
      forall k | 0 <= k
        ensures !OccursAt("define([", "function", k)
      {
        if k == 0 {
          assert "define(["[1] != "function"[1];
        }
      }
    }
    if deps == [] {
      assert "define([" + ql == "define([";
    } else {
      NoOccurrenceConcat("define([", ql, "function");
    }
    NoOccurrenceConcat("define([" + ql, "], ", "function");
  }

  /** The callback parameters of a written define are read back exactly. */
  lemma DefineTextParams(deps: seq<string>, ws: string, params: seq<string>, body: string)
    requires AllDepNames(deps) && params != [] && AllParamNames(params)
    requires forall i :: 0 <= i < |ws| ==> IsRegexSpace(ws[i])
    ensures StatementParams(DefineText(deps, ws, params, body)) == Some(params)
  {
    var pre := "define([" + QuotedList(deps) + "], ";
    DefinePrefixClean(deps);
    JoinAvoids(params, ", ", ')');
    ParamsClauseOf(pre, ws, Join(params, ", "), body);
    ParamListRoundTrip(params);
  }

  /** The define matcher reads back the parameter written at the package's
      first position among the dependencies, and falls back to the package
      name when there is no such parameter. */
  lemma AmdSymbolsRoundTrip(deps: seq<string>, ws: string, params: seq<string>, body: string, packageName: string)
    requires AllDepNames(deps) && params != [] && AllParamNames(params)
    requires forall i :: 0 <= i < |ws| ==> IsRegexSpace(ws[i])
    ensures AmdSymbols(DefineText(deps, ws, params, body), packageName) ==
      if packageName in deps && FirstIndex(deps, packageName) < |params| then [params[FirstIndex(deps, packageName)]]
      else [packageName]
  {
    DefineTextDeps(deps, ws, params, body);
    DefineTextParams(deps, ws, params, body);
  }

  // ---------------------------------------------------------------------
  // Parameters parsed from the truncated statement.

  /** The dependency capture once the first `[` and the first `]` are known. */
  lemma DepsClauseShape(s: string, b: nat, e: nat)
    requires IndexOfChar(s, '[') == b && IndexOfChar(s, ']') == e && b < e
    ensures DepsClause(s) == Some(s[SkipRegexSpace(s, b + 1)..e])
  {
    IndexOfCharIs(s[b + 1..], ']', e - b - 1);
  }

  /** Texts that agree on their first `n` bytes agree on every slice of them. */
  lemma SliceOfCommonPrefix(s: string, t: string, n: nat, a: nat, b: nat)
    requires n <= |s| && n <= |t| && s[..n] == t[..n] && a <= b <= n
    ensures s[a..b] == t[a..b]
  {
    forall k | a <= k < b
      ensures s[k] == t[k]
    {
      assert s[k] == s[..n][k];
      assert t[k] == t[..n][k];
    }
    assert forall i :: 0 <= i < b - a ==> s[a..b][i] == t[a..b][i];
  }

  /** The first occurrence of a byte is the same in texts that agree up to
      and including it. */
  lemma IndexOfCharPrefix(s: string, t: string, n: nat, c: char)
    requires n <= |s| && n <= |t| && s[..n] == t[..n]
    requires 0 <= IndexOfChar(s, c) < n
    ensures IndexOfChar(t, c) == IndexOfChar(s, c)
  {
    assert forall k :: 0 <= k < n ==> t[k] == s[k] by {
      forall k | 0 <= k < n
        ensures t[k] == s[k]
      {
        assert t[k] == t[..n][k];
      }
    }
  }

  /** The run of spaces is the same in texts that agree up to and including
      its end. */
  lemma SkipRegexSpacePrefix(s: string, t: string, n: nat, i: nat)
    requires n <= |s| && n <= |t| && s[..n] == t[..n]
    requires i <= |s| && SkipRegexSpace(s, i) < n
    ensures i <= |t| && SkipRegexSpace(t, i) == SkipRegexSpace(s, i)
  {
    var q := SkipRegexSpace(s, i);
    assert forall k :: 0 <= k < n ==> t[k] == s[k] by {
      forall k | 0 <= k < n
        ensures t[k] == s[k]
      {
        assert t[k] == t[..n][k];
      }
    }
    SkipRegexSpaceIs(t, i, q);
  }

  /** Two texts that agree on the first `[`, the first `]`, the spaces after
      the `[` and the bytes up to the `]` have the same dependency capture. */
  lemma DepsClauseSame(s: string, t: string, b: nat, e: nat, q: nat)
    requires IndexOfChar(s, '[') == b && IndexOfChar(t, '[') == b
    requires IndexOfChar(s, ']') == e && IndexOfChar(t, ']') == e && b < e
    requires SkipRegexSpace(s, b + 1) == q && SkipRegexSpace(t, b + 1) == q
    requires q <= e && s[q..e] == t[q..e]
    ensures DepsClause(s) == DepsClause(t)
  {
    DepsClauseShape(s, b, e);
    DepsClauseShape(t, b, e);
  }

  /** The dependency capture depends only on the text up to the first `]`. */
  lemma DepsClausePrefix(s: string, t: string, n: nat)
    requires 0 <= IndexOfChar(s, '[') < IndexOfChar(s, ']') < n <= |s|
    requires n <= |t| && s[..n] == t[..n]
    ensures DepsClause(t) == DepsClause(s)
  {
    var b := IndexOfChar(s, '[');
    var e := IndexOfChar(s, ']');
    IndexOfCharPrefix(s, t, n, '[');
    IndexOfCharPrefix(s, t, n, ']');
    var q := SkipRegexSpace(s, b + 1);
    assert q <= e by {
      assert s[e] == ']' && !IsRegexSpace(s[e]);
    }
    SkipRegexSpacePrefix(s, t, n, b + 1);
    SliceOfCommonPrefix(s, t, n, q, e);
    DepsClauseSame(s, t, b, e, q);
  }

  /** The parameter list `...` of the dependency-branch marker. */
  lemma MarkerParams()
    ensures ParamList("...") == ["..."]
  {
    ParamListRoundTrip(["..."]);
    assert Join(["..."], ", ") == "...";
  }

  /** The dependency-branch marker is the callback the parser finds. */
  lemma TruncatedCallback(kept: string)
    requires |kept| > 0 && kept[|kept| - 1] == ']' && !Contains(kept, "function")
    ensures StatementParams(kept + ", function(...) {...}") == Some(["..."])
  {
    var pre := kept + ", ";
    assert !Contains(pre, "function") by {
      assert !Contains(", ", "function");
      NoOccurrenceConcat(kept, ", ", "function");
    }
    assert kept + ", function(...) {...}" == Callback(pre, "", "...", " {...}");
    ParamsClauseOf(pre, "", "...", " {...}");
    MarkerParams();
  }

  /** When the dependency branch truncates a define statement, the callback
      the parser finds is the marker `function(...)`: the package's parameter
      becomes `...` when the package is the first dependency, and the
      package name otherwise. */
  lemma TruncatedParamsLost(stmt: string, packageName: string)
    requires |stmt| > 100 && !(0 < IndexOf(stmt, "function(") < 80)
    requires 0 < IndexOfChar(stmt, '[') < IndexOfChar(stmt, ']') < 100
    requires !Contains(stmt[..IndexOfChar(stmt, ']') + 1], "function")
    ensures StatementDeps(Truncate(stmt)) == StatementDeps(stmt)
    ensures StatementParams(Truncate(stmt)) == Some(["..."])
    ensures AmdSymbols(Truncate(stmt), packageName) ==
      if FirstIndex(StatementDeps(stmt), packageName) == 0 then ["..."] else [packageName]
  {
    var de := IndexOfChar(stmt, ']');
    var t := Truncate(stmt);
    KeptPrefix(stmt[..de + 1], ", function(...) {...}");
    DepsClausePrefix(stmt, t, de + 1);
    TruncatedCallback(stmt[..de + 1]);
    MarkerBinding(t, StatementDeps(stmt), packageName);
  }

  lemma MarkerBinding(t: string, deps: seq<string>, packageName: string)
    requires StatementDeps(t) == deps && StatementParams(t) == Some(["..."])
    ensures AmdSymbols(t, packageName) == if FirstIndex(deps, packageName) == 0 then ["..."] else [packageName]
  {
  }

  // ---------------------------------------------------------------------
  // The define matcher, as written and as intended.

  /** What the define matcher reports for a match, before the React casing:
      the statement and the symbols. */
  datatype DefineReport = DefineReport(statement: string, symbols: seq<string>)

  /** The define matcher as written (finder.go:516-630): the end scan starts
      with the count at 1, and the dependencies and parameters are parsed from
      the statement after truncation. */
  function DefineReportAsWritten(content: string, start: nat, packageName: string): (r: DefineReport)
    requires start <= |content|
    ensures r.statement == Truncate(DefineStatementFrom(content, start, 1))
    ensures IsTruncation(DefineStatementFrom(content, start, 1), r.statement)
    ensures |r.symbols| == 1
    ensures packageName !in StatementDeps(r.statement) ==> r.symbols == [packageName]
    ensures BoundParam(StatementDeps(r.statement), StatementParams(r.statement), packageName).Some? ==>
      r.symbols == [BoundParam(StatementDeps(r.statement), StatementParams(r.statement), packageName).value]
  {
    var statement := Truncate(DefineStatementFrom(content, start, 1));
    DefineReport(statement, AmdSymbols(statement, packageName))
  }

  /** The define matcher as intended: the end scan starts with the count at
      0, and the symbols are parsed from the whole statement; only the
      reported text is truncated. */
  function DefineReportCorrected(content: string, start: nat, packageName: string): (r: DefineReport)
    requires start <= |content|
    ensures r.statement == Truncate(DefineStatementFrom(content, start, 0))
    ensures IsTruncation(DefineStatementFrom(content, start, 0), r.statement)
    ensures |r.symbols| == 1
    ensures packageName !in StatementDeps(DefineStatementFrom(content, start, 0)) ==> r.symbols == [packageName]
    ensures var whole := DefineStatementFrom(content, start, 0);
      BoundParam(StatementDeps(whole), StatementParams(whole), packageName).Some? ==>
        r.symbols == [BoundParam(StatementDeps(whole), StatementParams(whole), packageName).value]
  {
    var whole := DefineStatementFrom(content, start, 0);
    DefineReport(Truncate(whole), AmdSymbols(whole, packageName))
  }

  /** `define(args);rest` with no parentheses in `args` or `rest`: the
      statement as written runs on over `rest` to the end of the content,
      the corrected one stops after `);`. */
  lemma DefineStatementRunsOn(args: string, rest: string)
    requires ParenFree(args) && ParenFree(rest) && |args| < 990
    ensures DefineStatementFrom("define(" + args + ");" + rest, 0, 0) == "define(" + args + ");"
    ensures DefineStatementFrom("define(" + args + ");" + rest, 0, 1) == TrimSpace("define(" + args + ");" + rest)
  {
    var c := "define(" + args + ");" + rest;
    DefineEndRunsOn(args, rest);
    var d := "define(" + args + ");";
    assert c[..|args| + 9] == d;
    assert d[0] == 'd' && d[|d| - 1] == ';';
    TrimSpaceOfTrimmed(d);
  }

  /** A define written on a line of its own, with a space between `function`
      and its parameter list. */
  function SpacedDefine(deps: seq<string>, params: seq<string>, code: string): string {
    DefineText(deps, " ", params, " {" + code + "})")
  }

  /** For a spaced define longer than 100 bytes, with no `function(` before
      byte 80 and its dependency list closed before byte 100, the corrected
      matcher binds the package to its callback parameter, while the matcher
      as written parses the truncated text and binds it to `...` or to the
      package name. Both report the same truncated statement. */
  lemma LongDefineReports(deps: seq<string>, params: seq<string>, code: string, packageName: string)
    requires AllDepNames(deps) && params != [] && AllParamNames(params)
    requires ParenFree(QuotedList(deps)) && ParenFree(Join(params, ", ")) && ParenFree(code)
    requires 100 < |SpacedDefine(deps, params, code)| <= 1000 && 9 + |QuotedList(deps)| < 100
    requires !(0 < IndexOf(SpacedDefine(deps, params, code), "function(") < 80)
    ensures DefineReportCorrected(SpacedDefine(deps, params, code), 0, packageName).symbols ==
      if packageName in deps && FirstIndex(deps, packageName) < |params| then [params[FirstIndex(deps, packageName)]]
      else [packageName]
    ensures DefineReportAsWritten(SpacedDefine(deps, params, code), 0, packageName).symbols ==
      if FirstIndex(deps, packageName) == 0 then ["..."] else [packageName]
    ensures DefineReportAsWritten(SpacedDefine(deps, params, code), 0, packageName).statement ==
      DefineReportCorrected(SpacedDefine(deps, params, code), 0, packageName).statement
  {
    var c := SpacedDefine(deps, params, code);
    SpacedDefineStatement(deps, params, code);
    AmdSymbolsRoundTrip(deps, " ", params, " {" + code + "})", packageName);
    SpacedDefineDeps(deps, params, code);
    DefineTextDeps(deps, " ", params, " {" + code + "})");
    TruncatedParamsLost(c, packageName);
  }

  /** The dependency list of a spaced define opens at byte 7 and closes
      before any `function`. */
  lemma SpacedDefineDeps(deps: seq<string>, params: seq<string>, code: string)
    requires AllDepNames(deps)
    ensures IndexOfChar(SpacedDefine(deps, params, code), '[') == 7
    ensures IndexOfChar(SpacedDefine(deps, params, code), ']') == 8 + |QuotedList(deps)|
    ensures !Contains(SpacedDefine(deps, params, code)[..9 + |QuotedList(deps)|], "function")
  {
    var ql := QuotedList(deps);
    SpacedRegroup(ql, Join(params, ", "), code);
    QuotedListShape(deps);
    DepsLayout(SpacedDefine(deps, params, code), ql, ", function (" + Join(params, ", ") + ") {" + code + "})");
    DefinePrefixClean(deps);
    assert "define([" + ql + "], " == ("define([" + ql + "]") + ", ";
    NoOccurrenceInPrefix("define([" + ql + "]", ", ", "function");
  }

  /** A spaced define, regrouped around its dependency list. */
  lemma SpacedRegroup(ql: string, ps: string, code: string)
    ensures Callback("define([" + ql + "], ", " ", ps, " {" + code + "})")
      == "define([" + ql + "]" + (", function (" + ps + ") {" + code + "})")
  {
    var tail := ps + ") {" + code + "})";
    assert Callback("define([" + ql + "], ", " ", ps, " {" + code + "})") == "define([" + ql + "], " + "function" + " " + "(" + tail;
    assert ", " + "function" + " " + "(" + tail == ", function (" + tail;
  }

  /** A spaced define, regrouped around its parentheses. */
  lemma SpacedParens(ql: string, ps: string, code: string)
    ensures Callback("define([" + ql + "], ", " ", ps, " {" + code + "})")
      == "define(" + ("[" + ql + "], function ") + "(" + ps + ")" + (" {" + code + "}") + ")"
  {
    var a := "[" + ql + "], function ";
    var b := " {" + code + "}";
    assert "define([" + ql + "], " + "function" + " " == "define(" + a;
    assert " {" + code + "})" == b + ")";
  }

  /** Where the first `[` and `]` of `define([ql]tail` lie. */
  lemma DepsLayout(c: string, ql: string, tail: string)
    requires c == "define([" + ql + "]" + tail && Lacks(ql, ']')
    ensures IndexOfChar(c, '[') == 7 && IndexOfChar(c, ']') == 8 + |ql|
    ensures c[..9 + |ql|] == "define([" + ql + "]"
  {
    var head := "define([" + ql + "]";
    assert c[..|head|] == head;
    IndexOfCharIs(c, '[', 7);
    forall k | 0 <= k < 8 + |ql|
      ensures c[k] != ']'
    {
      assert c[k] == head[k];
      if 8 <= k {
        assert head[k] == ql[k - 8];
      } else {
        assert head[k] == "define(["[k];
      }
    }
    IndexOfCharIs(c, ']', 8 + |ql|);
  }

  /** Both scans end a spaced define at its last byte, and the statement is
      the whole define. */
  lemma SpacedDefineStatement(deps: seq<string>, params: seq<string>, code: string)
    requires ParenFree(QuotedList(deps)) && ParenFree(Join(params, ", ")) && ParenFree(code)
    requires |SpacedDefine(deps, params, code)| <= 1000
    ensures DefineStatementFrom(SpacedDefine(deps, params, code), 0, 0) == SpacedDefine(deps, params, code)
    ensures DefineStatementFrom(SpacedDefine(deps, params, code), 0, 1) == SpacedDefine(deps, params, code)
  {
    var ql := QuotedList(deps);
    SpacedParens(ql, Join(params, ", "), code);
    ParenFreeParts(ql, code);
    BalancedStatement(SpacedDefine(deps, params, code), "[" + ql + "], function ", Join(params, ", "), " {" + code + "}");
  }

  lemma ParenFreeParts(ql: string, code: string)
    requires ParenFree(ql) && ParenFree(code)
    ensures ParenFree("[" + ql + "], function ") && ParenFree(" {" + code + "}")
  {
    ParenFreeConcat("[", ql);
    ParenFreeConcat("[" + ql, "], function ");
    ParenFreeConcat(" {", code);
    ParenFreeConcat(" {" + code, "}");
  }

  /** The statement of `define(a(p)b)` with no other parentheses is the
      whole text, for either start count. */
  lemma BalancedStatement(c: string, a: string, p: string, b: string)
    requires c == "define(" + a + "(" + p + ")" + b + ")"
    requires ParenFree(a) && ParenFree(p) && ParenFree(b) && |c| <= 1000
    ensures DefineStatementFrom(c, 0, 0) == c && DefineStatementFrom(c, 0, 1) == c
  {
    ScanBalanced(c, a, p, b);
    assert c[0] == 'd' && c[|c| - 1] == ')';
    TrimSpaceOfTrimmed(c);
    assert c[0..|c|] == c;
  }

  lemma ParenFreeConcat(x: string, y: string)
    requires ParenFree(x) && ParenFree(y)
    ensures ParenFree(x + y)
  {
    assert forall k :: |x| <= k < |x + y| ==> (x + y)[k] == y[k - |x|];
  }

  /** One byte of the scan. */
  lemma ScanStep(content: string, i: nat, limit: int, depth: int)
    requires i < |content| && i < limit
    ensures ScanClose(content, i, limit, depth) ==
      if content[i] == ')' && depth + Delta(content[i]) == 0 then i
      else ScanClose(content, i + 1, limit, depth + Delta(content[i]))
  {
  }

  /** `define(a(p)b)` with no other parentheses: the scan from its first
      `(` with the count at 0 stops at the last byte; with the count at 1 it
      never stops. */
  lemma ScanBalanced(c: string, a: string, p: string, b: string)
    requires c == "define(" + a + "(" + p + ")" + b + ")"
    requires ParenFree(a) && ParenFree(p) && ParenFree(b) && |c| <= 1000
    ensures ScanClose(c, 6, 1000, 0) == |c| - 1
    ensures ScanClose(c, 6, 1000, 1) == -1
  {
    var last := |c| - 1;
    ScanOverDefine(c, a, p, b, 0, 1000);
    ScanOverDefine(c, a, p, b, 1, 1000);
    assert c[last] == ')';
    ScanStep(c, last, 1000, 1);
    ScanStep(c, last, 1000, 2);
  }

  /** The scan over `define(a(p)b` gains one level and ends at the final `)`. */
  lemma ScanOverDefine(c: string, a: string, p: string, b: string, d: nat, limit: int)
    requires c == "define(" + a + "(" + p + ")" + b + ")"
    requires ParenFree(a) && ParenFree(p) && ParenFree(b) && |c| <= limit
    ensures ScanClose(c, 6, limit, d) == ScanClose(c, |c| - 1, limit, d + 1)
  {
    DefineLayout(c, a, p, b);
    ScanOverParens(c, 7 + |a|, 8 + |a| + |p|, d, limit);
  }

  /** The scan over `(…(…)…` with parenthesis-free runs between the three
      parentheses at 6, `i` and `j` reaches the byte before the end one level
      deeper than it started. */
  lemma ScanOverParens(c: string, i: nat, j: nat, d: nat, limit: int)
    requires 6 < i < j < |c| - 1 && |c| <= limit
    requires c[6] == '(' && c[i] == '(' && c[j] == ')'
    requires forall k :: 7 <= k < i ==> c[k] != '(' && c[k] != ')'
    requires forall k :: i < k < j ==> c[k] != '(' && c[k] != ')'
    requires forall k :: j < k < |c| - 1 ==> c[k] != '(' && c[k] != ')'
    ensures ScanClose(c, 6, limit, d) == ScanClose(c, |c| - 1, limit, d + 1)
  {
    ScanRun(c, 6, i, limit, d);
    ScanRun(c, i, j, limit, d + 1);
    ScanRun(c, j, |c| - 1, limit, d + 2);
  }

  /** One parenthesis that does not close the call, then a run free of
      parentheses: the scan moves past both with the count changed once. */
  lemma ScanRun(c: string, i: nat, j: nat, limit: int, d: int)
    requires i < j <= |c| && j <= limit
    requires !(c[i] == ')' && d + Delta(c[i]) == 0)
    requires forall k :: i < k < j ==> c[k] != '(' && c[k] != ')'
    ensures ScanClose(c, i, limit, d) == ScanClose(c, j, limit, d + Delta(c[i]))
  {
    ScanStep(c, i, limit, d);
    ScanSkip(c, i + 1, j, limit, d + Delta(c[i]));
  }

  /** The intended call of `define(a(p)b)` with no other parentheses is the
      whole text. */
  lemma DefineCallOfBalanced(c: string, a: string, p: string, b: string)
    requires c == "define(" + a + "(" + p + ")" + b + ")"
    requires ParenFree(a) && ParenFree(p) && ParenFree(b)
    ensures DefineCall(c, 0) == c
  {
    var last := |c| - 1;
    assert c[..6] == "define";
    ScanSkip(c, 0, 6, |c|, 0);
    ScanOverDefine(c, a, p, b, 0, |c|);
    assert c[last] == ')';
    ScanStep(c, last, |c|, 1);
    assert c[0..last + 1] == c;
  }

  /** Where the parts of `define(a(p)b)` lie. */
  lemma DefineLayout(c: string, a: string, p: string, b: string)
    requires c == "define(" + a + "(" + p + ")" + b + ")"
    requires ParenFree(a) && ParenFree(p) && ParenFree(b)
    ensures |c| == 10 + |a| + |p| + |b|
    ensures c[6] == '(' && c[7 + |a|] == '(' && c[8 + |a| + |p|] == ')' && c[9 + |a| + |p| + |b|] == ')'
    ensures forall k :: 7 <= k < 7 + |a| ==> c[k] != '(' && c[k] != ')'
    ensures forall k :: 8 + |a| <= k < 8 + |a| + |p| ==> c[k] != '(' && c[k] != ')'
    ensures forall k :: 9 + |a| + |p| <= k < 9 + |a| + |p| + |b| ==> c[k] != '(' && c[k] != ')'
  {
    assert forall k :: 7 <= k < 7 + |a| ==> c[k] == a[k - 7];
    assert forall k :: 8 + |a| <= k < 8 + |a| + |p| ==> c[k] == p[k - 8 - |a|];
    assert forall k :: 9 + |a| + |p| <= k < 9 + |a| + |p| + |b| ==> c[k] == b[k - 9 - |a| - |p|];
  }

  // ---------------------------------------------------------------------
  // `extractAMDParameterName` (finder.go:1052-1132), a helper no caller
  // reaches: the define call, the module pattern
  // `\[([^\]]*?)['"]pkg['"]([^\]]*?)\]`, and the same positional binding.

  /** The define call as written: scanned from `defineStart + 1` with the
      count at 1, so a call whose parentheses balance never ends and the
      call text is empty (finder.go:1054-1069). */
  function DefineCallAsWritten(content: string, defineStart: nat): (call: string)
    requires defineStart <= |content|
    ensures call == [] || (|call| > 0 && call[|call| - 1] == ')')
  {
    var close := ScanClose(content, defineStart + 1, |content|, 1);
    if close >= 0 then content[defineStart..close + 1] else []
  }

  /** The define call as intended: scanned from `defineStart` with the count
      at 0, up to the `)` matching the first `(`. */
  function DefineCall(content: string, defineStart: nat): (call: string)
    requires defineStart <= |content|
    ensures call == [] || (|call| > 0 && call[|call| - 1] == ')')
  {
    var close := ScanClose(content, defineStart, |content|, 0);
    if close >= 0 then content[defineStart..close + 1] else []
  }

  /** The two captures of the module pattern. */
  datatype ModuleCapture = ModuleCapture(before: string, after: string)

  /** The bracket at `b`, the quoted name at `k` and the bracket at `e`
      delimit the capture `c`. */
  predicate CapturedBetween(s: string, packageName: string, b: int, k: int, e: int, c: ModuleCapture) {
    0 <= b < k && k + |packageName| + 2 <= e < |s| && QuotedAt(s, packageName, k)
    && s[e] == ']' && c == ModuleCapture(s[b + 1..k], s[k + |packageName| + 2..e])
  }

  /** The first `]` at or after `m`, or -1. */
  function NextClose(s: string, m: nat): (r: int)
    requires m <= |s|
    ensures r == -1 || (m <= r < |s| && s[r] == ']' && Lacks(s[m..r], ']'))
    ensures r < 0 ==> forall e :: m <= e < |s| ==> s[e] != ']'
  {
    var e := IndexOfChar(s[m..], ']');
    if e < 0 then
      assert forall i :: m <= i < |s| ==> s[i] == s[m..][i - m];
      -1
    else
      assert s[m + e] == s[m..][e];
      LacksSliceBeforeFirst(s, m, e, ']');
      m + e
  }

  /** Every stretch from `m` that stops at or before the first `]` lacks one. */
  lemma LacksBeforeClose(s: string, m: nat, n: nat)
    requires m + n <= |s| && (NextClose(s, m) < 0 || m + n <= NextClose(s, m))
    ensures Lacks(s[m..m + n], ']')
  {
    LacksSliceBeforeFirst(s, m, n, ']');
  }

  /** The module pattern tried at the `[` at `b`: its lazy first group stops
      at the first quoted package name before the next `]`, its lazy second
      group at the first `]` after the name. */
  function CaptureAt(s: string, packageName: string, b: nat): (r: Option<ModuleCapture>)
    requires b < |s| && s[b] == '['
    ensures r.Some? ==> exists k, e ::
              && CapturedBetween(s, packageName, b, k, e, r.value)
              && k == FindQuotedFrom(s, packageName, b + 1) && (NextClose(s, b + 1) < 0 || k <= NextClose(s, b + 1))
              && e == NextClose(s, k + |packageName| + 2)
    ensures r.Some? ==> Lacks(r.value.before, ']') && Lacks(r.value.after, ']')
  {
    var limit := NextClose(s, b + 1);
    var k := FindQuotedFrom(s, packageName, b + 1);
    if k < 0 || (limit >= 0 && k > limit) then None
    else
      var e := NextClose(s, k + |packageName| + 2);
      if e < 0 then None
      else
        LacksBeforeClose(s, b + 1, k - b - 1);
        assert CapturedBetween(s, packageName, b, k, e, ModuleCapture(s[b + 1..k], s[k + |packageName| + 2..e]));
        Some(ModuleCapture(s[b + 1..k], s[k + |packageName| + 2..e]))
  }

  /** The module pattern matches with its `[` at `b`, the quoted name at `k`
      and its `]` at `e`: neither lazy group holds a `]`. */
  predicate ModuleMatchAt(s: string, packageName: string, b: int, k: int, e: int) {
    0 <= b < k && k + |packageName| + 2 <= e < |s| && s[b] == '[' && QuotedAt(s, packageName, k) && s[e] == ']'
    && Lacks(s[b + 1..k], ']') && Lacks(s[k + |packageName| + 2..e], ']')
  }

  /** The match the lazy first group prefers: no quoted name lies between
      the `[` and the one it stops at. */
  predicate FirstModuleMatchAt(s: string, packageName: string, b: int, k: int, e: int) {
    ModuleMatchAt(s, packageName, b, k, e) && forall j :: b < j < k ==> !QuotedAt(s, packageName, j)
  }

  /** `CaptureAt` finds nothing exactly when the pattern has no match at
      `b`, and otherwise captures the match at the first quoted name. */
  lemma CaptureAtComplete(s: string, packageName: string, b: nat)
    requires b < |s| && s[b] == '['
    ensures CaptureAt(s, packageName, b).None? <==> forall k, e :: !ModuleMatchAt(s, packageName, b, k, e)
    ensures CaptureAt(s, packageName, b).Some? ==> exists k, e ::
      FirstModuleMatchAt(s, packageName, b, k, e) && CapturedBetween(s, packageName, b, k, e, CaptureAt(s, packageName, b).value)
  {
    if CaptureAt(s, packageName, b).Some? {
      CaptureAtFirst(s, packageName, b);
    } else {
      CaptureAtNone(s, packageName, b);
    }
  }

  /** A capture comes from the match at the first quoted name. */
  lemma CaptureAtFirst(s: string, packageName: string, b: nat)
    requires b < |s| && s[b] == '[' && CaptureAt(s, packageName, b).Some?
    ensures exists k, e ::
              FirstModuleMatchAt(s, packageName, b, k, e) && CapturedBetween(s, packageName, b, k, e, CaptureAt(s, packageName, b).value)
  {
    var k, e :| CapturedBetween(s, packageName, b, k, e, CaptureAt(s, packageName, b).value)
      && k == FindQuotedFrom(s, packageName, b + 1) && (NextClose(s, b + 1) < 0 || k <= NextClose(s, b + 1))
      && e == NextClose(s, k + |packageName| + 2);
    MatchAtFirstQuote(s, packageName, b, k, e);
  }

  /** No capture means no match at all. */
  lemma CaptureAtNone(s: string, packageName: string, b: nat)
    requires b < |s| && s[b] == '[' && CaptureAt(s, packageName, b).None?
    ensures forall k, e :: !ModuleMatchAt(s, packageName, b, k, e)
  {
    var limit := NextClose(s, b + 1);
    var k := FindQuotedFrom(s, packageName, b + 1);
    if k < 0 {
      NoMatchWithoutQuote(s, packageName, b);
    } else if limit >= 0 && k > limit {
      NoMatchPastClose(s, packageName, b, limit);
    } else {
      NoMatchWithoutClose(s, packageName, b, k + |packageName| + 2);
    }
  }

  lemma NoMatchWithoutQuote(s: string, packageName: string, b: nat)
    requires FindQuotedFrom(s, packageName, b + 1) < 0
    ensures forall k, e :: !ModuleMatchAt(s, packageName, b, k, e)
  {
  }

  /** A first quoted name past the first `]` leaves every group one `]` too many. */
  lemma NoMatchPastClose(s: string, packageName: string, b: nat, limit: nat)
    requires b < limit < |s| && s[limit] == ']' && FindQuotedFrom(s, packageName, b + 1) > limit
    ensures forall k, e :: !ModuleMatchAt(s, packageName, b, k, e)
  {
    forall k | b < k && k + |packageName| + 2 <= |s| && QuotedAt(s, packageName, k)
      ensures !Lacks(s[b + 1..k], ']')
    {
      assert s[b + 1..k][limit - b - 1] == s[limit];
    }
  }

  /** No `]` after the first quoted name leaves the second group unclosed. */
  lemma NoMatchWithoutClose(s: string, packageName: string, b: nat, m: nat)
    requires FindQuotedFrom(s, packageName, b + 1) >= 0
    requires m == FindQuotedFrom(s, packageName, b + 1) + |packageName| + 2 <= |s|
    requires NextClose(s, m) < 0
    ensures forall k, e :: !ModuleMatchAt(s, packageName, b, k, e)
  {
  }

  /** The first quoted name before the first `]`, then the first `]` after it. */
  lemma MatchAtFirstQuote(s: string, packageName: string, b: nat, k: nat, e: nat)
    requires b < |s| && s[b] == '['
    requires k == FindQuotedFrom(s, packageName, b + 1)
    requires NextClose(s, b + 1) < 0 || k <= NextClose(s, b + 1)
    requires e == NextClose(s, k + |packageName| + 2)
    ensures FirstModuleMatchAt(s, packageName, b, k, e)
  {
    LacksBeforeClose(s, b + 1, k - b - 1);
    assert ModuleMatchAt(s, packageName, b, k, e);
  }

  /** The `[` at `j` is the leftmost at or after `b` where the pattern matches. */
  predicate FirstCaptureAt(s: string, packageName: string, b: nat, j: nat) {
    b <= j < |s| && s[j] == '[' && CaptureAt(s, packageName, j).Some?
    && forall i :: b <= i < j && s[i] == '[' ==> CaptureAt(s, packageName, i).None?
  }

  /** The leftmost `[` at or after `b` where the module pattern matches. */
  function ModuleMatchFrom(s: string, packageName: string, b: nat): Option<ModuleCapture>
    decreases |s| - b
  {
    if b >= |s| then None
    else if s[b] == '[' && CaptureAt(s, packageName, b).Some? then CaptureAt(s, packageName, b)
    else ModuleMatchFrom(s, packageName, b + 1)
  }

  /** `ModuleMatchFrom` finds nothing exactly when no `[` at or after `b`
      starts a match, and otherwise the capture at the leftmost one that does. */
  lemma {:induction false} ModuleMatchFromComplete(s: string, packageName: string, b: nat)
    ensures ModuleMatchFrom(s, packageName, b).None? <==>
      forall j :: b <= j < |s| && s[j] == '[' ==> CaptureAt(s, packageName, j).None?
    ensures ModuleMatchFrom(s, packageName, b).Some? ==>
      exists j :: FirstCaptureAt(s, packageName, b, j) && CaptureAt(s, packageName, j) == ModuleMatchFrom(s, packageName, b)
    decreases |s| - b
  {
    if b < |s| {
      if s[b] == '[' && CaptureAt(s, packageName, b).Some? {
        assert FirstCaptureAt(s, packageName, b, b);
      } else {
        ModuleMatchFromComplete(s, packageName, b + 1);
        var r := ModuleMatchFrom(s, packageName, b + 1);
        if r.Some? {
          var j :| FirstCaptureAt(s, packageName, b + 1, j) && CaptureAt(s, packageName, j) == r;
          assert FirstCaptureAt(s, packageName, b, j);
        }
      }
    }
  }


  /** The parameter `extractAMDParameterName` returns for a define call: the
      dependencies are re-read from the two captures around the package name,
      and the same positional rule applies; "" where the source gives up. */
  function ParameterOfCall(call: string, packageName: string): (r: string)
    ensures r != "" ==> exists c :: (ModuleMatchFrom(call, packageName, 0) == Some(c)
      && BoundParam(CaptureDeps(c, packageName), StatementParams(call), packageName) == Some(r))
    ensures forall p :: BindsTo(call, packageName, p) ==> r == p
    ensures r == "" <==> Unbound(call, packageName)
  {
    match ModuleMatchFrom(call, packageName, 0)
    case None => ""
    case Some(c) =>
      var deps := CaptureDeps(c, packageName);
      match BoundParam(deps, StatementParams(call), packageName)
      case Some(p) =>
        var i := FirstIndex(deps, packageName);
        assert p == StatementParams(call).value[i] != [];
        p
      case None => ""
  }

  /** The dependency list `extractAMDParameterName` re-reads from the two
      captures around the package name (finder.go:1089-1096). */
  function CaptureDeps(c: ModuleCapture, packageName: string): seq<string> {
    QuotedItems(c.before + "'" + packageName + "'" + c.after)
  }

  /** The module pattern matches the call and the dependencies it reads bind
      the package to the parameter `p`. */
  predicate BindsTo(call: string, packageName: string, p: string) {
    ModuleMatchFrom(call, packageName, 0).Some?
    && BoundParam(CaptureDeps(ModuleMatchFrom(call, packageName, 0).value, packageName), StatementParams(call), packageName) == Some(p)
  }

  /** The module pattern does not match the call, or binds no parameter. */
  predicate Unbound(call: string, packageName: string) {
    ModuleMatchFrom(call, packageName, 0).None?
    || BoundParam(CaptureDeps(ModuleMatchFrom(call, packageName, 0).value, packageName), StatementParams(call), packageName).None?
  }

  /** `extractAMDParameterName` as written. */
  function ExtractAmdParameterNameAsWritten(content: string, defineStart: nat, packageName: string): (r: string)
    requires defineStart <= |content|
    ensures DefineCallAsWritten(content, defineStart) == [] ==> r == ""
    ensures r != "" ==> StatementParams(DefineCallAsWritten(content, defineStart)).Some?
                        && r in StatementParams(DefineCallAsWritten(content, defineStart)).value
    ensures forall p :: BindsTo(DefineCallAsWritten(content, defineStart), packageName, p) ==> r == p
    ensures r == "" <==> Unbound(DefineCallAsWritten(content, defineStart), packageName)
  {
    ParameterOfCall(DefineCallAsWritten(content, defineStart), packageName)
  }

  /** `extractAMDParameterName` with the define call scanned as intended. */
  function ExtractAmdParameterName(content: string, defineStart: nat, packageName: string): (r: string)
    requires defineStart <= |content|
    ensures DefineCall(content, defineStart) == [] ==> r == ""
    ensures r != "" ==> StatementParams(DefineCall(content, defineStart)).Some?
                        && r in StatementParams(DefineCall(content, defineStart)).value
    ensures forall p :: BindsTo(DefineCall(content, defineStart), packageName, p) ==> r == p
    ensures r == "" <==> Unbound(DefineCall(content, defineStart), packageName)
  {
    ParameterOfCall(DefineCall(content, defineStart), packageName)
  }

  /** Both binders agree on a call whose module capture reads the same
      dependency list as the define matcher: the helper's parameter is the
      matcher's symbol, and "" stands for the matcher's fallback. */
  lemma ParameterOfCallAgrees(call: string, packageName: string, c: ModuleCapture)
    requires ModuleMatchFrom(call, packageName, 0) == Some(c)
    requires CaptureDeps(c, packageName) == StatementDeps(call)
    ensures AmdSymbols(call, packageName) ==
      if ParameterOfCall(call, packageName) != "" then [ParameterOfCall(call, packageName)] else [packageName]
  {
    var b := BoundParam(StatementDeps(call), StatementParams(call), packageName);
    if b.Some? {
      var i := FirstIndex(StatementDeps(call), packageName);
      assert b.value == StatementParams(call).value[i];
    }
  }

  // Depth arithmetic for the call scans.

  lemma {:induction false} DepthSplit(content: string, a: nat, b: nat, c: nat)
    requires a <= b <= c <= |content|
    ensures Depth(content, a, c) == Depth(content, a, b) + Depth(content, b, c)
    decreases b - a
  {
    if a < b {
      DepthSplit(content, a + 1, b, c);
    }
  }

  lemma {:induction false} DepthParenFree(content: string, a: nat, b: nat)
    requires a <= b <= |content|
    requires forall k :: a <= k < b ==> content[k] != '(' && content[k] != ')'
    ensures Depth(content, a, b) == 0
    decreases b - a
  {
    if a < b {
      DepthParenFree(content, a + 1, b);
    }
  }

  /** The intended scan returns the call up to the `)` matching the `(` that
      follows the word `define`; the scan as written never does. */
  lemma DefineCallMatches(content: string, defineStart: nat, c: nat)
    requires defineStart + 6 <= |content| && content[defineStart..defineStart + 6] == "define"
    requires Matching(content, defineStart + 6, c)
    ensures DefineCall(content, defineStart) == content[defineStart..c + 1]
    ensures DefineCallAsWritten(content, defineStart) != content[defineStart..c + 1]
  {
    var d := defineStart;
    var p := d + 6;
    assert forall k :: d <= k < p ==> content[k] == "define"[k - d];
    forall k | p <= k <= c + 1
      ensures Depth(content, d, k) == Depth(content, p, k)
      ensures Depth(content, d + 1, k) == Depth(content, p, k)
    {
      DepthSplit(content, d, p, k);
      DepthParenFree(content, d, p);
      DepthSplit(content, d + 1, p, k);
      DepthParenFree(content, d + 1, p);
    }
    assert Closes(content, d, 0, c);
    forall k | d <= k < c
      ensures !Closes(content, d, 0, k)
    {
      if k >= p {
        assert Depth(content, p, k + 1) > 0;
      }
    }
    var q := d + 1;
    forall k | q <= k <= c
      ensures !Closes(content, q, 1, k)
    {
      if p <= k < c {
        assert Depth(content, p, k + 1) > 0;
      }
    }
  }

  /** As written, a define call whose parentheses balance, with no
      parenthesis after it, yields an empty call and so the result "", for
      every package. */
  lemma ExtractAsWrittenEmpty(content: string, defineStart: nat, c: nat, packageName: string)
    requires defineStart + 6 <= |content| && content[defineStart..defineStart + 6] == "define"
    requires Matching(content, defineStart + 6, c)
    requires forall k :: c < k < |content| ==> content[k] != '(' && content[k] != ')'
    ensures DefineCallAsWritten(content, defineStart) == []
    ensures ExtractAmdParameterNameAsWritten(content, defineStart, packageName) == ""
  {
    var d := defineStart;
    var p := d + 6;
    assert forall k :: d <= k < p ==> content[k] == "define"[k - d];
    var q := d + 1;
    forall k | q <= k < |content|
      ensures !Closes(content, q, 1, k)
    {
      if k >= p {
        DepthSplit(content, q, p, k + 1);
        DepthParenFree(content, q, p);
        if k < c {
          assert Depth(content, p, k + 1) > 0;
        } else if k > c {
          DepthSplit(content, p, c + 1, k + 1);
          DepthParenFree(content, c + 1, k + 1);
        }
      }
    }
  }

  // ---------------------------------------------------------------------
  // Round trip through `extractAMDParameterName`: a define written out from
  // its dependencies and parameters.

  /** For a written define naming the package among its dependencies, the
      helper, with the call scanned as intended, returns the parameter
      written at the package's first position, and "" when the parameter
      list is too short. */
  lemma ExtractAmdParameterNameRoundTrip(deps: seq<string>, ws: string, params: seq<string>, code: string, packageName: string)
    requires AllDepNames(deps) && params != [] && AllParamNames(params)
    requires forall i :: 0 <= i < |ws| ==> IsRegexSpace(ws[i])
    requires ParenFree(QuotedList(deps)) && ParenFree(Join(params, ", ")) && ParenFree(code)
    requires packageName in deps && Lacks(packageName, ']')
    ensures ExtractAmdParameterName(DefineText(deps, ws, params, " {" + code + "})"), 0, packageName) ==
      if FirstIndex(deps, packageName) < |params| then params[FirstIndex(deps, packageName)] else ""
  {
    var c := DefineText(deps, ws, params, " {" + code + "})");
    DefineCallOfText(deps, ws, params, code);
    DefineTextParams(deps, ws, params, " {" + code + "})");
    DefineCaptureDeps(deps, ws, params, " {" + code + "})", packageName);
    ParameterOfDeps(c, packageName, deps, params);
  }

  /** The intended scan takes a written define whole. */
  lemma DefineCallOfText(deps: seq<string>, ws: string, params: seq<string>, code: string)
    requires forall i :: 0 <= i < |ws| ==> IsRegexSpace(ws[i])
    requires ParenFree(QuotedList(deps)) && ParenFree(Join(params, ", ")) && ParenFree(code)
    ensures DefineCall(DefineText(deps, ws, params, " {" + code + "})"), 0) == DefineText(deps, ws, params, " {" + code + "})")
  {
    var ql := QuotedList(deps);
    var head := "[" + ql + "], function" + ws;
    DefineTextParens(ql, ws, Join(params, ", "), code);
    assert ParenFree(ws);
    ParenFreeConcat("[", ql);
    ParenFreeConcat("[" + ql, "], function");
    ParenFreeConcat("[" + ql + "], function", ws);
    ParenFreeParts(ql, code);
    DefineCallOfBalanced(DefineText(deps, ws, params, " {" + code + "})"), head, Join(params, ", "), " {" + code + "}");
  }

  /** The helper's parameter once the module capture reads `deps` back and
      the callback's parameters are `params`. */
  lemma ParameterOfDeps(call: string, packageName: string, deps: seq<string>, params: seq<string>)
    requires ModuleMatchFrom(call, packageName, 0).Some?
    requires CaptureDeps(ModuleMatchFrom(call, packageName, 0).value, packageName) == deps
    requires StatementParams(call) == Some(params)
    ensures ParameterOfCall(call, packageName) ==
      if packageName in deps && FirstIndex(deps, packageName) < |params| then params[FirstIndex(deps, packageName)] else ""
  {
    var i := FirstIndex(deps, packageName);
    if packageName in deps && i < |params| {
      assert BindsTo(call, packageName, params[i]);
    } else {
      assert Unbound(call, packageName);
    }
  }

  /** `define(['x', 'pkg'], function(a, b) {})`: the package is the second
      dependency, so the helper returns the second parameter. */
  lemma ExtractAmdParameterNameExample()
    ensures ExtractAmdParameterName("define(['x', 'pkg'], function(a, b) {})", 0, "pkg") == "b"
  {
    var deps := ["x", "pkg"];
    var params := ["a", "b"];
    ExampleShape();
    forall d | d in deps
      ensures IsDepName(d)
    {
      NoFunctionInShort(d);
    }
    assert IsParamName("a") && IsParamName("b");
    assert FirstIndex(deps, "pkg") == 1;
    ExtractAmdParameterNameRoundTrip(deps, "", params, "", "pkg");
  }

  lemma ExampleShape()
    ensures QuotedList(["x", "pkg"]) == "'x', 'pkg'"
    ensures Join(["a", "b"], ", ") == "a, b"
    ensures DefineText(["x", "pkg"], "", ["a", "b"], " {" + "" + "})") == "define(['x', 'pkg'], function(a, b) {})"
    ensures ParenFree("'x', 'pkg'") && ParenFree("a, b") && ParenFree("")
  {
    ExampleList();
    ExampleParams();
    ExampleCallback();
    ExampleParenFree();
  }

  lemma ExampleCallback()
    ensures Callback("define([" + "'x', 'pkg'" + "], ", "", "a, b", " {" + "" + "})") == "define(['x', 'pkg'], function(a, b) {})"
  {
    assert "define([" + "'x', 'pkg'" + "], " == "define(['x', 'pkg'], ";
    assert "define(['x', 'pkg'], " + "function" + "" == "define(['x', 'pkg'], function";
    assert "define(['x', 'pkg'], function" + "(" + "a, b" + ")" == "define(['x', 'pkg'], function(a, b)";
    assert " {" + "" + "})" == " {})";
  }

  lemma ExampleParenFree()
    ensures ParenFree("'x', 'pkg'") && ParenFree("a, b") && ParenFree("")
  {
  }

  lemma ExampleList()
    ensures QuotedList(["x", "pkg"]) == "'x', 'pkg'"
  {
    assert ["x", "pkg"][1..] == ["pkg"];
  }

  lemma ExampleParams()
    ensures Join(["a", "b"], ", ") == "a, b"
  {
    assert Join(["a", "b"][1..], ", ") == "b";
  }

  /** A name shorter than `function` does not contain it. */
  lemma NoFunctionInShort(d: string)
    requires |d| < 8
    ensures !Contains(d, "function")
  {
  }

  /** A written define, cut around its parentheses. */
  lemma DefineTextParens(ql: string, ws: string, ps: string, code: string)
    ensures Callback("define([" + ql + "], ", ws, ps, " {" + code + "})")
      == "define(" + ("[" + ql + "], function" + ws) + "(" + ps + ")" + (" {" + code + "}") + ")"
  {
    assert "define([" + ql + "], " + "function" + ws == "define(" + ("[" + ql + "], function" + ws);
    assert " {" + code + "})" == (" {" + code + "}") + ")";
  }

  /** The module pattern matches a written define at its dependency array,
      and the two captures around the package name give the list back. */
  lemma DefineCaptureDeps(deps: seq<string>, ws: string, params: seq<string>, body: string, packageName: string)
    requires AllDepNames(deps) && packageName in deps && Lacks(packageName, ']')
    ensures ModuleMatchFrom(DefineText(deps, ws, params, body), packageName, 0).Some?
    ensures CaptureDeps(ModuleMatchFrom(DefineText(deps, ws, params, body), packageName, 0).value, packageName) == deps
  {
    DefineTextLayout(deps, ws, params, body);
    ListCaptureDeps(DefineText(deps, ws, params, body), deps, packageName);
  }

  /** The same for any text holding `[`, the written list and `]` at 7, with
      no `[` before. */
  lemma ListCaptureDeps(c: string, deps: seq<string>, packageName: string)
    requires AllDepNames(deps) && packageName in deps && Lacks(packageName, ']')
    requires 8 + |QuotedList(deps)| < |c| && c[7] == '[' && c[8 + |QuotedList(deps)|] == ']'
    requires forall k :: 0 <= k < 7 ==> c[k] != '['
    requires c[8..8 + |QuotedList(deps)|] == QuotedList(deps)
    ensures ModuleMatchFrom(c, packageName, 0).Some?
    ensures CaptureDeps(ModuleMatchFrom(c, packageName, 0).value, packageName) == deps
  {
    var ql := QuotedList(deps);
    QuotedListShape(deps);
    QuotedInList(deps, FirstIndex(deps, packageName));
    OnlySingleQuotes(deps);
    CaptureOfList(c, ql, packageName);
    SkipDefineOpen(c, packageName);
    ModuleMatchHere(c, packageName, 7);
    QuotedItemsRoundTrip(deps);
  }

  /** The module pattern's search passes over a `define(` free of `[`. */
  lemma SkipDefineOpen(c: string, packageName: string)
    requires 7 < |c| && forall k :: 0 <= k < 7 ==> c[k] != '['
    ensures ModuleMatchFrom(c, packageName, 0) == ModuleMatchFrom(c, packageName, 7)
  {
    ModuleMatchSkip(c, packageName, 0);
    ModuleMatchSkip(c, packageName, 1);
    ModuleMatchSkip(c, packageName, 2);
    ModuleMatchSkip(c, packageName, 3);
    ModuleMatchSkip(c, packageName, 4);
    ModuleMatchSkip(c, packageName, 5);
    ModuleMatchSkip(c, packageName, 6);
  }

  /** Where the dependency array of a written define lies. */
  lemma DefineTextLayout(deps: seq<string>, ws: string, params: seq<string>, body: string)
    requires AllDepNames(deps)
    ensures 8 + |QuotedList(deps)| < |DefineText(deps, ws, params, body)|
    ensures forall k :: 0 <= k < 7 ==> DefineText(deps, ws, params, body)[k] != '['
    ensures DefineText(deps, ws, params, body)[7] == '['
    ensures DefineText(deps, ws, params, body)[8..8 + |QuotedList(deps)|] == QuotedList(deps)
    ensures DefineText(deps, ws, params, body)[8 + |QuotedList(deps)|] == ']'
  {
    var c := DefineText(deps, ws, params, body);
    var ql := QuotedList(deps);
    var head := "define([" + ql + "]";
    QuotedListShape(deps);
    DefineTextRegroup(ql, ws, Join(params, ", "), body);
    DepsLayout(c, ql, ", function" + ws + "(" + Join(params, ", ") + ")" + body);
    assert forall k :: 0 <= k < 9 + |ql| ==> c[k] == head[k];
    assert forall k :: 0 <= k < 7 ==> head[k] == "define("[k];
    assert head[8..8 + |ql|] == ql;
  }

  /** The module pattern tried at a `[` at 7 whose `]` closes a list `ql`
      that quotes the name: it matches, and its captures around the name
      rebuild `ql`. */
  lemma CaptureOfList(c: string, ql: string, packageName: string)
    requires 8 + |ql| < |c| && c[7] == '[' && c[8..8 + |ql|] == ql && c[8 + |ql|] == ']'
    requires Lacks(ql, ']') && Lacks(packageName, ']')
    requires forall k :: 0 <= k < |ql| && IsQuote(ql[k]) ==> ql[k] == '\''
    requires exists j :: QuotedAt(ql, packageName, j)
    ensures CaptureAt(c, packageName, 7).Some?
    ensures CaptureAt(c, packageName, 7).value.before + "'" + packageName + "'" + CaptureAt(c, packageName, 7).value.after == ql
  {
    var j :| QuotedAt(ql, packageName, j);
    MatchInList(c, ql, packageName, j);
    CaptureAtComplete(c, packageName, 7);
    var cap := CaptureAt(c, packageName, 7).value;
    var k, e :| CapturedBetween(c, packageName, 7, k, e, cap);
    CaptureRebuildsList(c, ql, packageName, k, e, cap);
  }

  /** A quoted name in the list gives a match of the module pattern. */
  lemma MatchInList(c: string, ql: string, packageName: string, j: int)
    requires 8 + |ql| < |c| && c[7] == '[' && c[8..8 + |ql|] == ql && c[8 + |ql|] == ']'
    requires Lacks(ql, ']') && QuotedAt(ql, packageName, j)
    ensures ModuleMatchAt(c, packageName, 7, 8 + j, 8 + |ql|)
  {
    var n := |packageName|;
    var close := 8 + |ql|;
    assert c[8 + j] == ql[j] && c[8 + j + 1 + n] == ql[j + 1 + n];
    SliceOfSlice(c, 8, close, j + 1, j + 1 + n);
    SliceOfSlice(c, 8, close, 0, j);
    SliceOfSlice(c, 8, close, j + n + 2, |ql|);
    assert Lacks(ql[..j], ']') && Lacks(ql[j + n + 2..], ']');
  }

  /** Any capture of the module pattern at 7 ends at the list's `]`, and the
      quoted name it stops at is quoted with `'`, so the captures around it
      rebuild the list. */
  lemma CaptureRebuildsList(c: string, ql: string, packageName: string, k: int, e: int, cap: ModuleCapture)
    requires 8 + |ql| < |c| && c[8..8 + |ql|] == ql && c[8 + |ql|] == ']'
    requires Lacks(ql, ']') && Lacks(packageName, ']')
    requires forall i :: 0 <= i < |ql| && IsQuote(ql[i]) ==> ql[i] == '\''
    requires CapturedBetween(c, packageName, 7, k, e, cap) && Lacks(cap.before, ']') && Lacks(cap.after, ']')
    ensures cap.before + "'" + packageName + "'" + cap.after == ql
  {
    var n := |packageName|;
    var close := 8 + |ql|;
    assert forall i :: 8 <= i < close ==> c[i] == ql[i - 8];
    forall p | 8 <= p < e
      ensures c[p] != ']'
    {
      if p < k {
        assert c[p] == cap.before[p - 8];
      } else if k < p < k + n + 1 {
        assert c[p] == packageName[p - k - 1];
      } else if p >= k + n + 2 {
        assert c[p] == cap.after[p - k - n - 2];
      }
    }
    assert e == close;
    assert c[k] == '\'' && c[k + n + 1] == '\'';
    assert c[k..k + n + 2] == "'" + packageName + "'" by {
      assert c[k + 1..k + 1 + n] == packageName;
    }
    calc {
      cap.before + "'" + packageName + "'" + cap.after;
      c[8..k] + c[k..k + n + 2] + c[k + n + 2..close];
      c[8..close];
    }
  }

  /** Every quote in a written list of quote-free names is `'`. */
  lemma {:induction false} OnlySingleQuotes(deps: seq<string>)
    requires AllDepNames(deps)
    ensures forall k :: 0 <= k < |QuotedList(deps)| && IsQuote(QuotedList(deps)[k]) ==> QuotedList(deps)[k] == '\''
  {
    if |deps| == 1 {
      assert forall k :: 1 <= k < 1 + |deps[0]| ==> QuotedList(deps)[k] == deps[0][k - 1];
    } else if |deps| > 1 {
      OnlySingleQuotes(deps[1..]);
      var h := "'" + deps[0] + "', ";
      assert forall k :: 1 <= k < 1 + |deps[0]| ==> QuotedList(deps)[k] == deps[0][k - 1];
      assert forall k :: |h| <= k < |QuotedList(deps)| ==> QuotedList(deps)[k] == QuotedList(deps[1..])[k - |h|];
    }
  }

  /** Each name of a written list appears in it between quotes. */
  lemma {:induction false} QuotedInList(deps: seq<string>, i: int)
    requires 0 <= i < |deps|
    ensures exists j :: QuotedAt(QuotedList(deps), deps[i], j)
  {
    var ql := QuotedList(deps);
    var d := deps[0];
    if i == 0 {
      var tail := if |deps| == 1 then "" else ", " + QuotedList(deps[1..]);
      assert ql == "'" + d + "'" + tail;
      QuotedAtFront(d, tail);
    } else {
      QuotedInList(deps[1..], i - 1);
      var rest := QuotedList(deps[1..]);
      var j :| QuotedAt(rest, deps[1..][i - 1], j);
      var h := "'" + d + "', ";
      assert ql == h + rest;
      QuotedAtShift(h, rest, deps[i], j);
    }
  }

  lemma QuotedAtFront(d: string, tail: string)
    ensures QuotedAt("'" + d + "'" + tail, d, 0)
  {
    var t := "'" + d + "'" + tail;
    assert t[1..1 + |d|] == d;
  }

  lemma QuotedAtShift(h: string, rest: string, name: string, j: int)
    requires QuotedAt(rest, name, j)
    ensures QuotedAt(h + rest, name, |h| + j)
  {
    var t := h + rest;
    var n := |name|;
    assert t[|h| + j] == rest[j] && t[|h| + j + 1 + n] == rest[j + 1 + n];
    assert t[|h| + j + 1..|h| + j + 1 + n] == rest[j + 1..j + 1 + n];
  }

  lemma ModuleMatchHere(s: string, packageName: string, b: nat)
    requires b < |s| && s[b] == '[' && CaptureAt(s, packageName, b).Some?
    ensures ModuleMatchFrom(s, packageName, b) == CaptureAt(s, packageName, b)
  {
  }

  lemma ModuleMatchSkip(s: string, packageName: string, i: nat)
    requires i < |s| && s[i] != '['
    ensures ModuleMatchFrom(s, packageName, i) == ModuleMatchFrom(s, packageName, i + 1)
  {
  }
}

=== FILE: finder.dfy ===
/** `findPackageInFile` (finder.go:139-853): the quick check, then one pass
    per import pattern, each turning the pattern's matches that name the
    package into reported usages. The regex engine is not modelled: a match
    arrives as its capture spans, together with the captures of the patterns
    the source runs on the derived statement. */
module Finder {
  import opened GoStrings
  import opened Types
  import opened Lines
  import opened Position
  import opened Patterns
  import opened Symbols
  import opened Amd

  // ---------------------------------------------------------------------
  // Which files are scanned (finder.go:64-68, finder.go:133-136).

  /** `filepath.Ext` scanning back from byte `i`: the suffix from the last
      `.` of the final path element, or "". */
  function ExtBefore(path: string, i: nat): (r: string)
    requires i <= |path|
    requires forall k :: i <= k < |path| ==> path[k] != '/' && path[k] != '.'
    ensures r == [] || (|r| <= |path| && r == path[|path| - |r|..] && r[0] == '.')
    ensures forall k :: 0 <= k < |r| ==> r[k] != '/'
    ensures forall k :: 1 <= k < |r| ==> r[k] != '.'
  {
    if i == 0 || path[i - 1] == '/' then []
    else if path[i - 1] == '.' then path[i - 1..]
    else ExtBefore(path, i - 1)
  }

  /** The extension of a path, as `filepath.Ext` computes it. */
  function Ext(path: string): (r: string)
    ensures r == [] || (|r| <= |path| && r == path[|path| - |r|..] && r[0] == '.')
    ensures forall k :: 0 <= k < |r| ==> r[k] != '/'
    ensures forall k :: 1 <= k < |r| ==> r[k] != '.'
  {
    ExtBefore(path, |path|)
  }

  /** A name ending in `.<letters>` has exactly that extension. */
  lemma {:induction false} ExtOfName(stem: string, ext: string)
    requires |ext| > 0 && ext[0] == '.'
    requires forall k :: 1 <= k < |ext| ==> ext[k] != '.' && ext[k] != '/'
    ensures Ext(stem + ext) == ext
  {
    var path := stem + ext;
    var n := |stem|;
    assert path[n] == '.';
    ExtScan(path, n, |path|);
    assert path[n..] == ext;
  }

  lemma {:induction false} ExtScan(path: string, n: nat, i: nat)
    requires n < i <= |path| && path[n] == '.'
    requires forall k :: n < k < |path| ==> path[k] != '/' && path[k] != '.'
    ensures ExtBefore(path, i) == path[n..]
    decreases i
  {
    if i - 1 > n {
      ExtScan(path, n, i - 1);
    }
  }

  const JavaScriptExtensions: set<string> := {".js", ".jsx", ".ts", ".tsx"}

  /** `isJavaScriptFile` (finder.go:133-136). */
  function IsJavaScriptFile(ext: string): (b: bool)
    ensures b <==> ext in JavaScriptExtensions
    ensures b ==> |ext| >= 3 && ext[0] == '.'
  {
    ext == ".js" || ext == ".jsx" || ext == ".ts" || ext == ".tsx"
  }

  /** The table of `TestIsJavaScriptFile` (finder_test.go:9-30), reached
      through the extension of a file name. */
  lemma JavaScriptFileExamples(stem: string)
    ensures IsJavaScriptFile(Ext(stem + ".js")) && IsJavaScriptFile(Ext(stem + ".jsx"))
    ensures IsJavaScriptFile(Ext(stem + ".ts")) && IsJavaScriptFile(Ext(stem + ".tsx"))
    ensures !IsJavaScriptFile(Ext(stem + ".go")) && !IsJavaScriptFile(Ext(stem + ".py"))
    ensures !IsJavaScriptFile(Ext(stem + ".html")) && !IsJavaScriptFile(Ext(stem + ".css"))
  {
    ExtOfName(stem, ".js");
    ExtOfName(stem, ".jsx");
    ExtOfName(stem, ".ts");
    ExtOfName(stem, ".tsx");
    ExtOfName(stem, ".go");
    ExtOfName(stem, ".py");
    ExtOfName(stem, ".html");
    ExtOfName(stem, ".css");
  }

  // ---------------------------------------------------------------------
  // Matches.

  /** One match of one of the nine import patterns (finder.go:14-41), in
      the order `findPackageInFile` runs them. `whole` is the match, the other
      spans its capture groups, and the option fields the captures of the
      patterns run on the derived statement. */
  datatype Match =
    | ES6Match(whole: Span, moduleSpan: Span, defaultName: Option<string>, namedClause: Option<string>)
    | NamespaceMatch(whole: Span, namespace: Span, moduleSpan: Span)
    | RequireMatch(whole: Span, destructure: Span, variable: Span, moduleSpan: Span, declared: Option<string>)
    | DynamicMatch(whole: Span, moduleSpan: Span, context: NameContext)
    | SystemImportMatch(whole: Span, moduleSpan: Span, context: NameContext)
    | GlobalMatch(whole: Span, context: NameContext)
    | DefineMatch(whole: Span, deps: Span)
    | FactoryMatch(whole: Span)
    | ResolveMatch(whole: Span, moduleSpan: Span, context: NameContext)

  /** The spans a match can report: the match itself lies in the content and
      every group either took part or reports `-1, -1`. */
  predicate ValidMatch(m: Match, content: string) {
    Present(m.whole, content)
    && match m
       case ES6Match(_, moduleSpan, _, _) => SpanIn(moduleSpan, content)
       case NamespaceMatch(_, namespace, moduleSpan) => Present(namespace, content) && Present(moduleSpan, content)
       case RequireMatch(_, destructure, variable, moduleSpan, _) =>
         SpanIn(destructure, content) && SpanIn(variable, content) && SpanIn(moduleSpan, content)
       case DynamicMatch(_, moduleSpan, context) => SpanIn(moduleSpan, content) && NamesNonEmpty(context)
       case SystemImportMatch(_, moduleSpan, context) => SpanIn(moduleSpan, content) && NamesNonEmpty(context)
       case GlobalMatch(_, context) => NamesNonEmpty(context)
       case DefineMatch(_, deps) => SpanIn(deps, content)
       case FactoryMatch(_) => true
       case ResolveMatch(_, moduleSpan, context) => SpanIn(moduleSpan, content) && NamesNonEmpty(context)
  }

  predicate AllValid(ms: seq<Match>, content: string) {
    forall i :: 0 <= i < |ms| ==> ValidMatch(ms[i], content)
  }

  /** The position of a pattern's pass in `findPackageInFile`. */
  function PassOf(m: Match): (p: nat)
    ensures p <= 8
  {
    match m
    case ES6Match(_, _, _, _) => 0
    case NamespaceMatch(_, _, _) => 1
    case RequireMatch(_, _, _, _, _) => 2
    case DynamicMatch(_, _, _) => 3
    case SystemImportMatch(_, _, _) => 4
    case GlobalMatch(_, _) => 5
    case DefineMatch(_, _) => 6
    case FactoryMatch(_) => 7
    case ResolveMatch(_, _, _) => 8
  }

  /** The matches come pass by pass. */
  predicate InPassOrder(ms: seq<Match>) {
    forall i, j :: 0 <= i < j < |ms| ==> PassOf(ms[i]) <= PassOf(ms[j])
  }

  /** The style each pass reports. */
  function StyleOf(m: Match): ImportStyle {
    match m
    case ES6Match(_, _, _, _) => ES6Import
    case NamespaceMatch(_, _, _) => ES6Import
    case RequireMatch(_, _, _, _, _) => CommonJS
    case DynamicMatch(_, _, _) => DynamicImport
    case SystemImportMatch(_, _, _) => SystemJS
    case GlobalMatch(_, _) => GlobalVariable
    case DefineMatch(_, _) => RequireJS
    case FactoryMatch(_) => UMD
    case ResolveMatch(_, _, _) => ImportMaps
  }

  /** The order in which the passes report styles. */
  function StyleRank(s: ImportStyle): nat {
    match s
    case ES6Import => 0
    case CommonJS => 2
    case DynamicImport => 3
    case SystemJS => 4
    case GlobalVariable => 5
    case RequireJS => 6
    case UMD => 7
    case ImportMaps => 8
    case ESModuleInterop => 9
    case Unknown => 9
  }

  /** Ranking a pass's style never reorders two passes. */
  lemma StyleRankMonotone(m: Match, n: Match)
    requires PassOf(m) <= PassOf(n)
    ensures StyleRank(StyleOf(m)) <= StyleRank(StyleOf(n))
  {
  }

  /** The styles reported as dynamic imports (finder.go:381, 437, 848). */
  predicate IsDynamicStyle(s: ImportStyle) {
    s == DynamicImport || s == SystemJS || s == ImportMaps
  }

  /** The passes whose match carries the module name in a group. */
  predicate NamesModule(m: Match) {
    !m.GlobalMatch? && !m.DefineMatch? && !m.FactoryMatch?
  }

  /** The module-name filter of a pass: the group took part (and, except in
      the ES6 passes, is not empty) and spells the package name. */
  predicate ModuleIs(m: Match, content: string, packageName: string)
    requires ValidMatch(m, content) && NamesModule(m)
  {
    match m
    case ES6Match(_, moduleSpan, _, _) => moduleSpan.start >= 0 && SpanText(content, moduleSpan) == packageName
    case NamespaceMatch(_, _, moduleSpan) => SpanText(content, moduleSpan) == packageName
    case RequireMatch(_, _, _, moduleSpan, _) => moduleSpan.start >= 0 && moduleSpan.end > moduleSpan.start && SpanText(content, moduleSpan) == packageName
    case DynamicMatch(_, moduleSpan, _) => moduleSpan.start >= 0 && moduleSpan.end > moduleSpan.start && SpanText(content, moduleSpan) == packageName
    case SystemImportMatch(_, moduleSpan, _) => moduleSpan.start >= 0 && moduleSpan.end > moduleSpan.start && SpanText(content, moduleSpan) == packageName
    case ResolveMatch(_, moduleSpan, _) => moduleSpan.start >= 0 && moduleSpan.end > moduleSpan.start && SpanText(content, moduleSpan) == packageName
  }

  // ---------------------------------------------------------------------
  // The pieces a pass derives from a match.

  /** The name `extractImportedNameFromContext` finds for the statement of a
      match: it looks before the statement only when the statement's line is
      not the first, and after it only when the line start plus the length of
      the trimmed statement falls before the end of the content
      (finder.go:1144, finder.go:1165-1166). */
  function ContextName(content: string, whole: Span, context: NameContext): (r: string)
    requires Present(whole, content) && NamesNonEmpty(context)
    ensures context.inStatement.Some? ==> r == context.inStatement.value
    ensures r == "" <==> (context.inStatement.None?
      && (LineStart(content, whole.start) == 0 || NoneDeclared(BeforeLines(context)))
      && (LineStart(content, whole.start) + |StatementText(content, whole.start, whole.end)| >= |content|
          || NoneNamed(AfterLines(context))))
  {
    var lineStart := StatementWindow(content, whole.start, whole.end).lineStart;
    var statement := StatementText(content, whole.start, whole.end);
    ImportedNameFromContext(context, lineStart > 0, lineStart + |statement| < |content|)
  }

  /** The stretch of content the UMD pass searches (finder.go:668-679): from
      the match to just past the first `)(` after it, or to the end of the
      content when there is none or it starts at the match itself. */
  function FactoryContent(content: string, start: nat): (f: string)
    requires start <= |content|
    ensures start + |f| <= |content| && f == content[start..start + |f|]
    ensures f != content[start..] ==> |f| >= 3 && f[|f| - 2..] == ")("
    ensures IndexOf(content[start..], ")(") > 0 ==> |f| == IndexOf(content[start..], ")(") + 2
    ensures IndexOf(content[start..], ")(") <= 0 ==> f == content[start..]
  {
    var closingEnd := IndexOf(content[start..], ")(");
    if closingEnd > 0 then
      var f := content[start..start + closingEnd + 2];
      assert f[|f| - 2..] == content[start..][closingEnd..closingEnd + 2] == ")(";
      f
    else content[start..]
  }

  /** One alternative of `(?:root\.React|React\.|React\s*,|,\s*React)`
      starts at byte `k`. */
  predicate ReactUsageAt(f: string, k: nat) {
    OccursAt(f, "root.React", k)
    || OccursAt(f, "React.", k)
    || (OccursAt(f, "React", k) && SkipRegexSpace(f, k + 5) < |f| && f[SkipRegexSpace(f, k + 5)] == ',')
    || (k < |f| && f[k] == ',' && OccursAt(f, "React", SkipRegexSpace(f, k + 1)))
  }

  /** Whether the React-usage pattern matches at or after byte `k`. */
  function ReactUsedFrom(f: string, k: nat): (b: bool)
    ensures b <==> exists j :: k <= j < |f| && ReactUsageAt(f, j)
    decreases |f| - k
  {
    if k >= |f| then false
    else ReactUsageAt(f, k) || ReactUsedFrom(f, k + 1)
  }

  /** Whether the UMD factory content uses React (finder.go:713). */
  function ReactUsed(f: string): (b: bool)
    ensures b <==> exists j :: 0 <= j < |f| && ReactUsageAt(f, j)
  {
    ReactUsedFrom(f, 0)
  }

  /** The symbols of the UMD pass before the React augmentation
      (finder.go:693-709): the parameters of the first
      `function\s*\(([^)]*)\)` in the factory content, else the package
      name. */
  function FactoryParams(f: string, packageName: string): (r: seq<string>)
    ensures ParamsClause(f).None? ==> r == [packageName]
    ensures ParamsClause(f).Some? ==> r == ParamList(ParamsClause(f).value)
  {
    match ParamsClause(f)
    case Some(p) => ParamList(p)
    case None => [packageName]
  }

  /** The 200 bytes on either side of a statement window in which the
      import-map pass looks for `React.` (finder.go:800-809). */
  function Surroundings(content: string, w: Window): (r: string)
    requires w.lineStart <= w.lineEnd <= |content|
    ensures |r| <= w.lineEnd - w.lineStart + 400
    ensures w.lineStart <= 200 && w.lineEnd + 200 >= |content| ==> r == content
    ensures exists from :: (SliceAt(content, r, from) && from <= w.lineStart && w.lineEnd <= from + |r|
      && (from == 0 || w.lineStart - from == 200)
      && (from + |r| == |content| || from + |r| - w.lineEnd == 200)
      && from == (if w.lineStart > 200 then w.lineStart - 200 else 0)
      && from + |r| == (if w.lineEnd + 200 < |content| then w.lineEnd + 200 else |content|))
  {
    var from := if w.lineStart < 200 then 0 else w.lineStart - 200;
    var to := if w.lineEnd + 200 > |content| then |content| else w.lineEnd + 200;
    assert SliceAt(content, content[from..to], from);
    content[from..to]
  }

  /** `r` is the stretch of `content` that starts at `from`. */
  predicate SliceAt(content: string, r: string, from: int) {
    0 <= from && from + |r| <= |content| && content[from..from + |r|] == r
  }

  // ---------------------------------------------------------------------
  // One match, one usage.

  /** What every pass reports about a match at `start`. */
  predicate ReportedAt(u: PackageUsage, filePath: string, content: string, start: nat)
    requires start <= |content|
  {
    u.fileName == filePath
    && LineChar(u.line, u.character) == LineAndCharacter(content, start)
    && u.isDynamicImport == IsDynamicStyle(u.importStyle)
    && u.symbolUsages == {}
  }

  function Report(filePath: string, content: string, whole: Span, statement: string,
                  symbols: seq<string>, style: ImportStyle): (u: PackageUsage)
    requires Present(whole, content)
    ensures ReportedAt(u, filePath, content, whole.start)
    ensures u.importStatement == statement && u.importedSymbols == symbols && u.importStyle == style
  {
    var p := LineAndCharacter(content, whole.start);
    PackageUsage(filePath, statement, p.line, p.character, symbols, style, IsDynamicStyle(style), {})
  }

  /** The usage a pass reports for one match, or `None` when the pass skips
      the match. The define pass is the one the source runs: its end-of-call
      scan starts with the count at 1, and it reads its symbols from the
      truncated statement (see `Amd.DefineReportAsWritten`). */
  function UsageOf(filePath: string, content: string, packageName: string, m: Match): (r: Option<PackageUsage>)
    requires ValidMatch(m, content)
    ensures r.Some? ==> ReportedAt(r.value, filePath, content, m.whole.start) && r.value.importStyle == StyleOf(m)
    ensures NamesModule(m) ==> (r.Some? <==> ModuleIs(m, content, packageName))
    ensures m.GlobalMatch? ==> r.Some?
    ensures m.DefineMatch? ==> (r.Some? <==> m.deps.start >= 0 && m.deps.end > m.deps.start
                                             && HasQuoted(SpanText(content, m.deps), packageName))
    ensures m.FactoryMatch? ==> (r.Some? <==> HasQuoted(FactoryContent(content, m.whole.start), packageName))
    ensures r.Some? && !m.FactoryMatch? ==> r.value.importedSymbols != []
    ensures r.Some? && !m.DefineMatch? && !m.FactoryMatch? ==>
      r.value.importStatement == StatementText(content, m.whole.start, m.whole.end)
    ensures r.Some? && m.DefineMatch? ==>
      r.value.importStatement == DefineReportAsWritten(content, m.whole.start, packageName).statement
      && r.value.importedSymbols == ReactCasing(DefineReportAsWritten(content, m.whole.start, packageName).symbols, packageName)
    ensures r.Some? && m.FactoryMatch? ==> r.value.importStatement == "UMD factory pattern with reference to " + packageName
  {
    var statement := StatementText(content, m.whole.start, m.whole.end);
    match m
    case ES6Match(whole, moduleSpan, defaultName, namedClause) =>
      if !ModuleIs(m, content, packageName) then None
      else Some(Report(filePath, content, whole, statement, ES6Symbols(defaultName, namedClause), ES6Import))
    case NamespaceMatch(whole, namespace, moduleSpan) =>
      if !ModuleIs(m, content, packageName) then None
      else Some(Report(filePath, content, whole, statement, NamespaceSymbols(SpanText(content, namespace)), ES6Import))
    case RequireMatch(whole, destructure, variable, moduleSpan, declared) =>
      if !ModuleIs(m, content, packageName) then None
      else
        var symbols := CommonJSSymbols(content, destructure, variable, declared, packageName);
        Some(Report(filePath, content, whole, statement, ReactCasing(symbols, packageName), CommonJS))
    case DynamicMatch(whole, moduleSpan, context) =>
      if !ModuleIs(m, content, packageName) then None
      else Some(ContextUsage(filePath, content, packageName, whole, context, DynamicImport))
    case SystemImportMatch(whole, moduleSpan, context) =>
      if !ModuleIs(m, content, packageName) then None
      else Some(ContextUsage(filePath, content, packageName, whole, context, SystemJS))
    case GlobalMatch(whole, context) =>
      var symbols := GlobalSymbols(packageName, ContextName(content, whole, context));
      Some(Report(filePath, content, whole, statement, symbols, GlobalVariable))
    case DefineMatch(whole, deps) =>
      if deps.start < 0 || deps.end <= deps.start || !HasQuoted(SpanText(content, deps), packageName) then None
      else Some(DefineUsage(filePath, content, packageName, whole))
    case FactoryMatch(whole) =>
      var f := FactoryContent(content, whole.start);
      if !HasQuoted(f, packageName) then None
      else Some(FactoryUsage(filePath, content, packageName, whole))
    case ResolveMatch(whole, moduleSpan, context) =>
      if !ModuleIs(m, content, packageName) then None
      else Some(ResolveUsage(filePath, content, packageName, whole, context))
  }

  /** The usage the dynamic-import and SystemJS passes report: the name the
      context gives, or the package name. */
  function ContextUsage(filePath: string, content: string, packageName: string, whole: Span,
                        context: NameContext, style: ImportStyle): (u: PackageUsage)
    requires Present(whole, content) && NamesNonEmpty(context)
    ensures ReportedAt(u, filePath, content, whole.start) && u.importStyle == style
    ensures u.importStatement == StatementText(content, whole.start, whole.end)
    ensures u.importedSymbols == ContextSymbols(ContextName(content, whole, context), packageName)
    ensures u.importedSymbols != []
  {
    Report(filePath, content, whole, StatementText(content, whole.start, whole.end),
           ContextSymbols(ContextName(content, whole, context), packageName), style)
  }

  /** The usage the import-map pass reports for a match that names the
      package: the name found in context, with React usage looked for in the
      200 bytes around the statement. */
  function ResolveUsage(filePath: string, content: string, packageName: string, whole: Span, context: NameContext): (u: PackageUsage)
    requires Present(whole, content) && NamesNonEmpty(context)
    ensures ReportedAt(u, filePath, content, whole.start) && u.importStyle == ImportMaps
    ensures u.importStatement == StatementText(content, whole.start, whole.end)
    ensures u.importedSymbols != []
    ensures u.importedSymbols ==
      ReactAugment(ImportMapSymbols(ContextName(content, whole, context), context.inStatement, packageName), packageName,
                   Contains(Surroundings(content, StatementWindow(content, whole.start, whole.end)), "React."))
    ensures u.importedSymbols[0] == (if ContextName(content, whole, context) != "" then ContextName(content, whole, context)
                                     else if context.inStatement.Some? then context.inStatement.value else packageName)
  {
    var named := ImportMapSymbols(ContextName(content, whole, context), context.inStatement, packageName);
    var near := Surroundings(content, StatementWindow(content, whole.start, whole.end));
    var symbols := ReactAugment(named, packageName, Contains(near, "React."));
    assert symbols[0] == symbols[..|named|][0] == named[0];
    Report(filePath, content, whole, StatementText(content, whole.start, whole.end), symbols, ImportMaps)
  }

  /** The usage the define pass reports for a match that names the package
      among its dependencies. */
  function DefineUsage(filePath: string, content: string, packageName: string, whole: Span): (u: PackageUsage)
    requires Present(whole, content)
    ensures ReportedAt(u, filePath, content, whole.start) && u.importStyle == RequireJS
    ensures u.importStatement == DefineReportAsWritten(content, whole.start, packageName).statement
    ensures u.importedSymbols == ReactCasing(DefineReportAsWritten(content, whole.start, packageName).symbols, packageName)
    ensures u.importedSymbols != []
  {
    var report := DefineReportAsWritten(content, whole.start, packageName);
    Report(filePath, content, whole, report.statement, ReactCasing(report.symbols, packageName), RequireJS)
  }

  /** The usage the UMD pass reports for a match whose factory content
      quotes the package. */
  function FactoryUsage(filePath: string, content: string, packageName: string, whole: Span): (u: PackageUsage)
    requires Present(whole, content)
    ensures ReportedAt(u, filePath, content, whole.start) && u.importStyle == UMD
    ensures u.importStatement == "UMD factory pattern with reference to " + packageName
    ensures u.importedSymbols ==
      ReactAugment(FactoryParams(FactoryContent(content, whole.start), packageName), packageName,
                   ReactUsed(FactoryContent(content, whole.start)))
  {
    var f := FactoryContent(content, whole.start);
    var symbols := ReactAugment(FactoryParams(f, packageName), packageName, ReactUsed(f));
    Report(filePath, content, whole, "UMD factory pattern with reference to " + packageName, symbols, UMD)
  }

  // ---------------------------------------------------------------------
  // The whole file.

  /** What every reported usage of a file carries, whatever the pass. */
  predicate WellReported(u: PackageUsage, filePath: string) {
    u.fileName == filePath && u.line >= 1 && u.character >= 1
    && (u.isDynamicImport <==> IsDynamicStyle(u.importStyle))
    && u.importStyle != ESModuleInterop && u.importStyle != Unknown
    && u.symbolUsages == {}
  }

  /** A usage reported for one match carries what every usage carries. */
  lemma UsageOfWellReported(filePath: string, content: string, packageName: string, m: Match)
    requires ValidMatch(m, content)
    requires UsageOf(filePath, content, packageName, m).Some?
    ensures WellReported(UsageOf(filePath, content, packageName, m).value, filePath)
    ensures UsageOf(filePath, content, packageName, m).value.importStyle == StyleOf(m)
  {
  }

  /** The outcome of each match, in match order. */
  function Outcomes(filePath: string, content: string, packageName: string, ms: seq<Match>): (os: seq<Option<PackageUsage>>)
    requires AllValid(ms, content)
    ensures |os| == |ms|
    ensures forall i :: 0 <= i < |ms| ==> os[i] == UsageOf(filePath, content, packageName, ms[i])
  {
    MapAll((m: Match) requires ValidMatch(m, content) => UsageOf(filePath, content, packageName, m), ms)
  }

  /** `f` applied to each element, in order. */
  function MapAll<A, B>(f: A --> B, xs: seq<A>): (ys: seq<B>)
    requires forall i :: 0 <= i < |xs| ==> f.requires(xs[i])
    ensures |ys| == |xs|
    ensures forall i :: 0 <= i < |xs| ==> ys[i] == f(xs[i])
  {
    seq(|xs|, i requires 0 <= i < |xs| => f(xs[i]))
  }

  /** Mapping distributes over concatenation. */
  lemma MapAllAppend<A, B>(f: A --> B, a: seq<A>, b: seq<A>)
    requires forall i :: 0 <= i < |a| ==> f.requires(a[i])
    requires forall i :: 0 <= i < |b| ==> f.requires(b[i])
    ensures forall i :: 0 <= i < |a + b| ==> f.requires((a + b)[i])
    ensures MapAll(f, a + b) == MapAll(f, a) + MapAll(f, b)
  {
    assert forall i :: 0 <= i < |a| ==> (a + b)[i] == a[i];
    assert forall i :: 0 <= i < |b| ==> (a + b)[|a| + i] == b[i];
    AppendPointwise(MapAll(f, a + b), MapAll(f, a), MapAll(f, b));
  }

  /** The values of the outcomes that are present, in order. */
  function Kept(os: seq<Option<PackageUsage>>): (r: seq<PackageUsage>)
    ensures |r| <= |os|
  {
    if os == [] then []
    else (if os[0].Some? then [os[0].value] else []) + Kept(os[1..])
  }

  /** Keeping distributes over concatenation: each present outcome is kept
      once, where it stands. */
  lemma {:induction false} KeptAppend(a: seq<Option<PackageUsage>>, b: seq<Option<PackageUsage>>)
    ensures Kept(a + b) == Kept(a) + Kept(b)
  {
    if a != [] {
      var head := if a[0].Some? then [a[0].value] else [];
      assert (a + b)[0] == a[0] && (a + b)[1..] == a[1..] + b;
      KeptAppend(a[1..], b);
      calc {
        Kept(a + b);
        head + Kept(a[1..] + b);
        head + (Kept(a[1..]) + Kept(b));
        (head + Kept(a[1..])) + Kept(b);
        Kept(a) + Kept(b);
      }
    } else {
      assert a + b == b;
    }
  }

  /** Every present outcome is kept. */
  lemma {:induction false} KeptContains(os: seq<Option<PackageUsage>>, i: nat)
    requires i < |os| && os[i].Some?
    ensures os[i].value in Kept(os)
  {
    if i > 0 {
      assert os[1..][i - 1] == os[i];
      KeptContains(os[1..], i - 1);
    }
  }

  /** Every kept value is a present outcome. */
  lemma {:induction false} KeptFrom(os: seq<Option<PackageUsage>>, k: nat)
    requires k < |Kept(os)|
    ensures exists i :: 0 <= i < |os| && os[i] == Some(Kept(os)[k])
  {
    var rest := Kept(os[1..]);
    if os[0].Some? && k == 0 {
      assert os[0] == Some(Kept(os)[0]);
    } else {
      var k' := if os[0].Some? then k - 1 else k;
      assert Kept(os)[k] == rest[k'];
      KeptFrom(os[1..], k');
      var i :| 0 <= i < |os[1..]| && os[1..][i] == Some(rest[k']);
      assert os[i + 1] == os[1..][i];
    }
  }

  /** Present outcomes ranked in order stay in order once kept. */
  predicate RankedOutcomes(os: seq<Option<PackageUsage>>) {
    forall i, j :: 0 <= i < j < |os| && os[i].Some? && os[j].Some? ==>
      StyleRank(os[i].value.importStyle) <= StyleRank(os[j].value.importStyle)
  }

  predicate RankedUsages(r: seq<PackageUsage>) {
    forall k, l :: 0 <= k < l < |r| ==> StyleRank(r[k].importStyle) <= StyleRank(r[l].importStyle)
  }

  lemma {:induction false} KeptRanked(os: seq<Option<PackageUsage>>)
    requires RankedOutcomes(os)
    ensures RankedUsages(Kept(os))
  {
    if os != [] {
      var rest := Kept(os[1..]);
      assert RankedOutcomes(os[1..]) by {
        forall i, j | 0 <= i < j < |os[1..]| && os[1..][i].Some? && os[1..][j].Some?
          ensures StyleRank(os[1..][i].value.importStyle) <= StyleRank(os[1..][j].value.importStyle)
        {
          assert os[1..][i] == os[i + 1] && os[1..][j] == os[j + 1];
        }
      }
      KeptRanked(os[1..]);
      if os[0].Some? {
        forall l | 0 <= l < |rest|
          ensures StyleRank(os[0].value.importStyle) <= StyleRank(rest[l].importStyle)
        {
          KeptFrom(os[1..], l);
          var i :| 0 <= i < |os[1..]| && os[1..][i] == Some(rest[l]);
          assert os[i + 1] == os[1..][i];
        }
        assert Kept(os) == [os[0].value] + rest;
      }
    }
  }

  /** Matches in pass order give outcomes in style order. */
  lemma OutcomesRanked(filePath: string, content: string, packageName: string, ms: seq<Match>)
    requires AllValid(ms, content) && InPassOrder(ms)
    ensures RankedOutcomes(Outcomes(filePath, content, packageName, ms))
  {
    var os := Outcomes(filePath, content, packageName, ms);
    forall i, j | 0 <= i < j < |os| && os[i].Some? && os[j].Some?
      ensures StyleRank(os[i].value.importStyle) <= StyleRank(os[j].value.importStyle)
    {
      UsageOfWellReported(filePath, content, packageName, ms[i]);
      UsageOfWellReported(filePath, content, packageName, ms[j]);
      StyleRankMonotone(ms[i], ms[j]);
    }
  }

  /** `findPackageInFile`: nothing unless the quoted package name occurs
      somewhere in the content, else the usages of all passes in order. */
  function FindPackageInFile(filePath: string, content: string, packageName: string, ms: seq<Match>): (r: seq<PackageUsage>)
    requires AllValid(ms, content)
    ensures !HasQuoted(content, packageName) ==> r == []
    ensures |r| <= |ms|
    ensures forall k :: 0 <= k < |r| ==> WellReported(r[k], filePath)
  {
    if !HasQuoted(content, packageName) then []
    else
      var os := Outcomes(filePath, content, packageName, ms);
      var r := Kept(os);
      assert forall k :: 0 <= k < |r| ==> WellReported(r[k], filePath) by {
        forall k | 0 <= k < |r|
          ensures WellReported(r[k], filePath)
        {
          KeptFrom(os, k);
          var i :| 0 <= i < |os| && os[i] == Some(r[k]);
          UsageOfWellReported(filePath, content, packageName, ms[i]);
        }
      }
      r
  }

  /** Past the quick check, the file reports a usage exactly for each match
      a pass keeps, in pass order. */
  lemma FindPackageInFileReports(filePath: string, content: string, packageName: string, ms: seq<Match>)
    requires AllValid(ms, content) && InPassOrder(ms) && HasQuoted(content, packageName)
    ensures forall i :: 0 <= i < |ms| && UsageOf(filePath, content, packageName, ms[i]).Some? ==>
      UsageOf(filePath, content, packageName, ms[i]).value in FindPackageInFile(filePath, content, packageName, ms)
    ensures forall k :: 0 <= k < |FindPackageInFile(filePath, content, packageName, ms)| ==>
      exists i :: 0 <= i < |ms| && UsageOf(filePath, content, packageName, ms[i]) == Some(FindPackageInFile(filePath, content, packageName, ms)[k])
    ensures RankedUsages(FindPackageInFile(filePath, content, packageName, ms))
  {
    var os := Outcomes(filePath, content, packageName, ms);
    var r := FindPackageInFile(filePath, content, packageName, ms);
    assert r == Kept(os);
    forall i | 0 <= i < |ms| && UsageOf(filePath, content, packageName, ms[i]).Some?
      ensures UsageOf(filePath, content, packageName, ms[i]).value in r
    {
      KeptContains(os, i);
    }
    forall k | 0 <= k < |r|
      ensures exists i :: 0 <= i < |ms| && UsageOf(filePath, content, packageName, ms[i]) == Some(r[k])
    {
      KeptFrom(os, k);
    }
    OutcomesRanked(filePath, content, packageName, ms);
    KeptRanked(os);
  }

  /** The matches of one pass, then those of a later one: past the quick
      check, the usages of the first followed by those of the second. With
      one match in `later` this is the loop that appends each match's usage
      once, in match order. */
  lemma FindPackageInFileAppend(filePath: string, content: string, packageName: string, earlier: seq<Match>, later: seq<Match>)
    requires AllValid(earlier + later, content) && HasQuoted(content, packageName)
    ensures AllValid(earlier, content) && AllValid(later, content)
    ensures FindPackageInFile(filePath, content, packageName, earlier + later) ==
      FindPackageInFile(filePath, content, packageName, earlier) + FindPackageInFile(filePath, content, packageName, later)
  {
    assert forall i :: 0 <= i < |earlier| ==> earlier[i] == (earlier + later)[i];
    assert forall i :: 0 <= i < |later| ==> later[i] == (earlier + later)[|earlier| + i];
    OutcomesAppend(filePath, content, packageName, earlier, later);
    KeptAppend(Outcomes(filePath, content, packageName, earlier), Outcomes(filePath, content, packageName, later));
  }

  lemma OutcomesAppend(filePath: string, content: string, packageName: string, earlier: seq<Match>, later: seq<Match>)
    requires AllValid(earlier, content) && AllValid(later, content) && AllValid(earlier + later, content)
    ensures Outcomes(filePath, content, packageName, earlier + later) ==
      Outcomes(filePath, content, packageName, earlier) + Outcomes(filePath, content, packageName, later)
  {
    MapAllAppend((m: Match) requires ValidMatch(m, content) => UsageOf(filePath, content, packageName, m), earlier, later);
  }

  /** One match past the quick check: its usage, or nothing. */
  lemma FindPackageInFileSingle(filePath: string, content: string, packageName: string, m: Match)
    requires ValidMatch(m, content) && HasQuoted(content, packageName)
    ensures AllValid([m], content)
    ensures FindPackageInFile(filePath, content, packageName, [m]) ==
      if UsageOf(filePath, content, packageName, m).Some? then [UsageOf(filePath, content, packageName, m).value] else []
  {
    var os := Outcomes(filePath, content, packageName, [m]);
    assert os == [UsageOf(filePath, content, packageName, m)];
    assert os[1..] == [];
  }

  /** A file that mentions the package only as `window.<pkg>` or
      `global.<pkg>`, with no quote anywhere, reports nothing: the quick
      check looks for the quoted name and returns before the global pass
      runs. */
  lemma GlobalOnlyNotReported(filePath: string, content: string, packageName: string, ms: seq<Match>)
    requires AllValid(ms, content)
    requires forall k :: 0 <= k < |content| ==> !IsQuote(content[k])
    ensures FindPackageInFile(filePath, content, packageName, ms) == []
  {
    forall k
      ensures !QuotedAt(content, packageName, k)
    {
      if 0 <= k < |content| {
        assert !IsQuote(content[k]);
      }
    }
  }

  /** The UMD pass reads the parameters of the wrapper it matched, not of
      the factory: the pattern `\(\s*function\s*\(\s*(?:root|global|window)...\)`
      puts a `function(` at the start of the factory content, so its list,
      such as `root, factory`, is what the pass reports. */
  lemma FactoryParamsAreWrapperParams(content: string, start: nat, ws1: string, ws2: string,
                                      params: string, packageName: string)
    requires forall i :: 0 <= i < |ws1| ==> IsRegexSpace(ws1[i])
    requires forall i :: 0 <= i < |ws2| ==> IsRegexSpace(ws2[i])
    requires forall i :: 0 <= i < |params| ==> params[i] != ')'
    requires start + |Callback("(" + ws1, ws2, params, "")| <= |content|
    requires content[start..start + |Callback("(" + ws1, ws2, params, "")|] == Callback("(" + ws1, ws2, params, "")
    ensures FactoryParams(FactoryContent(content, start), packageName) == ParamList(params)
  {
    var pre := "(" + ws1;
    var header := Callback(pre, ws2, params, "");
    HeaderShape(pre, ws2, params);
    FactoryContentCoversHeader(content, start, header);
    var f := FactoryContent(content, start);
    CallbackExtended(pre, ws2, params, f);
    PrefixWithoutFunction(ws1);
    ParamsClauseOf(pre, ws2, params, f[|header|..]);
  }

  /** The only `)` of a wrapper header is its last byte. */
  lemma HeaderShape(pre: string, ws: string, params: string)
    requires |pre| > 0 && pre[0] == '('
    requires forall i :: 0 <= i < |pre| ==> pre[i] != ')'
    requires forall i :: 0 <= i < |ws| ==> IsRegexSpace(ws[i])
    requires forall i :: 0 <= i < |params| ==> params[i] != ')'
    ensures |Callback(pre, ws, params, "")| >= 2 && Callback(pre, ws, params, "")[0] != ')'
    ensures forall k :: 0 <= k < |Callback(pre, ws, params, "")| - 1 ==> Callback(pre, ws, params, "")[k] != ')'
  {
    var h := Callback(pre, ws, params, "");
    var a := |pre| + 8 + |ws|;
    forall k | 0 <= k < |h| - 1
      ensures h[k] != ')'
    {
      if k < |pre| {
        assert h[k] == pre[k];
      } else if k < |pre| + 8 {
        assert h[k] == "function"[k - |pre|];
      } else if k < a {
        assert h[k] == ws[k - |pre| - 8];
      } else if k == a {
        assert h[k] == '(';
      } else {
        assert h[k] == params[k - a - 1];
      }
    }
  }

  /** Content that starts with a header is that header's callback followed by
      the rest. */
  lemma CallbackExtended(pre: string, ws: string, params: string, f: string)
    requires |Callback(pre, ws, params, "")| <= |f|
    requires f[..|Callback(pre, ws, params, "")|] == Callback(pre, ws, params, "")
    ensures f == Callback(pre, ws, params, f[|Callback(pre, ws, params, "")|..])
  {
    var h := Callback(pre, ws, params, "");
    assert f == h + f[|h|..];
  }

  /** `(` and spaces hold no `function`. */
  lemma PrefixWithoutFunction(ws: string)
    requires forall i :: 0 <= i < |ws| ==> IsRegexSpace(ws[i])
    ensures !Contains("(" + ws, "function")
    ensures ("(" + ws)[|"(" + ws| - 1] !in "function"
  {
    var pre := "(" + ws;
    forall k | 0 <= k
      ensures !OccursAt(pre, "function", k)
    {
      if k + 8 <= |pre| {
        assert pre[k..k + 8][0] == pre[k];
        assert pre[k] == '(' || IsRegexSpace(pre[k]);
      }
    }
  }

  /** A `)(` cannot start before the last byte of a header whose only `)`
      is its last byte, so the factory content holds the whole header. */
  lemma FactoryContentCoversHeader(content: string, start: nat, header: string)
    requires |header| >= 2 && header[0] != ')'
    requires forall k :: 0 <= k < |header| - 1 ==> header[k] != ')'
    requires start + |header| <= |content| && content[start..start + |header|] == header
    ensures |FactoryContent(content, start)| >= |header|
    ensures FactoryContent(content, start)[..|header|] == header
  {
    var rest := content[start..];
    var closingEnd := IndexOf(rest, ")(");
    forall k | 0 <= k < |header| - 1
      ensures !OccursAt(rest, ")(", k)
    {
      assert rest[k] == header[k];
      assert rest[k..k + 2][0] == rest[k];
    }
    var f := FactoryContent(content, start);
    assert f[..|header|] == content[start..start + |header|];
  }
}

=== FILE: lines.dfy ===
/** Line boundaries in a file's content, and the statement window every
    matcher of the finder cuts around a regex match (finder.go, repeated in
    each matcher of `findPackageInFile` and in `findSymbolUsages`). */
module Lines {
  import opened GoStrings

  /** First byte of the line holding `pos`: one past the last newline before
      `pos`, or 0 (`strings.LastIndex(content[:pos], "\n") + 1`). */
  function LineStart(content: string, pos: nat): (r: nat)
    requires pos <= |content|
    ensures r <= pos
  {
    LastIndexOfChar(content[..pos], '\n') + 1
  }

  /** `LineStart` follows a newline (or is 0) and no newline lies between it and `pos`. */
  lemma LineStartSpec(content: string, pos: nat)
    requires pos <= |content|
    ensures LineStart(content, pos) == 0 || content[LineStart(content, pos) - 1] == '\n'
    ensures forall k :: LineStart(content, pos) <= k < pos ==> content[k] != '\n'
  {
  }

  /** The first newline at or after `pos`, or the end of the content
      (`pos + strings.Index(content[pos:], "\n")`, else `len(content)`). */
  function LineEnd(content: string, pos: nat): (r: nat)
    requires pos <= |content|
    ensures pos <= r <= |content|
  {
    var n := IndexOfChar(content[pos..], '\n');
    if n >= 0 then pos + n else |content|
  }

  /** `LineEnd` is a newline (or the end) and no newline lies between `pos` and it. */
  lemma LineEndSpec(content: string, pos: nat)
    requires pos <= |content|
    ensures LineEnd(content, pos) == |content| || content[LineEnd(content, pos)] == '\n'
    ensures forall k :: pos <= k < LineEnd(content, pos) ==> content[k] != '\n'
  {
  }

  /** The three properties in `LineStart`'s contract single out one offset. */
  lemma LineStartIs(content: string, pos: nat, r: nat)
    requires pos <= |content| && r <= pos
    requires r == 0 || content[r - 1] == '\n'
    requires forall k :: r <= k < pos ==> content[k] != '\n'
    ensures LineStart(content, pos) == r
  {
  }

  /** The three properties in `LineEnd`'s contract single out one offset. */
  lemma LineEndIs(content: string, pos: nat, r: nat)
    requires pos <= r <= |content|
    requires r == |content| || content[r] == '\n'
    requires forall k :: pos <= k < r ==> content[k] != '\n'
    ensures LineEnd(content, pos) == r
  {
  }

  /** The window `[lineStart, lineEnd)` a matcher cuts around a match `[start, end)`. */
  datatype Window = Window(lineStart: nat, lineEnd: nat)

  /** The statement window of a match: from the start of the line where the
      match begins to the first newline at or after the match's end. */
  function StatementWindow(content: string, start: nat, end: nat): (w: Window)
    requires start <= end <= |content|
    ensures w.lineStart <= start <= end <= w.lineEnd <= |content|
    ensures w.lineStart == 0 || content[w.lineStart - 1] == '\n'
    ensures forall k :: w.lineStart <= k < start ==> content[k] != '\n'
    ensures w.lineEnd == |content| || content[w.lineEnd] == '\n'
    ensures forall k :: end <= k < w.lineEnd ==> content[k] != '\n'
  {
    Window(LineStart(content, start), LineEnd(content, end))
  }

  /** The import statement a matcher reports: the window, trimmed. It is the
      stretch of the window left once the blanks at both of its borders are
      dropped. */
  function StatementText(content: string, start: nat, end: nat): (r: string)
    requires start <= end <= |content|
    ensures Trimmed(r)
    ensures |r| <= StatementWindow(content, start, end).lineEnd - StatementWindow(content, start, end).lineStart
    ensures exists a :: (StatementWindow(content, start, end).lineStart <= a
      && a + |r| <= StatementWindow(content, start, end).lineEnd && r == content[a..a + |r|]
      && SpaceBetween(content, StatementWindow(content, start, end).lineStart, a)
      && SpaceBetween(content, a + |r|, StatementWindow(content, start, end).lineEnd))
  {
    var w := StatementWindow(content, start, end);
    var r := TrimSpace(content[w.lineStart..w.lineEnd]);
    TrimmedSlice(content, w.lineStart, w.lineEnd);
    r
  }

  /** Trimming a slice keeps a slice of it with blanks on either side. */
  lemma TrimmedSlice(content: string, b: nat, e: nat)
    requires b <= e <= |content|
    ensures var r := TrimSpace(content[b..e]); var a := b + LeadingSpace(content[b..e]);
      a + |r| <= e && r == content[a..a + |r|]
      && SpaceBetween(content, b, a) && SpaceBetween(content, a + |r|, e)
  {
    var s := content[b..e];
    var r := TrimSpace(s);
    var n := LeadingSpace(s);
    SliceOfSlice(content, b, e, n, n + |r|);
    forall k | b <= k < b + n
      ensures IsSpace(content[k])
    {
      assert content[k] == s[k - b];
    }
    forall k | b + n + |r| <= k < e
      ensures IsSpace(content[k])
    {
      assert content[k] == s[k - b];
    }
  }

  /** Newlines before `o` are at most all newlines. */
  lemma CountCharPrefix(s: string, o: nat)
    requires o <= |s|
    ensures CountChar(s[..o], '\n') <= CountChar(s, '\n')
  {
    assert s == s[..o] + s[o..];
    CountCharAppend(s[..o], s[o..], '\n');
  }

  /** One unfolding of `Split` at the first newline `i`. */
  lemma SplitAtNewline(s: string, i: nat)
    requires IndexOfChar(s, '\n') == i
    ensures Split(s, "\n") == [s[..i]] + Split(s[i + 1..], "\n")
  {
    IndexOfSingle(s, '\n');
  }

  /** `strings.Split(s, "\n")`, unfolded at each first newline; the
      same pieces without `Split`'s general postcondition. */
  function NewlinePieces(s: string): (r: seq<string>)
    decreases |s|
  {
    var i := IndexOfChar(s, '\n');
    if i < 0 then [s] else [s[..i]] + NewlinePieces(s[i + 1..])
  }

  lemma {:induction false} NewlinePiecesAreSplit(s: string)
    ensures NewlinePieces(s) == Split(s, "\n")
    decreases |s|
  {
    var i := IndexOfChar(s, '\n');
    if i < 0 {
      IndexOfSingle(s, '\n');
    } else {
      SplitAtNewline(s, i);
      NewlinePiecesAreSplit(s[i + 1..]);
    }
  }

  /** Piece number n of `strings.Split(s, "\n")`, where n counts the newlines
      before offset `o`, is exactly the line holding `o`. */
  lemma SplitLine(s: string, o: nat)
    requires o <= |s|
    ensures CountChar(s[..o], '\n') < |Split(s, "\n")|
    ensures Split(s, "\n")[CountChar(s[..o], '\n')] == s[LineStart(s, o)..LineEnd(s, o)]
  {
    NewlinePiecesAreSplit(s);
    PieceOfLine(s, o);
  }

  /** `SplitLine` for `NewlinePieces`, by induction on the newlines. */
  lemma {:induction false} PieceOfLine(s: string, o: nat)
    requires o <= |s|
    ensures CountChar(s[..o], '\n') < |NewlinePieces(s)|
    ensures NewlinePieces(s)[CountChar(s[..o], '\n')] == s[LineStart(s, o)..LineEnd(s, o)]
    decreases |s|
  {
    var i := IndexOfChar(s, '\n');
    if i < 0 {
      NoNewlineBefore(s, o, |s|);
      LineStartIs(s, o, 0);
      LineEndIs(s, o, |s|);
      FirstPiece(s);
    } else if o <= i {
      NoNewlineBefore(s, o, i);
      LineStartIs(s, o, 0);
      LineEndIs(s, o, i);
      FirstPiece(s);
    } else {
      PieceOfLine(s[i + 1..], o - i - 1);
      PieceAfterNewline(s, i, o);
    }
  }

  /** The step of `PieceOfLine`: past the first newline, the line holding `o`
      is the piece after the one holding `o - i - 1` in the rest. */
  lemma {:induction false} PieceAfterNewline(s: string, i: nat, o: nat)
    requires IndexOfChar(s, '\n') == i && i < o <= |s|
    requires CountChar(s[i + 1..][..o - i - 1], '\n') < |NewlinePieces(s[i + 1..])|
    requires NewlinePieces(s[i + 1..])[CountChar(s[i + 1..][..o - i - 1], '\n')]
      == s[i + 1..][LineStart(s[i + 1..], o - i - 1)..LineEnd(s[i + 1..], o - i - 1)]
    ensures CountChar(s[..o], '\n') < |NewlinePieces(s)|
    ensures NewlinePieces(s)[CountChar(s[..o], '\n')] == s[LineStart(s, o)..LineEnd(s, o)]
  {
    var t, p := s[i + 1..], o - i - 1;
    var c := CountChar(t[..p], '\n');
    LineCountAfterNewline(s, i, o);
    PiecesAfterNewline(s, i);
    calc {
      NewlinePieces(s)[CountChar(s[..o], '\n')];
      NewlinePieces(s)[c + 1];
      ([s[..i]] + NewlinePieces(t))[c + 1];
      NewlinePieces(t)[c];
      t[LineStart(t, p)..LineEnd(t, p)];
      { WindowAfterNewline(s, i, o); }
      s[LineStart(s, o)..LineEnd(s, o)];
    }
  }

  /** The first piece runs to the first newline, or is all of `s`. */
  lemma FirstPiece(s: string)
    ensures |NewlinePieces(s)| >= 1
    ensures NewlinePieces(s)[0] == (if IndexOfChar(s, '\n') < 0 then s else s[..IndexOfChar(s, '\n')])
  {
  }

  /** Past the first newline, the pieces are the pieces of the rest, shifted by one. */
  lemma PiecesAfterNewline(s: string, i: nat)
    requires IndexOfChar(s, '\n') == i
    ensures NewlinePieces(s) == [s[..i]] + NewlinePieces(s[i + 1..])
  {
  }


  /** No newline before `o` when the first newline is at `i` or later. */
  lemma NoNewlineBefore(s: string, o: nat, i: nat)
    requires o <= i <= |s|
    requires forall k :: 0 <= k < i ==> s[k] != '\n'
    ensures CountChar(s[..o], '\n') == 0
  {
    CountCharAbsent(s[..o], '\n');
  }

  /** Past a newline at `i`, the line holding `o` is the line holding `o - i - 1` in the rest. */
  lemma WindowAfterNewline(s: string, i: nat, o: nat)
    requires i < o <= |s| && s[i] == '\n'
    ensures s[LineStart(s, o)..LineEnd(s, o)] == s[i + 1..][LineStart(s[i + 1..], o - i - 1)..LineEnd(s[i + 1..], o - i - 1)]
  {
    LineStartAfterNewline(s, i, o);
    LineEndAfterNewline(s, i, o);
    SliceOfSuffix(s, i + 1, LineStart(s[i + 1..], o - i - 1), LineEnd(s[i + 1..], o - i - 1), LineStart(s, o), LineEnd(s, o));
  }

  lemma SliceOfSuffix(s: string, a: nat, b: nat, c: nat, x: nat, y: nat)
    requires a <= |s| && b <= c <= |s| - a && x == a + b && y == a + c
    ensures s[x..y] == s[a..][b..c]
  {
  }

  lemma LineStartAfterNewline(s: string, i: nat, o: nat)
    requires i < o <= |s| && s[i] == '\n'
    ensures LineStart(s, o) == i + 1 + LineStart(s[i + 1..], o - i - 1)
  {
    var t := s[i + 1..];
    var ls := LineStart(t, o - i - 1);
    assert forall k :: i + 1 + ls <= k < o ==> s[k] == t[k - i - 1];
    LineStartIs(s, o, i + 1 + ls);
  }

  lemma LineEndAfterNewline(s: string, i: nat, o: nat)
    requires i < o <= |s|
    ensures LineEnd(s, o) == i + 1 + LineEnd(s[i + 1..], o - i - 1)
  {
    var t := s[i + 1..];
    var le := LineEnd(t, o - i - 1);
    assert forall k :: o <= k < i + 1 + le ==> s[k] == t[k - i - 1];
    LineEndIs(s, o, i + 1 + le);
  }

  lemma LineCountAfterNewline(s: string, i: nat, o: nat)
    requires IndexOfChar(s, '\n') == i && i < o <= |s|
    ensures CountChar(s[..o], '\n') == 1 + CountChar(s[i + 1..][..o - i - 1], '\n')
  {
    assert s[i + 1..][..o - i - 1] == s[i + 1..o];
    CountCharAround(s, i, o, '\n');
    CountCharAbsent(s[..i], '\n');
  }

  /** A match that spans no newline has the line holding its start as its window. */
  lemma SingleLineWindow(content: string, start: nat, end: nat)
    requires start <= end <= |content|
    requires forall k :: start <= k < end ==> content[k] != '\n'
    ensures StatementWindow(content, start, end) == Window(LineStart(content, start), LineEnd(content, start))
  {
    LineEndIs(content, start, LineEnd(content, end));
  }
}

=== FILE: patterns.dfy ===
/** The small fixed regular expressions the matchers apply to a statement or
    a stretch of content, written as scanners: the quoted package name
    `['"]pkg['"]`, the callback parameter list `function\s*\(([^)]*)\)`, the
    AMD dependency array `\[\s*([^\]]*)\s*\]` and the quoted dependency names
    `['"]([^'"]+)['"]` (finder.go). */
module Patterns {
  import opened GoStrings
  import opened Types

  predicate IsQuote(c: char) {
    c == '\'' || c == '"'
  }

  /** RE2's `\s`: space, tab, newline, form feed, carriage return. */
  predicate IsRegexSpace(c: char) {
    c == ' ' || c == '\t' || c == '\n' || c == '\U{000C}' || c == '\r'
  }

  // ---------------------------------------------------------------------
  // The quoted package name `['"]pkg['"]` (the name goes through
  // `regexp.QuoteMeta`, so it matches literally).

  /** The name, quoted by `'` or `"` on either side, starts at byte `k`. */
  predicate QuotedAt(s: string, name: string, k: int) {
    0 <= k && k + |name| + 2 <= |s| && IsQuote(s[k])
    && s[k + 1..k + 1 + |name|] == name && IsQuote(s[k + 1 + |name|])
  }

  /** The first quoted occurrence at or after `k`, or -1. */
  function FindQuotedFrom(s: string, name: string, k: nat): (r: int)
    ensures r == -1 || (k <= r && QuotedAt(s, name, r))
    ensures r >= 0 ==> forall j :: k <= j < r ==> !QuotedAt(s, name, j)
    ensures r < 0 ==> forall j :: k <= j ==> !QuotedAt(s, name, j)
    decreases |s| - k
  {
    if k + |name| + 2 > |s| then -1
    else if QuotedAt(s, name, k) then k
    else FindQuotedFrom(s, name, k + 1)
  }

  /** Whether `['"]name['"]` matches anywhere in `s`. */
  function HasQuoted(s: string, name: string): (b: bool)
    ensures b <==> exists k :: QuotedAt(s, name, k)
  {
    FindQuotedFrom(s, name, 0) >= 0
  }

  /** A quoted occurrence is an occurrence of the bare name. */
  lemma QuotedContainsName(s: string, name: string)
    requires HasQuoted(s, name)
    ensures Contains(s, name)
  {
    var k :| QuotedAt(s, name, k);
    assert OccursAt(s, name, k + 1);
  }

  /** Writing the name in quotes anywhere makes the pattern match. */
  lemma HasQuotedWritten(pre: string, q1: char, name: string, q2: char, post: string)
    requires IsQuote(q1) && IsQuote(q2)
    ensures HasQuoted(pre + [q1] + name + [q2] + post, name)
  {
    var s := pre + [q1] + name + [q2] + post;
    assert s[|pre| + 1..|pre| + 1 + |name|] == name;
    assert QuotedAt(s, name, |pre|);
  }

  // ---------------------------------------------------------------------
  // RE2 white space.

  /** The end of the run of RE2 spaces starting at `i`. */
  function SkipRegexSpace(s: string, i: nat): (j: nat)
    requires i <= |s|
    ensures i <= j <= |s|
    ensures forall k :: i <= k < j ==> IsRegexSpace(s[k])
    ensures j == |s| || !IsRegexSpace(s[j])
    decreases |s| - i
  {
    if i == |s| || !IsRegexSpace(s[i]) then i else SkipRegexSpace(s, i + 1)
  }

  /** The run ends exactly where the spaces do. */
  lemma SkipRegexSpaceIs(s: string, i: nat, j: nat)
    requires i <= j <= |s|
    requires forall k :: i <= k < j ==> IsRegexSpace(s[k])
    requires j == |s| || !IsRegexSpace(s[j])
    ensures SkipRegexSpace(s, i) == j
    decreases j - i
  {
    if i < j {
      SkipRegexSpaceIs(s, i + 1, j);
    }
  }

  // ---------------------------------------------------------------------
  // The callback parameter list `function\s*\(([^)]*)\)`: the first
  // `function` followed by optional spaces and `(` that has a `)` later,
  // capturing the bytes in between.

  /** The capture of the leftmost match, or `None`. */
  function ParamsClause(s: string): (r: Option<string>)
    ensures r.Some? ==> Contains(s, "function")
    ensures r.Some? ==> forall i :: 0 <= i < |r.value| ==> r.value[i] != ')'
    ensures !Contains(s, "function") ==> r.None?
    decreases |s|
  {
    var k := IndexOf(s, "function");
    if k < 0 then None
    else
      var q := SkipRegexSpace(s, k + 8);
      if OpensAt(s, q) then ClauseAfter(s, q)
      else ParamsClause(s[k + 1..])
  }

  /** An opening parenthesis at `q`. */
  predicate OpensAt(s: string, q: int) {
    0 <= q < |s| && s[q] == '('
  }

  /** The text from just after the parenthesis at `q` up to the first `)`,
      when there is one. */
  function ClauseAfter(s: string, q: nat): (r: Option<string>)
    requires q < |s|
    ensures r.Some? ==> forall i :: 0 <= i < |r.value| ==> r.value[i] != ')'
  {
    var c := IndexOfChar(s[q + 1..], ')');
    if c < 0 then None else Some(s[q + 1..][..c])
  }

  /** An occurrence of `function` cannot start in `pre` when `pre` does not
      contain one itself and ends in a byte outside the word. */
  lemma NoFunctionBefore(pre: string, rest: string, k: nat)
    requires !Contains(pre, "function")
    requires |pre| > 0 && pre[|pre| - 1] !in "function"
    requires k < |pre|
    ensures !OccursAt(pre + rest, "function", k)
  {
    var s := pre + rest;
    if k + 8 <= |pre| {
      assert s[0..|pre|] == pre;
      SliceOfSlice(s, 0, |pre|, k, k + 8);
      assert !OccursAt(pre, "function", k);
    } else {
      assert s[|pre| - 1] == pre[|pre| - 1];
    }
  }

  /** A callback `function<ws>(<params>)` written after `pre`, followed by `post`. */
  function Callback(pre: string, ws: string, params: string, post: string): string {
    pre + "function" + ws + "(" + params + ")" + post
  }

  /** The capture of a callback written after text free of `function`: the
      bytes between its parentheses. */
  lemma ParamsClauseOf(pre: string, ws: string, params: string, post: string)
    requires !Contains(pre, "function")
    requires |pre| > 0 && pre[|pre| - 1] !in "function"
    requires forall i :: 0 <= i < |ws| ==> IsRegexSpace(ws[i])
    requires forall i :: 0 <= i < |params| ==> params[i] != ')'
    ensures ParamsClause(Callback(pre, ws, params, post)) == Some(params)
  {
    var s := Callback(pre, ws, params, post);
    var q := |pre| + 8 + |ws|;
    CallbackFunctionAt(pre, ws, params, post, s);
    CallbackAround(pre, ws, params, post, s);
    SkipOverSpaces(s, |pre| + 8, ws);
    CallbackClose(pre, ws, params, post, s, q);
    ParamsClauseAt(s, |pre|, q, |params|, params);
  }

  lemma CallbackFunctionAt(pre: string, ws: string, params: string, post: string, s: string)
    requires !Contains(pre, "function")
    requires |pre| > 0 && pre[|pre| - 1] !in "function"
    requires s == Callback(pre, ws, params, post)
    ensures IndexOf(s, "function") == |pre| && |pre| + 8 <= |s|
  {
    var tail := "function" + ws + "(" + params + ")" + post;
    CallbackSplits(pre, ws, params, post);
    assert tail[..8] == "function";
    FunctionFirstAt(pre, tail);
  }

  lemma CallbackSplits(pre: string, ws: string, params: string, post: string)
    ensures Callback(pre, ws, params, post) == pre + ("function" + ws + "(" + params + ")" + post)
  {
  }

  /** A callback is its head, its spaces and its parenthesised tail. */
  lemma CallbackAround(pre: string, ws: string, params: string, post: string, s: string)
    requires s == Callback(pre, ws, params, post)
    ensures |pre| + 8 + |ws| < |s|
    ensures s[|pre| + 8..|pre| + 8 + |ws|] == ws
    ensures s[|pre| + 8 + |ws|..] == "(" + params + ")" + post
    ensures s[|pre| + 8 + |ws|] == '('
  {
    var head := pre + "function";
    var tail := "(" + params + ")" + post;
    assert s == head + ws + tail;
    assert s[|pre| + 8 + |ws|] == s[|pre| + 8 + |ws|..][0];
  }

  /** A run of spaces followed by a byte that is not one is skipped whole. */
  lemma SkipOverSpaces(s: string, i: nat, ws: string)
    requires forall k :: 0 <= k < |ws| ==> IsRegexSpace(ws[k])
    requires i + |ws| < |s| && s[i..i + |ws|] == ws && !IsRegexSpace(s[i + |ws|])
    ensures SkipRegexSpace(s, i) == i + |ws|
  {
    forall k | i <= k < i + |ws|
      ensures IsRegexSpace(s[k])
    {
      assert s[k] == s[i..i + |ws|][k - i];
    }
    SkipRegexSpaceIs(s, i, i + |ws|);
  }

  lemma CallbackClose(pre: string, ws: string, params: string, post: string, s: string, q: nat)
    requires forall i :: 0 <= i < |params| ==> params[i] != ')'
    requires s == Callback(pre, ws, params, post) && q == |pre| + 8 + |ws|
    ensures IndexOfChar(s[q + 1..], ')') == |params| && q + 1 + |params| <= |s| && s[q + 1..q + 1 + |params|] == params
  {
    var t := s[q + 1..];
    assert t == params + ")" + post;
    assert t[|params|] == ')';
    assert forall k :: 0 <= k < |params| ==> t[k] == params[k];
  }

  /** The first `function` is the one right after `pre`. */
  lemma FunctionFirstAt(pre: string, tail: string)
    requires !Contains(pre, "function")
    requires |pre| > 0 && pre[|pre| - 1] !in "function"
    requires |tail| >= 8 && tail[..8] == "function"
    ensures IndexOf(pre + tail, "function") == |pre|
  {
    var s := pre + tail;
    forall k | 0 <= k < |pre|
      ensures !OccursAt(s, "function", k)
    {
      NoFunctionBefore(pre, tail, k);
    }
    assert s[|pre|..|pre| + 8] == tail[..8];
    assert OccursAt(s, "function", |pre|);
  }

  lemma ParamsClauseAt(s: string, k: nat, q: nat, c: nat, v: string)
    requires IndexOf(s, "function") == k && k + 8 <= |s|
    requires SkipRegexSpace(s, k + 8) == q && q < |s| && s[q] == '('
    requires IndexOfChar(s[q + 1..], ')') == c && q + 1 + c <= |s| && s[q + 1..q + 1 + c] == v
    ensures ParamsClause(s) == Some(v)
  {
    assert OpensAt(s, q);
    assert s[q + 1..][..c] == v;
  }

  // ---------------------------------------------------------------------
  // A parameter list split at commas, each piece trimmed, blanks dropped.

  function TrimmedNonBlank(pieces: seq<string>): (r: seq<string>)
    ensures |r| <= |pieces|
    ensures forall i :: 0 <= i < |r| ==> r[i] != [] && Trimmed(r[i])
  {
    if pieces == [] then []
    else
      var t := TrimSpace(pieces[0]);
      (if t != [] then [t] else []) + TrimmedNonBlank(pieces[1..])
  }

  /** The parameters of a captured list (finder.go:611-617, finder.go:701-708). */
  function ParamList(clause: string): (r: seq<string>)
    ensures |r| <= CountChar(clause, ',') + 1
    ensures forall i :: 0 <= i < |r| ==> r[i] != [] && Trimmed(r[i])
    ensures forall i, k :: 0 <= i < |r| && 0 <= k < |r[i]| ==> r[i][k] != ','
  {
    SplitCount(clause, ',');
    var pieces := Split(clause, ",");
    var r := TrimmedNonBlank(pieces);
    assert forall i, k :: 0 <= i < |r| && 0 <= k < |r[i]| ==> r[i][k] != ',' by {
      SplitPiecesFree(clause, ",");
      TrimmedNonBlankNoComma(pieces);
    }
    r
  }

  lemma {:induction false} TrimmedNonBlankNoComma(pieces: seq<string>)
    requires forall i :: 0 <= i < |pieces| ==> !Contains(pieces[i], ",")
    ensures forall i, k :: 0 <= i < |TrimmedNonBlank(pieces)| && 0 <= k < |TrimmedNonBlank(pieces)[i]| ==>
      TrimmedNonBlank(pieces)[i][k] != ','
  {
    if pieces != [] {
      TrimmedNonBlankNoComma(pieces[1..]);
      var t := TrimSpace(pieces[0]);
      forall k | 0 <= k < |t|
        ensures t[k] != ','
      {
        var l := LeadingSpace(pieces[0]);
        assert t[k] == pieces[0][l + k];
        assert !OccursAt(pieces[0], ",", l + k);
        assert pieces[0][l + k..l + k + 1] == [pieces[0][l + k]];
      }
    }
  }

  /** Prefix a space to every name. */
  function Spaced(names: seq<string>): (r: seq<string>)
    ensures |r| == |names|
    ensures forall i :: 0 <= i < |r| ==> r[i] == " " + names[i]
  {
    if names == [] then [] else [" " + names[0]] + Spaced(names[1..])
  }

  lemma {:induction false} JoinSpaced(names: seq<string>)
    requires names != []
    ensures Join(Spaced(names), ",") == " " + Join(names, ", ")
  {
    if |names| > 1 {
      JoinSpaced(names[1..]);
    }
  }

  /** A name list written `a, b, c` splits at the commas into `a`, ` b`, ` c`. */
  lemma CommaSpacedPieces(names: seq<string>)
    requires names != []
    ensures Join([names[0]] + Spaced(names[1..]), ",") == Join(names, ", ")
  {
    if |names| > 1 {
      JoinCons(names[0], Spaced(names[1..]), ",");
      JoinSpaced(names[1..]);
      JoinCons(names[0], names[1..], ", ");
      assert [names[0]] + names[1..] == names;
      CommaThenSpace(names[0], Join(names[1..], ", "));
    } else {
      assert [names[0]] + Spaced(names[1..]) == names;
    }
  }

  lemma CommaThenSpace(a: string, b: string)
    ensures a + "," + (" " + b) == a + ", " + b
  {
  }

  predicate IsParamName(w: string) {
    w != [] && Trimmed(w) && forall k :: 0 <= k < |w| ==> w[k] != ','
  }

  lemma {:induction false} TrimmedNonBlankSpaced(names: seq<string>)
    requires forall i :: 0 <= i < |names| ==> IsParamName(names[i])
    ensures TrimmedNonBlank(Spaced(names)) == names
  {
    if names != [] {
      TrimSpacePadded(" ", names[0], "");
      assert " " + names[0] == " " + names[0] + "";
      assert Spaced(names)[1..] == Spaced(names[1..]);
      TrimmedNonBlankSpaced(names[1..]);
    }
  }

  /** Reading back a parameter list written `a, b, c` gives the names. */
  lemma ParamListRoundTrip(names: seq<string>)
    requires names != []
    requires forall i :: 0 <= i < |names| ==> IsParamName(names[i])
    ensures ParamList(Join(names, ", ")) == names
  {
    var pieces := [names[0]] + Spaced(names[1..]);
    ParamListIs(Join(names, ", "));
    assert Split(Join(names, ", "), ",") == pieces by {
      CommaSpacedPieces(names);
      PiecesCommaFree(names);
      SplitJoin(pieces, ',');
    }
    assert TrimmedNonBlank(pieces) == names by {
      TrimmedNonBlankCons(names[0], Spaced(names[1..]));
      TrimmedNonBlankSpaced(names[1..]);
      assert names == [names[0]] + names[1..];
    }
  }

  lemma TrimmedNonBlankCons(x: string, rest: seq<string>)
    requires x != [] && Trimmed(x)
    ensures TrimmedNonBlank([x] + rest) == [x] + TrimmedNonBlank(rest)
  {
    TrimSpaceOfTrimmed(x);
    assert ([x] + rest)[1..] == rest;
  }

  lemma ParamListIs(clause: string)
    ensures ParamList(clause) == TrimmedNonBlank(Split(clause, ","))
  {
  }

  lemma PiecesCommaFree(names: seq<string>)
    requires names != []
    requires forall i :: 0 <= i < |names| ==> IsParamName(names[i])
    ensures forall i, k :: 0 <= i < |[names[0]] + Spaced(names[1..])| && 0 <= k < |([names[0]] + Spaced(names[1..]))[i]| ==>
      ([names[0]] + Spaced(names[1..]))[i][k] != ','
  {
    var pieces := [names[0]] + Spaced(names[1..]);
    forall i, k | 0 <= i < |pieces| && 0 <= k < |pieces[i]|
      ensures pieces[i][k] != ','
    {
      if i > 0 {
        assert pieces[i] == " " + names[i];
        if k > 0 {
          assert pieces[i][k] == names[i][k - 1];
        }
      }
    }
  }

  // ---------------------------------------------------------------------
  // The dependency array `\[\s*([^\]]*)\s*\]`: the first `[` that has a `]`
  // after it, capturing the bytes up to that `]` without leading spaces.

  function DepsClause(s: string): (r: Option<string>)
    ensures r.Some? ==> forall i :: 0 <= i < |r.value| ==> r.value[i] != ']'
    ensures r.Some? && r.value != [] ==> !IsRegexSpace(r.value[0])
    ensures IndexOfChar(s, '[') < 0 ==> r.None?
  {
    var b := IndexOfChar(s, '[');
    if b < 0 then None
    else
      var e := IndexOfChar(s[b + 1..], ']');
      if e < 0 then None
      else
        var q := SkipRegexSpace(s, b + 1);
        assert s[b + 1 + e] == s[b + 1..][e];
        Some(s[q..b + 1 + e])
  }

  /** The capture of an array written after text free of `[`. */
  lemma DepsClauseOf(pre: string, items: string, post: string)
    requires forall i :: 0 <= i < |pre| ==> pre[i] != '['
    requires forall i :: 0 <= i < |items| ==> items[i] != ']'
    requires items == [] || !IsRegexSpace(items[0])
    ensures DepsClause(pre + "[" + items + "]" + post) == Some(items)
  {
    var s := pre + "[" + items + "]" + post;
    DepsOpenAt(pre, items, post, s);
    DepsCloseAt(pre, items, post, s);
    DepsNoLeadingSpace(pre, items, post, s);
    DepsClauseAt(s, |pre|, |items|, items);
  }

  lemma DepsOpenAt(pre: string, items: string, post: string, s: string)
    requires forall i :: 0 <= i < |pre| ==> pre[i] != '['
    requires s == pre + "[" + items + "]" + post
    ensures IndexOfChar(s, '[') == |pre|
  {
    assert s[|pre|] == '[';
  }

  lemma DepsCloseAt(pre: string, items: string, post: string, s: string)
    requires forall i :: 0 <= i < |items| ==> items[i] != ']'
    requires s == pre + "[" + items + "]" + post
    ensures |pre| + 1 + |items| < |s|
    ensures IndexOfChar(s[|pre| + 1..], ']') == |items| && s[|pre| + 1..|pre| + 1 + |items|] == items
  {
    var t := s[|pre| + 1..];
    assert t == items + "]" + post;
    assert t[|items|] == ']';
  }

  /** No spaces are skipped after the `[` when the items start with a non-space. */
  lemma DepsNoLeadingSpace(pre: string, items: string, post: string, s: string)
    requires items == [] || !IsRegexSpace(items[0])
    requires s == pre + "[" + items + "]" + post
    ensures SkipRegexSpace(s, |pre| + 1) == |pre| + 1
  {
    if items == [] {
      assert s[|pre| + 1] == ']';
    } else {
      assert s[|pre| + 1] == items[0];
    }
    SkipRegexSpaceIs(s, |pre| + 1, |pre| + 1);
  }

  /** Glue: the capture when the bracket positions are known. */
  lemma DepsClauseAt(s: string, b: nat, e: nat, v: string)
    requires IndexOfChar(s, '[') == b && b + 1 + e < |s|
    requires IndexOfChar(s[b + 1..], ']') == e
    requires SkipRegexSpace(s, b + 1) == b + 1 && s[b + 1..b + 1 + e] == v
    ensures DepsClause(s) == Some(v)
  {
    assert DepsClause(s).Some?;
    assert DepsClause(s).value == s[b + 1..b + 1 + e];
  }

  // ---------------------------------------------------------------------
  // The dependency names `['"]([^'"]+)['"]`, all matches left to right.

  /** The first quote in `s`, or -1. */
  function FirstQuote(s: string): (r: int)
    ensures -1 <= r < |s|
    ensures r >= 0 ==> IsQuote(s[r])
    ensures forall k :: 0 <= k < |s| && (r < 0 || k < r) ==> !IsQuote(s[k])
  {
    if s == [] then -1
    else if IsQuote(s[0]) then 0
    else
      var t := FirstQuote(s[1..]);
      if t < 0 then -1 else t + 1
  }

  predicate QuoteFree(s: string) {
    forall k :: 0 <= k < |s| ==> !IsQuote(s[k])
  }

  /** The captured names of all non-overlapping matches: from the first quote,
      the run of non-quotes up to the next quote, when that run is not empty;
      an empty run makes the match start over at the second quote. */
  function QuotedItems(s: string): (r: seq<string>)
    ensures forall i :: 0 <= i < |r| ==> r[i] != [] && QuoteFree(r[i])
    decreases |s|, 0
  {
    var i := FirstQuote(s);
    if i < 0 then [] else ItemsAfterQuote(s[i + 1..])
  }

  /** The items from just after an opening quote. */
  function ItemsAfterQuote(t: string): (r: seq<string>)
    ensures forall i :: 0 <= i < |r| ==> r[i] != [] && QuoteFree(r[i])
    decreases |t|, 1
  {
    var j := FirstQuote(t);
    if j < 0 then []
    else if j == 0 then QuotedItems(t)
    else
      assert QuoteFree(t[..j]);
      [t[..j]] + QuotedItems(t[j + 1..])
  }

  /** Quote-free text in front shifts the first quote. */
  lemma {:induction false} FirstQuoteAppend(p: string, rest: string)
    requires QuoteFree(p)
    ensures FirstQuote(p + rest) == if FirstQuote(rest) < 0 then -1 else |p| + FirstQuote(rest)
  {
    if p != [] {
      assert (p + rest)[1..] == p[1..] + rest;
      FirstQuoteAppend(p[1..], rest);
    } else {
      assert p + rest == rest;
    }
  }

  lemma QuotedItemsAt(s: string, i: nat, after: string)
    requires FirstQuote(s) == i && s[i + 1..] == after
    ensures QuotedItems(s) == ItemsAfterQuote(after)
  {
  }

  lemma QuotedItemsNone(s: string)
    requires FirstQuote(s) < 0
    ensures QuotedItems(s) == []
  {
  }

  /** Text without quotes before a match is skipped. */
  lemma QuotedItemsSkip(p: string, rest: string)
    requires QuoteFree(p)
    ensures QuotedItems(p + rest) == QuotedItems(rest)
  {
    FirstQuoteAppend(p, rest);
    if FirstQuote(rest) >= 0 {
      DropPastPrefix(p, rest, FirstQuote(rest) + 1);
      QuotedItemsAt(p + rest, |p| + FirstQuote(rest), rest[FirstQuote(rest) + 1..]);
      QuotedItemsAt(rest, FirstQuote(rest), rest[FirstQuote(rest) + 1..]);
    } else {
      QuotedItemsNone(p + rest);
      QuotedItemsNone(rest);
    }
  }

  lemma DropPastPrefix(p: string, rest: string, n: nat)
    requires n <= |rest|
    ensures (p + rest)[|p| + n..] == rest[n..]
  {
  }

  /** A quoted name is the next item. */
  lemma QuotedItemsCons(q: char, d: string, rest: string)
    requires IsQuote(q) && d != [] && QuoteFree(d)
    ensures QuotedItems([q] + d + [q] + rest) == [d] + QuotedItems(rest)
  {
    var s := [q] + d + [q] + rest;
    assert FirstQuote(s) == 0;
    var t := s[1..];
    assert t == d + [q] + rest;
    assert forall k :: 0 <= k < |d| ==> t[k] == d[k];
    assert t[|d|] == q;
    assert FirstQuote(t) == |d|;
    assert t[..|d|] == d;
    assert t[|d| + 1..] == rest;
  }

  /** A dependency list written `'a', 'b', 'c'`. */
  function QuotedList(deps: seq<string>): string {
    if deps == [] then ""
    else if |deps| == 1 then "'" + deps[0] + "'"
    else "'" + deps[0] + "', " + QuotedList(deps[1..])
  }

  /** Reading the names back from a written dependency list gives the list. */
  lemma {:induction false} QuotedItemsRoundTrip(deps: seq<string>)
    requires forall i :: 0 <= i < |deps| ==> deps[i] != [] && QuoteFree(deps[i])
    ensures QuotedItems(QuotedList(deps)) == deps
  {
    if deps == [] {
      QuotedItemsNone("");
    } else if |deps| == 1 {
      QuotedItemsSingle(deps[0]);
    } else {
      var rest := QuotedList(deps[1..]);
      assert QuotedList(deps) == ['\''] + deps[0] + ['\''] + (", " + rest);
      assert QuotedItems(QuotedList(deps)) == [deps[0]] + QuotedItems(rest) by {
        QuotedItemsCons('\'', deps[0], ", " + rest);
        QuotedItemsSkip(", ", rest);
      }
      QuotedItemsRoundTrip(deps[1..]);
    }
  }

  lemma QuotedItemsSingle(d: string)
    requires d != [] && QuoteFree(d)
    ensures QuotedItems("'" + d + "'") == [d]
  {
    QuotedItemsCons('\'', d, "");
    QuotedItemsNone("");
    assert "'" + d + "'" == ['\''] + d + ['\''] + "";
  }

  // ---------------------------------------------------------------------

  /** The index of the first `x` in `xs`, or -1. */
  function FirstIndex(xs: seq<string>, x: string): (r: int)
    ensures -1 <= r < |xs|
    ensures r >= 0 ==> xs[r] == x && x !in xs[..r]
    ensures r < 0 <==> x !in xs
  {
    if xs == [] then -1
    else if xs[0] == x then 0
    else
      var t := FirstIndex(xs[1..], x);
      assert xs[1..][..if t < 0 then 0 else t] == xs[1..if t < 0 then 1 else t + 1];
      if t < 0 then -1 else t + 1
  }

  // ---------------------------------------------------------------------
  // The named-import pattern `import\s+{([^}]*)}` of the ES6 pass
  // (finder.go:866). `{` must follow `import` and its blanks directly.

  /** The capture of the pattern when a match starts at `k`: `import`, at
      least one space, `{`, and everything up to the first `}`. */
  function NamedClauseAt(s: string, k: nat): (r: Option<string>)
    ensures r.Some? ==> OccursAt(s, "import", k)
    ensures r.Some? ==> forall i :: 0 <= i < |r.value| ==> r.value[i] != '}'
  {
    if !OccursAt(s, "import", k) then None
    else
      var j := SkipRegexSpace(s, k + 6);
      if j == k + 6 || j == |s| || s[j] != '{' then None
      else
        var c := IndexOfChar(s[j + 1..], '}');
        if c < 0 then None else Some(s[j + 1..][..c])
  }

  /** The match at `j` is the leftmost one at or after `k`. */
  predicate FirstNamedAt(s: string, k: nat, j: nat) {
    k <= j && NamedClauseAt(s, j).Some? && forall i :: k <= i < j ==> NamedClauseAt(s, i).None?
  }

  /** The leftmost match at or after `k`, as `FindStringSubmatch` returns it. */
  function NamedClauseFrom(s: string, k: nat): Option<string>
    decreases |s| - k
  {
    if k >= |s| then None
    else if NamedClauseAt(s, k).Some? then NamedClauseAt(s, k)
    else NamedClauseFrom(s, k + 1)
  }

  /** `NamedClauseFrom` finds nothing exactly when no position at or after
      `k` matches, and otherwise the match at the leftmost one that does. */
  lemma {:induction false} NamedClauseFromComplete(s: string, k: nat)
    ensures NamedClauseFrom(s, k).Some? ==> exists j :: FirstNamedAt(s, k, j) && NamedClauseAt(s, j) == NamedClauseFrom(s, k)
    ensures NamedClauseFrom(s, k).None? <==> forall j :: k <= j ==> NamedClauseAt(s, j).None?
    decreases |s| - k
  {
    if k >= |s| {
      assert forall j :: k <= j ==> !OccursAt(s, "import", j);
    } else if NamedClauseAt(s, k).Some? {
      assert FirstNamedAt(s, k, k);
    } else {
      NamedClauseFromComplete(s, k + 1);
      var r := NamedClauseFrom(s, k + 1);
      if r.Some? {
        var j :| FirstNamedAt(s, k + 1, j) && NamedClauseAt(s, j) == r;
        assert FirstNamedAt(s, k, j);
      }
    }
  }

  function NamedClause(s: string): Option<string> {
    NamedClauseFrom(s, 0)
  }

  /** `import`, blanks and `{clause}` at the start of the statement: the
      capture is exactly the clause. */
  lemma NamedClauseOfImport(ws: string, clause: string, post: string)
    requires ws != [] && forall i :: 0 <= i < |ws| ==> IsRegexSpace(ws[i])
    requires forall i :: 0 <= i < |clause| ==> clause[i] != '}'
    ensures NamedClause("import" + ws + "{" + clause + "}" + post) == Some(clause)
  {
    var s := "import" + ws + "{" + clause + "}" + post;
    assert s[..6] == "import";
    SkipRegexSpaceIs(s, 6, 6 + |ws|);
    var t := s[6 + |ws| + 1..];
    assert t == clause + "}" + post;
    IndexOfCharIs(t, '}', |clause|);
    assert t[..|clause|] == clause;
    assert FirstNamedAt(s, 0, 0);
  }

  /** A default name right after `import` and its blanks: the pattern cannot
      match there, and with no other `import` in the statement it does not
      match at all. */
  lemma NamedClauseAfterDefault(ws: string, d: string, rest: string)
    requires ws != [] && forall i :: 0 <= i < |ws| ==> IsRegexSpace(ws[i])
    requires d != [] && d[0] != '{' && !IsRegexSpace(d[0])
    requires forall j :: 0 < j ==> !OccursAt("import" + ws + d + rest, "import", j)
    ensures NamedClause("import" + ws + d + rest) == None
  {
    var s := "import" + ws + d + rest;
    SkipRegexSpaceIs(s, 6, 6 + |ws|);
    assert s[6 + |ws|] == d[0];
    assert NamedClauseAt(s, 0).None?;
    forall j | 0 <= j
      ensures NamedClauseAt(s, j).None?
    {
      if j > 0 {
        assert !OccursAt(s, "import", j);
      }
    }
    NamedClauseFromComplete(s, 0);
  }
}

=== FILE: position.dfy ===
/** Offset-to-position conversion (finder.go `getLineAndCharacter`). Positions
    are 1-based in both coordinates. */
module Position {
  import opened GoStrings
  import opened Lines

  /** A (line, character) pair; both start at 1. */
  datatype LineChar = LineChar(line: int, character: int)

  /** Lexicographic order on positions. */
  predicate Before(p: LineChar, q: LineChar) {
    p.line < q.line || (p.line == q.line && p.character < q.character)
  }

  /** The position of byte `offset`: the source splits `content[:offset]` at
      newlines, takes the number of pieces as the line and one more than the
      length of the last piece as the character. */
  function LineAndCharacter(content: string, offset: nat): (p: LineChar)
    requires offset <= |content|
    ensures p.line == CountChar(content[..offset], '\n') + 1
    ensures p.character == offset - LineStart(content, offset) + 1
    ensures p.line >= 1 && p.character >= 1
  {
    var prefix := content[..offset];
    var lines := Split(prefix, "\n");
    var lineNum := |lines|;
    assert lineNum == CountChar(prefix, '\n') + 1 && |lines[lineNum - 1]| == offset - LineStart(content, offset) by {
      SplitCount(prefix, '\n');
      LastPiece(content, offset);
    }
    LineChar(lineNum, if lineNum > 0 then |lines[lineNum - 1]| + 1 else offset + 1)
  }

  /** The last piece of the newline split of `content[:offset]` runs from
      the start of `offset`'s line to `offset`. */
  lemma LastPiece(content: string, offset: nat)
    requires offset <= |content|
    ensures CountChar(content[..offset], '\n') < |Split(content[..offset], "\n")|
    ensures Split(content[..offset], "\n")[CountChar(content[..offset], '\n')] == content[LineStart(content, offset)..offset]
  {
    var prefix := content[..offset];
    SplitLine(prefix, |prefix|);
    assert prefix[..|prefix|] == prefix;
    LineEndIs(prefix, |prefix|, |prefix|);
    LineStartSpec(content, offset);
    LineStartIs(prefix, |prefix|, LineStart(content, offset));
  }

  /** An independent definition of the same position: walk the content from
      (1, 1), moving to the next line after each newline byte and one
      character right after any other byte. */
  function ScanPosition(content: string, k: nat): LineChar
    requires k <= |content|
  {
    if k == 0 then LineChar(1, 1)
    else
      var p := ScanPosition(content, k - 1);
      if content[k - 1] == '\n' then LineChar(p.line + 1, 1) else LineChar(p.line, p.character + 1)
  }

  /** The source's split-based computation agrees with the walk at every offset. */
  lemma LineAndCharacterIsScan(content: string, k: nat)
    requires k <= |content|
    ensures LineAndCharacter(content, k) == ScanPosition(content, k)
  {
    ScanClosedForm(content, k);
  }

  /** The walk in closed form: newlines so far plus one, and the distance
      from the start of the line plus one. */
  lemma {:induction false} ScanClosedForm(content: string, k: nat)
    requires k <= |content|
    ensures ScanPosition(content, k).line == CountChar(content[..k], '\n') + 1
    ensures ScanPosition(content, k).character == k - LineStart(content, k) + 1
  {
    if k > 0 {
      ScanClosedForm(content, k - 1);
      NewlinesStep(content, k);
      if content[k - 1] == '\n' {
        LineStartIs(content, k, k);
      } else {
        LineStartSpec(content, k - 1);
        LineStartIs(content, k, LineStart(content, k - 1));
      }
    }
  }

  lemma NewlinesStep(content: string, k: nat)
    requires 0 < k <= |content|
    ensures CountChar(content[..k], '\n') == CountChar(content[..k - 1], '\n') + (if content[k - 1] == '\n' then 1 else 0)
  {
    assert content[..k] == content[..k - 1] + [content[k - 1]];
    CountCharAppend(content[..k - 1], [content[k - 1]], '\n');
  }

  /** Positions strictly increase along the content. */
  lemma {:induction false} ScanIncreasing(content: string, a: nat, b: nat)
    requires a < b <= |content|
    ensures Before(ScanPosition(content, a), ScanPosition(content, b))
    decreases b
  {
    if a < b - 1 {
      ScanIncreasing(content, a, b - 1);
    }
  }

  /** Distinct offsets have distinct positions, so a reported position
      identifies the match it was computed from. */
  lemma PositionInjective(content: string, a: nat, b: nat)
    requires a <= |content| && b <= |content|
    requires LineAndCharacter(content, a) == LineAndCharacter(content, b)
    ensures a == b
  {
    LineAndCharacterIsScan(content, a);
    LineAndCharacterIsScan(content, b);
    if a < b {
      ScanIncreasing(content, a, b);
    } else if b < a {
      ScanIncreasing(content, b, a);
    }
  }

  /** The text `TestGetLineAndCharacter` uses (finder_test.go). */
  const TestContent: string := "line1\nline2\nline3\nline4"

  /** Across a stretch without newlines the walk only moves right. */
  lemma {:induction false} ScanAlongLine(content: string, a: nat, b: nat)
    requires a <= b <= |content|
    requires forall k :: a <= k < b ==> content[k] != '\n'
    ensures ScanPosition(content, b) == LineChar(ScanPosition(content, a).line, ScanPosition(content, a).character + b - a)
    decreases b
  {
    if a < b {
      ScanAlongLine(content, a, b - 1);
    }
  }

  /** One line of the test text: five bytes without a newline, then a
      newline. */
  lemma {:induction false} ScanRow(c: string, start: nat, line: int)
    requires start + 6 <= |c| && c[start + 5] == '\n'
    requires forall k :: start <= k < start + 5 ==> c[k] != '\n'
    requires ScanPosition(c, start) == LineChar(line, 1)
    ensures ScanPosition(c, start + 5) == LineChar(line, 6)
    ensures ScanPosition(c, start + 6) == LineChar(line + 1, 1)
  {
    ScanAlongLine(c, start, start + 5);
  }

  /** The walk over the test text, line by line. */
  lemma ScanOfTestContent()
    ensures ScanPosition(TestContent, 5) == LineChar(1, 6) && ScanPosition(TestContent, 6) == LineChar(2, 1)
    ensures ScanPosition(TestContent, 11) == LineChar(2, 6) && ScanPosition(TestContent, 12) == LineChar(3, 1)
    ensures ScanPosition(TestContent, 17) == LineChar(3, 6) && ScanPosition(TestContent, 18) == LineChar(4, 1)
    ensures ScanPosition(TestContent, 23) == LineChar(4, 6)
  {
    var c := TestContent;
    assert |c| == 23;
    assert c[5] == '\n' && c[11] == '\n' && c[17] == '\n';
    assert forall k :: 0 <= k < 5 ==> c[k] != '\n';
    assert forall k :: 6 <= k < 11 ==> c[k] != '\n';
    assert forall k :: 12 <= k < 17 ==> c[k] != '\n';
    assert forall k :: 18 <= k < 23 ==> c[k] != '\n';
    ScanRow(c, 0, 1);
    ScanRow(c, 6, 2);
    ScanRow(c, 12, 3);
    ScanAlongLine(c, 18, 23);
  }

  /** The positions `TestGetLineAndCharacter` expects on its first line
      (finder_test.go:40-41). */
  lemma LineOneExamples()
    ensures LineAndCharacter(TestContent, 0) == LineChar(1, 1)
    ensures LineAndCharacter(TestContent, 5) == LineChar(1, 6)
  {
    ScanOfTestContent();
    LineAndCharacterIsScan(TestContent, 0);
    LineAndCharacterIsScan(TestContent, 5);
  }

  /** The positions `TestGetLineAndCharacter` expects on its second line
      (finder_test.go:42-43). */
  lemma LineTwoExamples()
    ensures LineAndCharacter(TestContent, 6) == LineChar(2, 1)
    ensures LineAndCharacter(TestContent, 11) == LineChar(2, 6)
  {
    ScanOfTestContent();
    LineAndCharacterIsScan(TestContent, 6);
    LineAndCharacterIsScan(TestContent, 11);
  }

  /** The positions `TestGetLineAndCharacter` expects on its third line
      (finder_test.go:44-45). */
  lemma LineThreeExamples()
    ensures LineAndCharacter(TestContent, 12) == LineChar(3, 1)
    ensures LineAndCharacter(TestContent, 17) == LineChar(3, 6)
  {
    ScanOfTestContent();
    LineAndCharacterIsScan(TestContent, 12);
    LineAndCharacterIsScan(TestContent, 17);
  }

  /** The positions `TestGetLineAndCharacter` expects on its last line
      (finder_test.go:46-47). */
  lemma LineFourExamples()
    ensures LineAndCharacter(TestContent, 18) == LineChar(4, 1)
    ensures LineAndCharacter(TestContent, 23) == LineChar(4, 6)
  {
    ScanOfTestContent();
    LineAndCharacterIsScan(TestContent, 18);
    LineAndCharacterIsScan(TestContent, 23);
  }
}

=== FILE: strings.dfy ===
/** The parts of Go's `strings` package that the finder relies on, over byte
    strings: each element of a `string` here stands for one byte of the Go
    string, so lengths and offsets are byte counts as in the source. */
module GoStrings {

  /** Whitespace removed by `strings.TrimSpace` (its ASCII members). */
  predicate IsSpace(c: char) {
    c == ' ' || c == '\t' || c == '\n' || c == '\r' || c == '\U{000B}' || c == '\U{000C}'
  }

  predicate AllSpace(s: string) {
    forall i :: 0 <= i < |s| ==> IsSpace(s[i])
  }

  /** A string with no whitespace at either end, as `TrimSpace` leaves it. */
  predicate Trimmed(s: string) {
    s == [] || (!IsSpace(s[0]) && !IsSpace(s[|s| - 1]))
  }

  /** Every byte of `s` in `[a, b)` is whitespace. */
  predicate SpaceBetween(s: string, a: nat, b: nat)
    requires a <= b <= |s|
  {
    forall k :: a <= k < b ==> IsSpace(s[k])
  }

  /** The first byte at or after `i` that is not whitespace, or `|s|`. */
  function LeadingFrom(s: string, i: nat): (a: nat)
    requires i <= |s|
    ensures i <= a <= |s|
    ensures SpaceBetween(s, i, a)
    ensures a == |s| || !IsSpace(s[a])
    decreases |s| - i
  {
    if i < |s| && IsSpace(s[i]) then LeadingFrom(s, i + 1) else i
  }

  /** One past the last byte in `[a, j)` that is not whitespace, or `a`. */
  function TrailingFrom(s: string, a: nat, j: nat): (b: nat)
    requires a <= j <= |s|
    ensures a <= b <= j
    ensures SpaceBetween(s, b, j)
    ensures b == a || !IsSpace(s[b - 1])
    decreases j
  {
    if j > a && IsSpace(s[j - 1]) then TrailingFrom(s, a, j - 1) else j
  }

  /** Number of leading whitespace bytes `TrimSpace` drops. */
  function LeadingSpace(s: string): (n: nat)
    ensures n <= |s|
    ensures SpaceBetween(s, 0, n)
    ensures n == |s| || !IsSpace(s[n])
  {
    LeadingFrom(s, 0)
  }

  /** `strings.TrimSpace`: `s` without leading and trailing whitespace. */
  function TrimSpace(s: string): (r: string)
    ensures Trimmed(r)
    ensures LeadingSpace(s) + |r| <= |s|
    ensures r == s[LeadingSpace(s)..LeadingSpace(s) + |r|]
    ensures SpaceBetween(s, 0, LeadingSpace(s)) && SpaceBetween(s, LeadingSpace(s) + |r|, |s|)
  {
    s[LeadingSpace(s)..TrailingFrom(s, LeadingSpace(s), |s|)]
  }

  lemma {:induction false} LeadingFromIs(s: string, i: nat, a: nat)
    requires i <= a <= |s| && SpaceBetween(s, i, a)
    requires a == |s| || !IsSpace(s[a])
    ensures LeadingFrom(s, i) == a
    decreases a - i
  {
    if i < a {
      LeadingFromIs(s, i + 1, a);
    }
  }

  lemma {:induction false} TrailingFromIs(s: string, a: nat, j: nat, b: nat)
    requires a <= b <= j <= |s| && SpaceBetween(s, b, j)
    requires b == a || !IsSpace(s[b - 1])
    ensures TrailingFrom(s, a, j) == b
    decreases j - b
  {
    if b < j {
      TrailingFromIs(s, a, j - 1, b);
    }
  }

  lemma TrimSpaceOfTrimmed(s: string)
    requires Trimmed(s)
    ensures TrimSpace(s) == s
  {
    LeadingFromIs(s, 0, 0);
    TrailingFromIs(s, 0, |s|, |s|);
  }

  /** Trimming twice is trimming once. */
  lemma TrimSpaceIdempotent(s: string)
    ensures TrimSpace(TrimSpace(s)) == TrimSpace(s)
  {
    TrimSpaceOfTrimmed(TrimSpace(s));
  }

  /** Trimming whitespace around a string that has none at its ends gives that string. */
  lemma TrimSpacePadded(pre: string, w: string, post: string)
    requires AllSpace(pre) && AllSpace(post) && Trimmed(w) && w != []
    ensures TrimSpace(pre + w + post) == w
  {
    var s := pre + w + post;
    var e := |pre| + |w|;
    assert s[|pre|] == w[0] && s[e - 1] == w[|w| - 1];
    assert SpaceBetween(s, 0, |pre|) by {
      forall k | 0 <= k < |pre| ensures IsSpace(s[k]) { assert s[k] == pre[k]; }
    }
    assert SpaceBetween(s, e, |s|) by {
      forall k | e <= k < |s| ensures IsSpace(s[k]) { assert s[k] == post[k - e]; }
    }
    LeadingFromIs(s, 0, |pre|);
    TrailingFromIs(s, |pre|, |s|, e);
    assert s[|pre|..e] == w;
  }

  /** Trimming a blank string leaves nothing. */
  lemma TrimSpaceOfBlank(s: string)
    ensures AllSpace(s) ==> TrimSpace(s) == []
  {
    if AllSpace(s) {
      LeadingFromIs(s, 0, |s|);
    }
  }

  /** `sub` occurs in `s` starting at byte `k`. */
  predicate OccursAt(s: string, sub: string, k: int) {
    0 <= k && k + |sub| <= |s| && s[k..k + |sub|] == sub
  }

  /** `strings.Index`: the first byte at which `sub` occurs in `s`, or -1. */
  function IndexOf(s: string, sub: string): (r: int)
    ensures -1 <= r
    ensures r >= 0 ==> OccursAt(s, sub, r)
    ensures r >= 0 ==> forall k :: 0 <= k < r ==> !OccursAt(s, sub, k)
    ensures r < 0 ==> forall k :: 0 <= k ==> !OccursAt(s, sub, k)
    decreases |s|
  {
    if |s| < |sub| then -1
    else if s[..|sub|] == sub then 0
    else
      var t := IndexOf(s[1..], sub);
      assert !OccursAt(s, sub, 0);
      forall k | 1 <= k
        ensures OccursAt(s, sub, k) <==> OccursAt(s[1..], sub, k - 1)
      {
        if k + |sub| <= |s| {
          assert s[1..][k - 1..k - 1 + |sub|] == s[k..k + |sub|];
        }
      }
      if t < 0 then -1 else t + 1
  }

  /** `strings.Contains`. */
  function Contains(s: string, sub: string): (b: bool)
    ensures b <==> exists k :: OccursAt(s, sub, k)
  {
    IndexOf(s, sub) >= 0
  }

  lemma OccurrenceStartsWithHead(s: string, sub: string)
    requires |sub| > 0
    ensures forall j :: OccursAt(s, sub, j) ==> s[j] == sub[0]
  {
    forall j | OccursAt(s, sub, j)
      ensures s[j] == sub[0]
    {
      assert s[j..j + |sub|][0] == s[j];
    }
  }

  /** An occurrence of `sub` whose first byte appears nowhere earlier is the first one. */
  lemma IndexOfAt(s: string, sub: string, k: nat)
    requires OccursAt(s, sub, k) && |sub| > 0
    requires forall j :: 0 <= j < k ==> s[j] != sub[0]
    ensures IndexOf(s, sub) == k
  {
    OccurrenceStartsWithHead(s, sub);
  }

  /** A string that never contains the first byte of `sub` does not contain `sub`. */
  lemma IndexOfAbsent(s: string, sub: string)
    requires |sub| > 0
    requires forall j :: 0 <= j < |s| ==> s[j] != sub[0]
    ensures IndexOf(s, sub) == -1
  {
    OccurrenceStartsWithHead(s, sub);
  }

  /** `strings.HasPrefix`. */
  predicate HasPrefix(s: string, prefix: string) {
    |prefix| <= |s| && s[..|prefix|] == prefix
  }

  /** `strings.TrimPrefix`. */
  function TrimPrefix(s: string, prefix: string): (r: string)
    ensures HasPrefix(s, prefix) ==> prefix + r == s
    ensures !HasPrefix(s, prefix) ==> r == s
  {
    if HasPrefix(s, prefix) then s[|prefix|..] else s
  }

  /** `strings.ToLower` on ASCII letters. */
  function ToLower(s: string): (r: string)
    ensures |r| == |s|
    ensures forall i :: 0 <= i < |s| ==> r[i] == (if 'A' <= s[i] <= 'Z' then (s[i] as int + 32) as char else s[i])
  {
    if s == [] then []
    else [if 'A' <= s[0] <= 'Z' then (s[0] as int + 32) as char else s[0]] + ToLower(s[1..])
  }

  /** Number of bytes `c` in `s`. */
  function CountChar(s: string, c: char): nat {
    if s == [] then 0 else (if s[0] == c then 1 else 0) + CountChar(s[1..], c)
  }

  lemma {:induction false} CountCharAppend(a: string, b: string, c: char)
    ensures CountChar(a + b, c) == CountChar(a, c) + CountChar(b, c)
  {
    if a != [] {
      var ab := a + b;
      assert ab[0] == a[0];
      assert ab[1..] == a[1..] + b;
      CountCharAppend(a[1..], b, c);
      assert CountChar(ab, c) == (if ab[0] == c then 1 else 0) + CountChar(ab[1..], c);
    } else {
      assert a + b == b;
    }
  }

  /** Counting up to `o` splits around the byte at `i`. */
  lemma CountCharAround(s: string, i: nat, o: nat, c: char)
    requires i < o <= |s|
    ensures CountChar(s[..o], c) == CountChar(s[..i], c) + (if s[i] == c then 1 else 0) + CountChar(s[i + 1..o], c)
  {
    assert s[..o] == s[..i] + s[i..o];
    CountCharAppend(s[..i], s[i..o], c);
    assert s[i..o][1..] == s[i + 1..o];
  }

  lemma {:induction false} CountCharAbsent(s: string, c: char)
    requires forall i :: 0 <= i < |s| ==> s[i] != c
    ensures CountChar(s, c) == 0
  {
    if s != [] {
      CountCharAbsent(s[1..], c);
    }
  }

  /** `strings.LastIndex` for a one-byte needle. */
  function LastIndexOfChar(s: string, c: char): (r: int)
    ensures -1 <= r < |s|
    ensures r >= 0 ==> s[r] == c
    ensures forall k :: r < k < |s| ==> s[k] != c
  {
    if s == [] then -1
    else if s[|s| - 1] == c then |s| - 1
    else LastIndexOfChar(s[..|s| - 1], c)
  }

  /** `strings.Index` for a one-byte needle. */
  function IndexOfChar(s: string, c: char): (r: int)
    ensures -1 <= r < |s|
    ensures r >= 0 ==> s[r] == c
    ensures forall k :: 0 <= k < |s| && (r < 0 || k < r) ==> s[k] != c
  {
    if s == [] then -1
    else if s[0] == c then 0
    else
      var t := IndexOfChar(s[1..], c);
      if t < 0 then -1 else t + 1
  }

  /** `s` holds no byte `c`. */
  predicate Lacks(s: string, c: char) {
    forall k :: 0 <= k < |s| ==> s[k] != c
  }

  lemma LacksAppend(a: string, b: string, c: char)
    requires Lacks(a, c) && Lacks(b, c)
    ensures Lacks(a + b, c)
  {
  }

  /** The bytes before the first `c` (or all bytes, when there is none) lack `c`. */
  lemma LacksBeforeFirst(t: string, c: char, n: nat)
    requires n <= |t| && (IndexOfChar(t, c) < 0 || n <= IndexOfChar(t, c))
    ensures Lacks(t[..n], c)
  {
  }

  lemma SliceOfDrop(s: string, a: nat, n: nat)
    requires a + n <= |s|
    ensures s[a..][..n] == s[a..a + n]
  {
  }

  /** The bytes of `s` from `a` up to the first `c` at or after `a` lack `c`. */
  lemma LacksSliceBeforeFirst(s: string, a: nat, n: nat, c: char)
    requires a + n <= |s| && (IndexOfChar(s[a..], c) < 0 || n <= IndexOfChar(s[a..], c))
    ensures Lacks(s[a..a + n], c)
  {
    LacksBeforeFirst(s[a..], c, n);
    SliceOfDrop(s, a, n);
  }

  /** A sequence that agrees with `a` and then with `b`, index by index, is `a + b`. */
  lemma AppendPointwise<T>(o: seq<T>, a: seq<T>, b: seq<T>)
    requires |o| == |a| + |b|
    requires forall i :: 0 <= i < |a| ==> o[i] == a[i]
    requires forall i :: 0 <= i < |b| ==> o[|a| + i] == b[i]
    ensures o == a + b
  {
    forall i | 0 <= i < |o|
      ensures o[i] == (a + b)[i]
    {
      if i >= |a| {
        assert o[|a| + (i - |a|)] == b[i - |a|];
      }
    }
  }

  /** A slice of a slice is a slice of the whole. */
  lemma SliceOfSlice(content: string, b: nat, e: nat, i: nat, j: nat)
    requires b <= e <= |content| && i <= j <= e - b
    ensures content[b..e][i..j] == content[b + i..b + j]
  {
    var s := content[b..e];
    assert |s[i..j]| == j - i;
    forall k | 0 <= k < j - i
      ensures s[i..j][k] == content[b + i + k]
    {
      assert s[i..j][k] == s[i + k];
    }
  }

  /** The three properties in `IndexOfChar`'s contract single out a found offset. */
  lemma IndexOfCharIs(t: string, c: char, r: nat)
    requires r < |t| && t[r] == c
    requires forall k :: 0 <= k < r ==> t[k] != c
    ensures IndexOfChar(t, c) == r
  {
  }

  lemma IndexOfSingle(s: string, c: char)
    ensures IndexOf(s, [c]) == IndexOfChar(s, c)
  {
    var r := IndexOfChar(s, c);
    if r >= 0 {
      assert s[r..r + 1] == [c];
      IndexOfAt(s, [c], r);
    } else {
      IndexOfAbsent(s, [c]);
    }
  }

  /** `strings.Join`. */
  function Join(parts: seq<string>, sep: string): string {
    if parts == [] then ""
    else if |parts| == 1 then parts[0]
    else parts[0] + sep + Join(parts[1..], sep)
  }

  /** `strings.Split` for a non-empty separator: the pieces between the
      leftmost non-overlapping occurrences of `sep`. */
  function Split(s: string, sep: string): (parts: seq<string>)
    requires |sep| > 0
    ensures |parts| >= 1
    decreases |s|
  {
    var i := IndexOf(s, sep);
    if i < 0 then [s] else [s[..i]] + Split(s[i + |sep|..], sep)
  }

  /** Joining the pieces of a split with the separator gives back the string. */
  lemma {:induction false} SplitJoinsBack(s: string, sep: string)
    requires |sep| > 0
    ensures Join(Split(s, sep), sep) == s
    decreases |s|
  {
    var i := IndexOf(s, sep);
    if i >= 0 {
      SplitJoinsBack(s[i + |sep|..], sep);
      JoinCons(s[..i], Split(s[i + |sep|..], sep), sep);
      OccurrenceSplits(s, sep, i);
    }
  }

  lemma JoinCons(head: string, rest: seq<string>, sep: string)
    requires |rest| >= 1
    ensures Join([head] + rest, sep) == head + sep + Join(rest, sep)
  {
    assert ([head] + rest)[1..] == rest;
  }

  /** An occurrence of `sep` at `i` cuts `s` into before, `sep`, after. */
  lemma OccurrenceSplits(s: string, sep: string, i: nat)
    requires OccursAt(s, sep, i)
    ensures s == s[..i] + sep + s[i + |sep|..]
  {
    assert s == s[..i] + s[i..i + |sep|] + s[i + |sep|..];
  }

  /** No piece of a split holds the separator. */
  lemma {:induction false} SplitPiecesFree(s: string, sep: string)
    requires |sep| > 0
    ensures forall i :: 0 <= i < |Split(s, sep)| ==> !Contains(Split(s, sep)[i], sep)
    decreases |s|
  {
    var i := IndexOf(s, sep);
    if i >= 0 {
      var head := s[..i];
      forall k | OccursAt(head, sep, k)
        ensures OccursAt(s, sep, k)
      {
        assert head[k..k + |sep|] == s[k..k + |sep|];
      }
      assert !Contains(head, sep);
      SplitPiecesFree(s[i + |sep|..], sep);
    }
  }

  /** `strings.Split(s, sep)` for a one-byte separator has one piece more than
      `s` has separator bytes. */
  lemma {:induction false} SplitCount(s: string, c: char)
    ensures |Split(s, [c])| == CountChar(s, c) + 1
    decreases |s|
  {
    var i := IndexOf(s, [c]);
    IndexOfSingle(s, c);
    if i < 0 {
      CountCharAbsent(s, c);
    } else {
      var t := s[i + 1..];
      assert s == s[..i] + ([c] + t);
      CountCharAppend(s[..i], [c] + t, c);
      CountCharAppend([c], t, c);
      CountCharAbsent(s[..i], c);
      SplitCount(t, c);
    }
  }

  /** Splitting at the first separator when the head never holds its first byte. */
  lemma SplitFirst(head: string, sep: string, rest: string)
    requires |sep| > 0
    requires forall j :: 0 <= j < |head| ==> head[j] != sep[0]
    ensures Split(head + sep + rest, sep) == [head] + Split(rest, sep)
  {
    var s := head + sep + rest;
    assert OccursAt(s, sep, |head|) by {
      assert s[|head|..|head| + |sep|] == sep;
    }
    IndexOfAt(s, sep, |head|);
    assert s[..|head|] == head;
    assert s[|head| + |sep|..] == rest;
  }

  /** Splitting at a separator byte splits both sides independently. */
  lemma {:induction false} SplitAppend(a: string, c: char, b: string)
    ensures Split(a + [c] + b, [c]) == Split(a, [c]) + Split(b, [c])
    decreases |a|, 1
  {
    var i := IndexOfChar(a, c);
    if i < 0 {
      SplitNoSeparator(a, c, b);
    } else {
      SplitAppendAt(a, c, b, i);
    }
  }

  lemma {:induction false} SplitAppendAt(a: string, c: char, b: string, i: nat)
    requires IndexOfChar(a, c) == i
    ensures Split(a + [c] + b, [c]) == Split(a, [c]) + Split(b, [c])
    decreases |a|, 0
  {
    SplitAtFirst(a, c, b, i);
    SplitAppend(a[i + 1..], c, b);
    ConsAppend(a[..i], Split(a[i + 1..], [c]), Split(b, [c]));
  }

  lemma ConsAppend(h: string, x: seq<string>, y: seq<string>)
    ensures [h] + (x + y) == ([h] + x) + y
  {
  }

  lemma SplitNoSeparator(a: string, c: char, b: string)
    requires IndexOfChar(a, c) < 0
    ensures Split(a + [c] + b, [c]) == Split(a, [c]) + Split(b, [c])
  {
    assert Split(a, [c]) == [a] by {
      IndexOfAbsent(a, [c]);
    }
    SplitFirst(a, [c], b);
  }

  lemma SplitAtFirst(a: string, c: char, b: string, i: nat)
    requires IndexOfChar(a, c) == i
    ensures Split(a + [c] + b, [c]) == [a[..i]] + Split(a[i + 1..] + [c] + b, [c])
    ensures Split(a, [c]) == [a[..i]] + Split(a[i + 1..], [c])
  {
    CutAtChar(a, c, i, b);
    SplitFirst(a[..i], [c], a[i + 1..] + [c] + b);
    SplitFirst(a[..i], [c], a[i + 1..]);
  }

  /** Cutting `a` at its byte `i`, alone and with `[c] + b` appended. */
  lemma CutAtChar(a: string, c: char, i: nat, b: string)
    requires i < |a| && a[i] == c
    ensures a == a[..i] + [c] + a[i + 1..]
    ensures a + [c] + b == a[..i] + [c] + (a[i + 1..] + [c] + b)
  {
    assert a == a[..i] + [c] + a[i + 1..];
  }

  /** Splitting a join of pieces that hold no separator byte gives the pieces back. */
  lemma {:induction false} SplitJoin(parts: seq<string>, c: char)
    requires |parts| >= 1
    requires forall i, k :: 0 <= i < |parts| && 0 <= k < |parts[i]| ==> parts[i][k] != c
    ensures Split(Join(parts, [c]), [c]) == parts
  {
    if |parts| == 1 {
      IndexOfAbsent(parts[0], [c]);
    } else {
      var head := parts[0];
      var tail := Join(parts[1..], [c]);
      var s := head + [c] + tail;
      assert OccursAt(s, [c], |head|) by {
        assert s[|head|..|head| + 1] == [c];
      }
      IndexOfAt(s, [c], |head|);
      assert s[..|head|] == head;
      assert s[|head| + 1..] == tail;
      SplitJoin(parts[1..], c);
    }
  }

  /** What `a + b` lacks, `a` lacks. */
  lemma NoOccurrenceInPrefix(a: string, b: string, w: string)
    requires !Contains(a + b, w)
    ensures !Contains(a, w)
  {
    forall k | OccursAt(a, w, k)
      ensures OccursAt(a + b, w, k)
    {
      assert (a + b)[k..k + |w|] == a[k..k + |w|];
    }
  }

  /** Two texts free of `w` stay free of it when joined, provided a byte on
      either side of the seam is not in `w`. */
  lemma NoOccurrenceConcat(a: string, b: string, w: string)
    requires !Contains(a, w) && !Contains(b, w)
    requires (|a| > 0 && a[|a| - 1] !in w) || (|b| > 0 && b[0] !in w)
    ensures !Contains(a + b, w)
  {
    var s := a + b;
    forall k | 0 <= k
      ensures !OccursAt(s, w, k)
    {
      if k + |w| <= |a| {
        assert s[k..k + |w|] == a[k..k + |w|];
        assert !OccursAt(a, w, k);
      } else if k >= |a| {
        if k + |w| <= |s| {
          assert s[k..k + |w|] == b[k - |a|..k - |a| + |w|];
        }
        assert !OccursAt(b, w, k - |a|);
      } else if k + |w| <= |s| {
        assert s[k..k + |w|][|a| - 1 - k] == a[|a| - 1];
        assert s[k..k + |w|][|a| - k] == s[|a|];
      }
    }
  }

  /** A byte that occurs in no part and not in the separator does not occur
      in the join. */
  lemma {:induction false} JoinAvoids(parts: seq<string>, sep: string, c: char)
    requires forall i, k :: 0 <= i < |parts| && 0 <= k < |parts[i]| ==> parts[i][k] != c
    requires forall k :: 0 <= k < |sep| ==> sep[k] != c
    ensures forall k :: 0 <= k < |Join(parts, sep)| ==> Join(parts, sep)[k] != c
  {
    if |parts| > 1 {
      JoinAvoids(parts[1..], sep, c);
      var t := Join(parts[1..], sep);
      var j := Join(parts, sep);
      assert j == parts[0] + sep + t;
      forall k | 0 <= k < |j|
        ensures j[k] != c
      {
        if k < |parts[0]| {
          assert j[k] == parts[0][k];
        } else if k < |parts[0]| + |sep| {
          assert j[k] == sep[k - |parts[0]|];
        } else {
          assert j[k] == t[k - |parts[0]| - |sep|];
        }
      }
    }
  }
}

=== FILE: symbols.dfy ===
/** The symbol lists the ES6, CommonJS, global-variable and context-named
    matchers report (finder.go), and the "React casing" augmentation several
    of them apply afterwards. Captures of the inner regexes the source runs on
    a statement are inputs here; what the source then does with them is
    modelled. */
module Symbols {
  import opened GoStrings
  import opened Types
  import Patterns

  /** What one comma-separated element of an import or destructuring clause
      binds: the trimmed element, or, when it splits at `sep` into exactly two
      pieces, the trimmed second piece. The empty string binds nothing. `sep`
      is `" as "` for ES6 named imports and `":"` for CommonJS destructuring. */
  function ElementBinding(segment: string, sep: string): (r: string)
    requires |sep| > 0
    ensures Trimmed(r)
    ensures AllSpace(segment) ==> r == ""
    ensures !Contains(TrimSpace(segment), sep) ==> r == TrimSpace(segment)
  {
    TrimSpaceOfBlank(segment);
    var symbol := TrimSpace(segment);
    if Contains(symbol, sep) then
      var parts := Split(symbol, sep);
      if |parts| == 2 then TrimSpace(parts[1]) else symbol
    else symbol
  }

  /** The binding of every element, in order. */
  function ElementBindings(segments: seq<string>, sep: string): (r: seq<string>)
    requires |sep| > 0
    ensures |r| == |segments|
    ensures forall i :: 0 <= i < |r| ==> r[i] == ElementBinding(segments[i], sep)
  {
    seq(|segments|, i requires 0 <= i < |segments| => ElementBinding(segments[i], sep))
  }

  /** The non-empty strings of a list, in order. */
  function NonBlank(bs: seq<string>): (r: seq<string>)
    ensures |r| <= |bs|
    ensures forall i :: 0 <= i < |r| ==> r[i] != ""
    ensures (forall i :: 0 <= i < |bs| ==> Trimmed(bs[i])) ==> forall i :: 0 <= i < |r| ==> Trimmed(r[i])
  {
    if bs == [] then [] else (if bs[0] == "" then [] else [bs[0]]) + NonBlank(bs[1..])
  }

  lemma {:induction false} NonBlankAppend(a: seq<string>, b: seq<string>)
    ensures NonBlank(a + b) == NonBlank(a) + NonBlank(b)
  {
    if a != [] {
      var head := if a[0] == "" then [] else [a[0]];
      assert (a + b)[0] == a[0] && (a + b)[1..] == a[1..] + b;
      NonBlankAppend(a[1..], b);
      calc {
        NonBlank(a + b);
        head + NonBlank(a[1..] + b);
        head + (NonBlank(a[1..]) + NonBlank(b));
        (head + NonBlank(a[1..])) + NonBlank(b);
        NonBlank(a) + NonBlank(b);
      }
    } else {
      assert a + b == b;
    }
  }

  /** The bindings of a clause's elements, in order, skipping those that bind
      nothing. */
  function CollectBindings(segments: seq<string>, sep: string): (r: seq<string>)
    requires |sep| > 0
    ensures |r| <= |segments|
    ensures forall i :: 0 <= i < |r| ==> r[i] != "" && Trimmed(r[i])
  {
    NonBlank(ElementBindings(segments, sep))
  }

  lemma CollectBindingsAppend(x: seq<string>, y: seq<string>, sep: string)
    requires |sep| > 0
    ensures CollectBindings(x + y, sep) == CollectBindings(x, sep) + CollectBindings(y, sep)
  {
    assert ElementBindings(x + y, sep) == ElementBindings(x, sep) + ElementBindings(y, sep);
    NonBlankAppend(ElementBindings(x, sep), ElementBindings(y, sep));
  }

  /** The first element contributes its binding, when it has one. */
  lemma CollectBindingsCons(h: string, t: seq<string>, sep: string)
    requires |sep| > 0
    ensures CollectBindings([h] + t, sep)
      == (if ElementBinding(h, sep) == "" then [] else [ElementBinding(h, sep)]) + CollectBindings(t, sep)
  {
    assert ElementBindings([h] + t, sep) == [ElementBinding(h, sep)] + ElementBindings(t, sep);
    assert ([ElementBinding(h, sep)] + ElementBindings(t, sep))[1..] == ElementBindings(t, sep);
  }

  /** The bindings of a whole clause, split at commas (finder.go:873-889 and
      finder.go:286-303). */
  function ClauseBindings(clause: string, sep: string): (r: seq<string>)
    requires |sep| > 0
    ensures |r| <= CountChar(clause, ',') + 1
    ensures forall i :: 0 <= i < |r| ==> r[i] != "" && Trimmed(r[i])
  {
    SplitCount(clause, ',');
    CollectBindings(Split(clause, ","), sep)
  }

  /** A clause element as a programmer writes it: `name` or `name <sep> alias`. */
  datatype Specifier = Specifier(name: string, alias: Option<string>)

  /** The name an element brings into scope. */
  function Bound(sp: Specifier): string {
    match sp.alias
    case Some(a) => a
    case None => sp.name
  }

  function Bounds(specs: seq<Specifier>): (r: seq<string>)
    ensures |r| == |specs|
    ensures forall i :: 0 <= i < |specs| ==> r[i] == Bound(specs[i])
  {
    if specs == [] then [] else [Bound(specs[0])] + Bounds(specs[1..])
  }

  /** An identifier-like word: non-empty, with no blank, no comma and no first
      byte of the alias separator. */
  predicate IsWord(w: string, sep: string)
    requires |sep| > 0
  {
    |w| > 0 && forall i :: 0 <= i < |w| ==> !IsSpace(w[i]) && w[i] != ',' && w[i] != sep[0]
  }

  predicate WellFormed(sp: Specifier, sep: string)
    requires |sep| > 0
  {
    IsWord(sp.name, sep) && (sp.alias.Some? ==> IsWord(sp.alias.value, sep))
  }

  predicate AllWellFormed(specs: seq<Specifier>, sep: string)
    requires |sep| > 0
  {
    forall i :: 0 <= i < |specs| ==> WellFormed(specs[i], sep)
  }

  function Render(sp: Specifier, sep: string): string {
    match sp.alias
    case None => sp.name
    case Some(a) => sp.name + sep + a
  }

  /** The pieces of a rendered clause, `" a"`, `" b as c"`, ... */
  function RenderPieces(specs: seq<Specifier>, sep: string): (r: seq<string>)
    ensures |r| == |specs|
    ensures forall i :: 0 <= i < |specs| ==> r[i] == " " + Render(specs[i], sep)
  {
    if specs == [] then [] else [" " + Render(specs[0], sep)] + RenderPieces(specs[1..], sep)
  }

  /** A clause as written between the braces: `" a, b as c"`. */
  function RenderClause(specs: seq<Specifier>, sep: string): string {
    Join(RenderPieces(specs, sep), ",")
  }

  /** A blank-padded element binds the name it introduces. */
  lemma ElementOfRendered(pre: string, sp: Specifier, post: string, sep: string)
    requires |sep| > 0 && AllSpace(pre) && AllSpace(post) && WellFormed(sp, sep)
    ensures ElementBinding(pre + Render(sp, sep) + post, sep) == Bound(sp)
  {
    match sp.alias
    case None => ElementOfPlain(pre, sp.name, post, sep);
    case Some(a) => ElementOfAliased(pre, sp.name, a, post, sep);
  }

  lemma ElementOfPlain(pre: string, name: string, post: string, sep: string)
    requires |sep| > 0 && AllSpace(pre) && AllSpace(post) && IsWord(name, sep)
    ensures ElementBinding(pre + name + post, sep) == name
  {
    assert TrimSpace(pre + name + post) == name by {
      TrimSpacePadded(pre, name, post);
    }
    assert !Contains(name, sep) by {
      IndexOfAbsent(name, sep);
    }
  }

  lemma ElementOfAliased(pre: string, name: string, alias: string, post: string, sep: string)
    requires |sep| > 0 && AllSpace(pre) && AllSpace(post) && IsWord(name, sep) && IsWord(alias, sep)
    ensures ElementBinding(pre + (name + sep + alias) + post, sep) == alias
  {
    AliasedTrimmed(pre, name, alias, post, sep);
    AliasedSplit(name, alias, sep);
    BindingOfPair(pre + (name + sep + alias) + post, sep, [name, alias]);
  }

  lemma AliasedTrimmed(pre: string, name: string, alias: string, post: string, sep: string)
    requires |sep| > 0 && AllSpace(pre) && AllSpace(post) && IsWord(name, sep) && IsWord(alias, sep)
    ensures TrimSpace(pre + (name + sep + alias) + post) == name + sep + alias
  {
    var w := name + sep + alias;
    assert w[0] == name[0];
    assert w[|w| - 1] == alias[|alias| - 1];
    TrimSpacePadded(pre, w, post);
  }

  lemma AliasedSplit(name: string, alias: string, sep: string)
    requires |sep| > 0 && IsWord(name, sep) && IsWord(alias, sep)
    ensures Contains(name + sep + alias, sep)
    ensures Split(name + sep + alias, sep) == [name, alias]
  {
    var w := name + sep + alias;
    assert w[|name|..|name| + |sep|] == sep;
    assert OccursAt(w, sep, |name|);
    assert Split(alias, sep) == [alias] by {
      IndexOfAbsent(alias, sep);
    }
    SplitFirst(name, sep, alias);
  }

  /** The binding of an element that splits into two pieces at `sep`. */
  lemma BindingOfPair(segment: string, sep: string, parts: seq<string>)
    requires |sep| > 0 && Contains(TrimSpace(segment), sep)
    requires Split(TrimSpace(segment), sep) == parts && |parts| == 2 && Trimmed(parts[1])
    ensures ElementBinding(segment, sep) == parts[1]
  {
    TrimSpaceOfTrimmed(parts[1]);
  }

  lemma {:induction false} CollectRendered(specs: seq<Specifier>, sep: string)
    requires |sep| > 0
    requires AllWellFormed(specs, sep)
    ensures CollectBindings(RenderPieces(specs, sep), sep) == Bounds(specs)
  {
    if specs != [] {
      assert " " + Render(specs[0], sep) == " " + Render(specs[0], sep) + "";
      ElementOfRendered(" ", specs[0], "", sep);
      assert RenderPieces(specs, sep) == [" " + Render(specs[0], sep)] + RenderPieces(specs[1..], sep);
      CollectBindingsCons(" " + Render(specs[0], sep), RenderPieces(specs[1..], sep), sep);
      CollectRendered(specs[1..], sep);
    }
  }

  lemma PiecesHaveNoComma(specs: seq<Specifier>, sep: string)
    requires |sep| > 0 && forall k :: 0 <= k < |sep| ==> sep[k] != ','
    requires AllWellFormed(specs, sep)
    ensures forall i, k :: 0 <= i < |specs| && 0 <= k < |RenderPieces(specs, sep)[i]| ==> RenderPieces(specs, sep)[i][k] != ','
  {
    forall i, k | 0 <= i < |specs| && 0 <= k < |RenderPieces(specs, sep)[i]|
      ensures RenderPieces(specs, sep)[i][k] != ','
    {
      var sp := specs[i];
      var p := RenderPieces(specs, sep)[i];
      if k > 0 && k - 1 < |sp.name| {
        assert p[k] == sp.name[k - 1];
      } else if k > 0 && sp.alias.Some? {
        var a := sp.alias.value;
        if k - 1 - |sp.name| < |sep| {
          assert p[k] == sep[k - 1 - |sp.name|];
        } else {
          assert p[k] == a[k - 1 - |sp.name| - |sep|];
        }
      }
    }
  }

  /** Reading a rendered clause back gives exactly the names it introduces,
      in order: the round trip of the clause parsers. */
  lemma ClauseRoundTrip(specs: seq<Specifier>, sep: string)
    requires |sep| > 0 && forall k :: 0 <= k < |sep| ==> sep[k] != ','
    requires AllWellFormed(specs, sep)
    ensures ClauseBindings(RenderClause(specs, sep), sep) == Bounds(specs)
  {
    if specs == [] {
      assert Split("", ",") == [""];
      TrimSpaceOfBlank("");
    } else {
      PiecesHaveNoComma(specs, sep);
      SplitJoin(RenderPieces(specs, sep), ',');
      CollectRendered(specs, sep);
    }
  }

  /** A blank element after a trailing comma binds nothing. */
  lemma TrailingCommaIgnored(clause: string, blank: string, sep: string)
    requires |sep| > 0 && AllSpace(blank)
    ensures ClauseBindings(clause + "," + blank, sep) == ClauseBindings(clause, sep)
  {
    assert forall j :: 0 <= j < |blank| ==> blank[j] != ',';
    assert Split(blank, ",") == [blank] by {
      IndexOfAbsent(blank, ",");
    }
    SplitAppend(clause, ',', blank);
    CollectBindingsAppend(Split(clause, ","), [blank], sep);
    TrimSpaceOfBlank(blank);
    CollectBindingsCons(blank, [], sep);
    assert [blank] + [] == [blank];
  }

  /** The bindings of the named-import clause, if the pattern found one. */
  function NamedBindings(namedClause: Option<string>): (r: seq<string>)
    ensures namedClause.None? ==> r == []
    ensures namedClause.Some? ==> r == ClauseBindings(namedClause.value, " as ")
  {
    match namedClause
    case None => []
    case Some(c) => ClauseBindings(c, " as ")
  }

  /** `extractSymbolsFromES6Import`: the default import captured by
      `import\s+(\w+)(?:\s*,\s*|\s+from\s+)`, then the bindings of the clause
      captured by `import\s+{([^}]*)}`, or the side-effect placeholder alone
      when neither yields a symbol. */
  function ES6Symbols(defaultName: Option<string>, namedClause: Option<string>): (r: seq<string>)
    ensures r != []
    ensures defaultName.Some? ==> r == [defaultName.value] + NamedBindings(namedClause)
    ensures defaultName.None? && NamedBindings(namedClause) != [] ==> r == NamedBindings(namedClause)
    ensures defaultName.None? && NamedBindings(namedClause) == [] ==> r == [SideEffectOnly]
  {
    var found := (match defaultName case Some(d) => [d] case None => []) + NamedBindings(namedClause);
    if found == [] then [SideEffectOnly] else found
  }

  /** Captures of a rendered clause `{ specs }` give the default name, when
      the default pattern captured one, and then the names the specifiers
      introduce. Without a default name this is `import { specs } from 'pkg'`
      (NamedImportSymbols). Both captures together arise only when the
      statement holds a second `import {` after a default import: the named
      pattern never matches right after a default name (MixedImportDefaultOnly). */
  lemma ES6SymbolsRoundTrip(defaultName: Option<string>, specs: seq<Specifier>)
    requires AllWellFormed(specs, " as ")
    requires defaultName.Some? || specs != []
    ensures ES6Symbols(defaultName, Some(RenderClause(specs, " as "))) ==
      (match defaultName case Some(d) => [d] case None => []) + Bounds(specs)
  {
    ClauseRoundTrip(specs, " as ");
    ES6SymbolsOfClause(defaultName, RenderClause(specs, " as "), Bounds(specs));
  }

  /** `import { specs } from 'pkg'`: the named pattern captures the clause,
      and the symbols are the names the specifiers introduce. */
  lemma NamedImportSymbols(ws: string, specs: seq<Specifier>, post: string)
    requires ws != [] && forall i :: 0 <= i < |ws| ==> Patterns.IsRegexSpace(ws[i])
    requires AllWellFormed(specs, " as ") && specs != []
    requires forall i :: 0 <= i < |RenderClause(specs, " as ")| ==> RenderClause(specs, " as ")[i] != '}'
    ensures ES6Symbols(None, Patterns.NamedClause("import" + ws + "{" + RenderClause(specs, " as ") + "}" + post)) == Bounds(specs)
  {
    Patterns.NamedClauseOfImport(ws, RenderClause(specs, " as "), post);
    ES6SymbolsRoundTrip(None, specs);
  }

  /** `import d, { specs } from 'pkg'`: the named pattern needs `{` right
      after `import` and its blanks, so on a statement with no other `import`
      it finds nothing, and the statement reports the default name alone. */
  lemma MixedImportDefaultOnly(ws: string, d: string, rest: string)
    requires ws != [] && forall i :: 0 <= i < |ws| ==> Patterns.IsRegexSpace(ws[i])
    requires d != [] && d[0] != '{' && !Patterns.IsRegexSpace(d[0])
    requires forall j :: 0 < j ==> !OccursAt("import" + ws + d + rest, "import", j)
    ensures ES6Symbols(Some(d), Patterns.NamedClause("import" + ws + d + rest)) == [d]
  {
    Patterns.NamedClauseAfterDefault(ws, d, rest);
  }

  lemma ES6SymbolsOfClause(defaultName: Option<string>, clause: string, bindings: seq<string>)
    requires ClauseBindings(clause, " as ") == bindings
    requires defaultName.Some? || bindings != []
    ensures ES6Symbols(defaultName, Some(clause)) == (match defaultName case Some(d) => [d] case None => []) + bindings
  {
  }

  /** A namespace import `import * as X from 'pkg'` reports `* as X`
      (finder.go:235). */
  function NamespaceSymbols(namespaceName: string): (r: seq<string>)
    ensures |r| == 1 && HasPrefix(r[0], "* as ") && TrimPrefix(r[0], "* as ") == namespaceName
  {
    ["* as " + namespaceName]
  }

  /** The symbols of a CommonJS `require` (finder.go:275-313): the trimmed
      variable group if it was captured at an offset past 0, then the bindings
      of the destructuring group under the same guard; when both give nothing,
      the name the statement pattern `(?:const|let|var)\s+(\w+)\s*=\s*require\s*\(`
      declares (an input), else the package name. */
  function CommonJSSymbols(content: string, destructure: Span, variable: Span,
                           declared: Option<string>, packageName: string): (r: seq<string>)
    requires SpanIn(destructure, content) && SpanIn(variable, content)
    ensures r != []
    ensures Captured(variable) ==> r[0] == TrimSpace(SpanText(content, variable))
    ensures !Captured(variable) && !Captured(destructure) ==>
      r == [if declared.Some? then declared.value else packageName]
    ensures Captured(destructure) && ClauseBindings(SpanText(content, destructure), ":") != [] ==>
      |ClauseBindings(SpanText(content, destructure), ":")| <= |r| &&
      r[|r| - |ClauseBindings(SpanText(content, destructure), ":")|..] == ClauseBindings(SpanText(content, destructure), ":")
    ensures Captured(variable) ==>
      r == [TrimSpace(SpanText(content, variable))]
           + (if Captured(destructure) then ClauseBindings(SpanText(content, destructure), ":") else [])
    ensures !Captured(variable) && Captured(destructure) ==>
      r == (if ClauseBindings(SpanText(content, destructure), ":") != [] then ClauseBindings(SpanText(content, destructure), ":")
            else [if declared.Some? then declared.value else packageName])
  {
    var fromVariable := if Captured(variable) then [TrimSpace(SpanText(content, variable))] else [];
    var fromDestructure := if Captured(destructure) then ClauseBindings(SpanText(content, destructure), ":") else [];
    var found := fromVariable + fromDestructure;
    if found != [] then found
    else if declared.Some? then [declared.value]
    else [packageName]
  }

  /** The source's guard on an optional CommonJS group: start past 0 and a
      non-empty span. */
  predicate Captured(sp: Span) {
    sp.start > 0 && sp.end > sp.start
  }

  /** `const { a, b: c } = x = require('pkg')` reports the trimmed variable
      `x`, then the destructured names, renamed ones under their new name.
      The require pattern captures a destructuring only together with the
      variable that follows it, so both groups are present. */
  lemma CommonJSDestructuringRoundTrip(content: string, destructure: Span, variable: Span,
                                       declared: Option<string>, packageName: string, specs: seq<Specifier>)
    requires Present(destructure, content) && destructure.start > 0
    requires Present(variable, content) && Captured(variable)
    requires SpanText(content, destructure) == RenderClause(specs, ":")
    requires specs != [] && AllWellFormed(specs, ":")
    ensures CommonJSSymbols(content, destructure, variable, declared, packageName) ==
      [TrimSpace(SpanText(content, variable))] + Bounds(specs)
  {
    var text := SpanText(content, destructure);
    assert ClauseBindings(text, ":") == Bounds(specs) by {
      ClauseRoundTrip(specs, ":");
    }
    assert Captured(destructure) by {
      assert RenderPieces(specs, ":")[0][0] == ' ';
      JoinHeadPrefix(RenderPieces(specs, ":"), ",");
    }
  }

  /** A join of pieces begins with its first piece. */
  lemma JoinHeadPrefix(parts: seq<string>, sep: string)
    requires parts != []
    ensures |parts[0]| <= |Join(parts, sep)| && Join(parts, sep)[..|parts[0]|] == parts[0]
  {
  }

  /** The package name is lower-case `react` or starts with `react-`, the test
      in front of every casing augmentation (finder.go:316). */
  predicate ReactLike(packageName: string) {
    ToLower(packageName) == "react" || HasPrefix(ToLower(packageName), "react-")
  }

  /** The React casing augmentation (finder.go:316-336): for a React-like
      package, append `"React"` when a symbol is `"react"` or the package name
      but none is `"React"`; append `"react"` in the converse case, only for
      the package `react` itself. */
  function ReactCasing(symbols: seq<string>, packageName: string): (r: seq<string>)
    ensures |symbols| <= |r| <= |symbols| + 1 && r[..|symbols|] == symbols
    ensures !ReactLike(packageName) ==> r == symbols
    ensures r == symbols || r == symbols + ["React"] || r == symbols + ["react"]
    ensures r == symbols + ["React"] <==>
      ReactLike(packageName) && ("react" in symbols || packageName in symbols) && "React" !in symbols
    ensures r == symbols + ["react"] <==> packageName == "react" && "React" in symbols && "react" !in symbols
    ensures ReactLike(packageName) && ("react" in symbols || packageName in symbols) ==> "React" in r
    ensures packageName == "react" ==> ("react" in r <==> "React" in r)
  {
    if !ReactLike(packageName) then symbols
    else
      var hasLower := "react" in symbols || packageName in symbols;
      var hasUpper := "React" in symbols;
      if hasLower && !hasUpper then symbols + ["React"]
      else if hasUpper && !hasLower && packageName == "react" then symbols + ["react"]
      else symbols
  }

  /** Applying the augmentation twice adds nothing more. */
  lemma ReactCasingIdempotent(symbols: seq<string>, packageName: string)
    ensures ReactCasing(ReactCasing(symbols, packageName), packageName) == ReactCasing(symbols, packageName)
  {
    var r := ReactCasing(symbols, packageName);
    if ReactLike(packageName) {
      assert "React" in symbols ==> "React" in r;
      assert "react" in symbols ==> "react" in r;
      assert packageName in symbols ==> packageName in r;
    }
  }

  /** `contains` (finder.go:1208-1215). */
  function SliceContains(slice: seq<string>, str: string): (r: bool)
    ensures r <==> str in slice
  {
    if slice == [] then false
    else if slice[0] == str then true
    else SliceContains(slice[1..], str)
  }

  /** The UMD and import-map variant (finder.go:711-738, finder.go:798-829):
      first append `"React"` if the surrounding code uses React and no symbol
      is `"React"` yet, then the casing augmentation; both only for a
      React-like package. */
  function ReactAugment(symbols: seq<string>, packageName: string, reactUsed: bool): (r: seq<string>)
    ensures |symbols| <= |r| <= |symbols| + 2 && r[..|symbols|] == symbols
    ensures !ReactLike(packageName) ==> r == symbols
    ensures ReactLike(packageName) && reactUsed ==> "React" in r
    ensures ReactLike(packageName) && ("react" in symbols || packageName in symbols) ==> "React" in r
    ensures ReactLike(packageName) && reactUsed && "React" !in symbols ==>
      r == symbols + ["React"] + (if packageName == "react" && "react" !in symbols then ["react"] else [])
    ensures ReactLike(packageName) && !(reactUsed && "React" !in symbols) ==> r == ReactCasing(symbols, packageName)
  {
    if !ReactLike(packageName) then symbols
    else
      var withUsage := UsageAppend(symbols, reactUsed);
      var r := ReactCasing(withUsage, packageName);
      assert r[..|symbols|] == symbols by {
        assert r[..|withUsage|] == withUsage;
        assert withUsage[..|symbols|] == symbols;
      }
      r
  }

  /** The first step of `ReactAugment`: `"React"` appended when React usage
      was seen and no symbol is `"React"` yet. */
  function UsageAppend(symbols: seq<string>, reactUsed: bool): (r: seq<string>)
    ensures reactUsed && "React" !in symbols ==> r == symbols + ["React"]
    ensures !(reactUsed && "React" !in symbols) ==> r == symbols
  {
    if reactUsed && !SliceContains(symbols, "React") then symbols + ["React"] else symbols
  }

  /** The symbols of a global access `window.pkg` / `global.pkg`
      (finder.go:467-477): the package name, then the name found in context
      when it is non-empty and different. */
  function GlobalSymbols(packageName: string, contextName: string): (r: seq<string>)
    ensures 1 <= |r| <= 2 && r[0] == packageName
    ensures contextName in r <==> contextName != "" || contextName == packageName
    ensures |r| == 2 ==> r[0] != r[1]
    ensures |r| == 2 <==> contextName != "" && contextName != packageName
    ensures |r| == 2 ==> r[1] == contextName
  {
    [packageName] + (if contextName != "" && contextName != packageName then [contextName] else [])
  }

  /** The names a global access reports are the package name and the
      non-empty context name, each listed once. */
  lemma GlobalSymbolsNames(packageName: string, contextName: string)
    ensures (set x | x in GlobalSymbols(packageName, contextName)) ==
      {packageName} + (if contextName != "" then {contextName} else {})
    ensures |GlobalSymbols(packageName, contextName)| == |set x | x in GlobalSymbols(packageName, contextName)|
  {
    var r := GlobalSymbols(packageName, contextName);
    if |r| == 2 {
      assert (set x | x in r) == {r[0], r[1]};
    } else {
      assert (set x | x in r) == {r[0]};
    }
  }

  /** The symbols of a dynamic `import(...)` or `System.import(...)`
      (finder.go:371-377, finder.go:419-425): the name found in context, else
      the package name. */
  function ContextSymbols(contextName: string, packageName: string): (r: seq<string>)
    ensures |r| == 1
    ensures contextName != "" ==> r == [contextName]
    ensures contextName == "" ==> r == [packageName]
  {
    [if contextName != "" then contextName else packageName]
  }

  /** What `extractImportedNameFromContext` (finder.go:1135-1205) finds, given
      the captures of its patterns on each line it looks at. */
  datatype NextLine = NextLine(thenFunction: Option<string>, thenArrow: Option<string>, declared: Option<string>)

  /** Inputs of `extractImportedNameFromContext`: the name its declaration
      pattern captures in the statement itself, in each line of the 200 bytes
      before the statement and in each line of the 200 bytes after it. */
  datatype NameContext = NameContext(inStatement: Option<string>, before: seq<Option<string>>, after: seq<NextLine>)

  /** The captured names are non-empty, as `\w+` guarantees. */
  predicate NamesNonEmpty(ctx: NameContext) {
    (ctx.inStatement.Some? ==> ctx.inStatement.value != "")
    && (forall i :: 0 <= i < |ctx.before| && ctx.before[i].Some? ==> ctx.before[i].value != "")
    && (forall i :: 0 <= i < |ctx.after| && ctx.after[i].declared.Some? ==> ctx.after[i].declared.value != "")
  }

  /** A line's declaration capture names something. */
  predicate Declares(o: Option<string>) {
    o.Some? && o.value != ""
  }

  /** The name a following line gives, or "": a `.then(function (x`
      parameter, else a `.then(x =>` parameter, else a declared name
      (finder.go:1185-1199). */
  function NextName(l: NextLine): (r: string)
    ensures r != "" ==> Some(r) == l.thenFunction || Some(r) == l.thenArrow || Some(r) == l.declared
  {
    if l.thenFunction.Some? && l.thenFunction.value != "" then l.thenFunction.value
    else if l.thenArrow.Some? && l.thenArrow.value != "" then l.thenArrow.value
    else if l.declared.Some? && l.declared.value != "" then l.declared.value
    else ""
  }

  /** The lines before the statement that the lookup inspects: the last three
      (finder.go:1152-1156). */
  function BeforeLines(ctx: NameContext): (r: seq<Option<string>>)
    ensures |r| == if |ctx.before| < 3 then |ctx.before| else 3
    ensures r == ctx.before[|ctx.before| - |r|..]
  {
    ctx.before[if |ctx.before| < 3 then 0 else |ctx.before| - 3..]
  }

  /** The lines after the statement that the lookup inspects: the first three
      (finder.go:1178-1181). */
  function AfterLines(ctx: NameContext): (r: seq<NextLine>)
    ensures |r| == if |ctx.after| < 3 then |ctx.after| else 3
    ensures r == ctx.after[..|r|]
  {
    ctx.after[..if |ctx.after| < 3 then |ctx.after| else 3]
  }

  /** Line `i` declares `name`, and no earlier line declares anything. */
  predicate FirstDeclaredAt(lines: seq<Option<string>>, i: int, name: string) {
    0 <= i < |lines| && lines[i] == Some(name) && name != ""
    && forall j :: 0 <= j < i ==> !Declares(lines[j])
  }

  /** Line `i` gives `name`, and no earlier line gives anything. */
  predicate FirstNamedAt(lines: seq<NextLine>, i: int, name: string) {
    0 <= i < |lines| && NextName(lines[i]) == name && name != ""
    && forall j :: 0 <= j < i ==> NextName(lines[j]) == ""
  }

  predicate NoneDeclared(lines: seq<Option<string>>) {
    forall i :: 0 <= i < |lines| ==> !Declares(lines[i])
  }

  predicate NoneNamed(lines: seq<NextLine>) {
    forall i :: 0 <= i < |lines| ==> NextName(lines[i]) == ""
  }

  /** The name of the first line that declares one, or "". */
  function FirstDeclared(lines: seq<Option<string>>): (r: string)
    ensures r == "" <==> NoneDeclared(lines)
    ensures r != "" ==> exists i :: FirstDeclaredAt(lines, i, r)
  {
    if lines == [] then ""
    else if Declares(lines[0]) then
      assert FirstDeclaredAt(lines, 0, lines[0].value);
      lines[0].value
    else
      var r := FirstDeclared(lines[1..]);
      assert NoneDeclared(lines[1..]) ==> NoneDeclared(lines) by {
        if NoneDeclared(lines[1..]) {
          forall i | 1 <= i < |lines|
            ensures !Declares(lines[i])
          {
            assert lines[i] == lines[1..][i - 1];
          }
        }
      }
      if r != "" then
        var i :| FirstDeclaredAt(lines[1..], i, r);
        assert FirstDeclaredAt(lines, i + 1, r) by {
          forall j | 1 <= j < i + 1
            ensures !Declares(lines[j])
          {
            assert lines[j] == lines[1..][j - 1];
          }
        }
        r
      else r
  }

  /** The first name a following line gives, or "". */
  function FirstNextName(lines: seq<NextLine>): (r: string)
    ensures r == "" <==> NoneNamed(lines)
    ensures r != "" ==> exists i :: FirstNamedAt(lines, i, r)
  {
    if lines == [] then ""
    else if NextName(lines[0]) != "" then
      assert FirstNamedAt(lines, 0, NextName(lines[0]));
      NextName(lines[0])
    else
      var r := FirstNextName(lines[1..]);
      assert NoneNamed(lines[1..]) ==> NoneNamed(lines) by {
        if NoneNamed(lines[1..]) {
          forall i | 1 <= i < |lines|
            ensures NextName(lines[i]) == ""
          {
            assert lines[i] == lines[1..][i - 1];
          }
        }
      }
      if r != "" then
        var i :| FirstNamedAt(lines[1..], i, r);
        assert FirstNamedAt(lines, i + 1, r) by {
          forall j | 1 <= j < i + 1
            ensures NextName(lines[j]) == ""
          {
            assert lines[j] == lines[1..][j - 1];
          }
        }
        r
      else r
  }

  /** The priority order of `extractImportedNameFromContext`: the statement
      itself, then the first of the last three lines before it that declares
      a name (when the statement does not start the file), then the first of
      the first three lines after it that gives one (when the statement does
      not end the file); "" exactly when none of these yields a name. */
  function ImportedNameFromContext(ctx: NameContext, hasBefore: bool, hasAfter: bool): (r: string)
    requires NamesNonEmpty(ctx)
    ensures ctx.inStatement.Some? ==> r == ctx.inStatement.value
    ensures r == "" <==> ctx.inStatement.None? && (!hasBefore || NoneDeclared(BeforeLines(ctx)))
                                               && (!hasAfter || NoneNamed(AfterLines(ctx)))
    ensures ctx.inStatement.None? && hasBefore && !NoneDeclared(BeforeLines(ctx)) ==>
      exists i :: FirstDeclaredAt(BeforeLines(ctx), i, r)
    ensures ctx.inStatement.None? && (!hasBefore || NoneDeclared(BeforeLines(ctx))) && hasAfter ==>
      r == "" || exists i :: FirstNamedAt(AfterLines(ctx), i, r)
  {
    if ctx.inStatement.Some? then ctx.inStatement.value
    else
      var fromBefore := if hasBefore then FirstDeclared(BeforeLines(ctx)) else "";
      if fromBefore != "" then fromBefore
      else if hasAfter then FirstNextName(AfterLines(ctx))
      else ""
  }

  /** A name declared in the inspected lines before the statement wins over
      whatever the lines after it give. */
  lemma BeforeBeatsAfter(ctx: NameContext, hasAfter: bool, i: int, name: string)
    requires NamesNonEmpty(ctx) && ctx.inStatement.None?
    requires FirstDeclaredAt(BeforeLines(ctx), i, name)
    ensures ImportedNameFromContext(ctx, true, hasAfter) == name
  {
    var lines := BeforeLines(ctx);
    var r := ImportedNameFromContext(ctx, true, hasAfter);
    assert Declares(lines[i]);
    var j :| FirstDeclaredAt(lines, j, r);
    if j < i {
      assert Declares(lines[j]);
    }
  }

  /** The symbols of an import-map `import.meta.resolve(...)`
      (finder.go:781-795): the name found in context, else the name the
      statement pattern `(?:const|let|var)\s+(\w+)\s*=` declares, else the
      package name. */
  function ImportMapSymbols(contextName: string, declared: Option<string>, packageName: string): (r: seq<string>)
    ensures |r| == 1
    ensures contextName != "" ==> r == [contextName]
    ensures contextName == "" && declared.Some? ==> r == [declared.value]
    ensures contextName == "" && declared.None? ==> r == [packageName]
  {
    if contextName != "" then [contextName]
    else if declared.Some? then [declared.value]
    else [packageName]
  }

  /** The statement fallback of the import-map matcher never fires: the
      context search tries the same pattern on the same statement first, so
      when it found nothing, neither does the fallback. */
  lemma ImportMapFallbackUnreachable(ctx: NameContext, hasBefore: bool, hasAfter: bool, packageName: string)
    requires NamesNonEmpty(ctx)
    ensures ImportMapSymbols(ImportedNameFromContext(ctx, hasBefore, hasAfter), ctx.inStatement, packageName) ==
      ContextSymbols(ImportedNameFromContext(ctx, hasBefore, hasAfter), packageName)
  {
  }
}

=== FILE: types.dfy ===
/** The records the finder reports (types.go), plus the small shared shapes the
    model uses for regex results: an optional value and a capture span. */
module Types {

  datatype Option<T> = None | Some(value: T)

  /** How a package was imported (`ImportStyle`, types.go). */
  datatype ImportStyle =
    | ES6Import
    | CommonJS
    | RequireJS
    | DynamicImport
    | ESModuleInterop
    | SystemJS
    | GlobalVariable
    | ImportMaps
    | UMD
    | Unknown

  /** The string each style is written as in the JSON output. */
  function StyleName(s: ImportStyle): (name: string)
    ensures |name| > 0
  {
    match s
    case ES6Import => "ES6Import"
    case CommonJS => "CommonJS"
    case RequireJS => "RequireJS"
    case DynamicImport => "DynamicImport"
    case ESModuleInterop => "ESModuleInterop"
    case SystemJS => "SystemJS"
    case GlobalVariable => "GlobalVariable"
    case ImportMaps => "ImportMaps"
    case UMD => "UMD"
    case Unknown => "Unknown"
  }

  /** A code location (`Location`): 1-based line and character and the
      trimmed text of the line. */
  datatype Location = Location(line: int, character: int, context: string)

  /** The places one imported symbol is used (`SymbolUsage`). */
  datatype SymbolUsage = SymbolUsage(symbolName: string, locations: seq<Location>)

  /** One import of the package (`PackageUsage`). The usages of a file's
      symbols come out of a Go map in no fixed order, so they are a set here. */
  datatype PackageUsage = PackageUsage(
    fileName: string,
    importStatement: string,
    line: int,
    character: int,
    importedSymbols: seq<string>,
    importStyle: ImportStyle,
    isDynamicImport: bool,
    symbolUsages: set<SymbolUsage>)

  /** A capture span as Go's `FindAllStringSubmatchIndex` reports it: byte
      offsets `[start, end)`, or `-1, -1` for a group that took no part. */
  datatype Span = Span(start: int, end: int)

  /** The spans a regex match over `content` can report. */
  predicate SpanIn(sp: Span, content: string) {
    (sp.start == -1 && sp.end == -1) || 0 <= sp.start <= sp.end <= |content|
  }

  /** A span of a group that took part in the match. */
  predicate Present(sp: Span, content: string) {
    0 <= sp.start <= sp.end <= |content|
  }

  /** The text a present span covers. */
  function SpanText(content: string, sp: Span): (r: string)
    requires Present(sp, content)
    ensures |r| == sp.end - sp.start
    ensures forall i :: 0 <= i < |r| ==> r[i] == content[sp.start + i]
  {
    content[sp.start..sp.end]
  }

  /** The symbol placeholders `FindPackageUsage` filters out before the usage
      pass (finder.go:89-97). */
  const SideEffectOnly: string := "(side-effect only)"
  const Placeholders: set<string> := {
    SideEffectOnly,
    "(dynamic import)",
    "(require)",
    "(SystemJS import)",
    "(UMD factory)",
    "(AMD require)",
    "(ImportMaps)",
    "(SystemJS config)",
    "(SystemJS register)"
  }
}

=== FILE: usage.dfy ===
/** The usage pass of `FindPackageUsage` (finder.go:43-131) and
    `findSymbolUsages` (finder.go:895-990): the symbols each file imports,
    minus the placeholders; the names searched for them; the lines that do
    not count as a use; and the locations gathered per symbol. The walk and
    the file reads are not modelled: each scanned file arrives with its path,
    its content, its usages from `findPackageInFile` and the matches of the
    symbol pattern. */
module UsagePass {
  import opened GoStrings
  import opened Types
  import opened Lines
  import opened Position
  import opened Symbols
  import Finder

  // ---------------------------------------------------------------------
  // The symbols of a file (finder.go:84-104).

  /** The symbols of one list that are not placeholders. */
  function RealSymbols(symbols: seq<string>): (r: set<string>)
    ensures r !! Placeholders
    ensures forall x :: x in r ==> x in symbols
  {
    if symbols == [] then {}
    else (if symbols[0] in Placeholders then {} else {symbols[0]}) + RealSymbols(symbols[1..])
  }

  /** The symbols of all usages of a file that are not placeholders. */
  function FileSymbols(results: seq<PackageUsage>): (r: set<string>)
    ensures r !! Placeholders
    ensures results == [] ==> r == {}
  {
    if results == [] then {}
    else RealSymbols(results[0].importedSymbols) + FileSymbols(results[1..])
  }

  /** A symbol of a list is kept unless it is a placeholder. */
  lemma {:induction false} RealSymbolsIs(symbols: seq<string>, x: string)
    ensures x in RealSymbols(symbols) <==> x in symbols && x !in Placeholders
  {
    if symbols != [] {
      RealSymbolsIs(symbols[1..], x);
      assert x in symbols <==> x == symbols[0] || x in symbols[1..];
    }
  }

  /** A file's symbol set holds exactly the symbols some usage of the file
      reports, placeholders excepted. */
  lemma {:induction false} FileSymbolsIs(results: seq<PackageUsage>, x: string)
    ensures x in FileSymbols(results) <==>
      x !in Placeholders && exists i :: 0 <= i < |results| && x in results[i].importedSymbols
  {
    if results != [] {
      FileSymbolsIs(results[1..], x);
      RealSymbolsIs(results[0].importedSymbols, x);
      if x !in Placeholders && exists i :: 0 <= i < |results| && x in results[i].importedSymbols {
        var i :| 0 <= i < |results| && x in results[i].importedSymbols;
        if i > 0 {
          assert results[1..][i - 1] == results[i];
        }
      }
      if exists i :: 0 <= i < |results[1..]| && x in results[1..][i].importedSymbols {
        var i :| 0 <= i < |results[1..]| && x in results[1..][i].importedSymbols;
        assert results[i + 1] == results[1..][i];
      }
    }
  }

  /** A file whose usages report only placeholders has no symbols, so the
      usage pass skips it. */
  lemma OnlyPlaceholders(results: seq<PackageUsage>)
    requires forall i, j :: 0 <= i < |results| && 0 <= j < |results[i].importedSymbols| ==>
      results[i].importedSymbols[j] in Placeholders
    ensures FileSymbols(results) == {}
  {
    forall x
      ensures x !in FileSymbols(results)
    {
      FileSymbolsIs(results, x);
      forall i | 0 <= i < |results| && x in results[i].importedSymbols
        ensures x in Placeholders
      {
        var j :| 0 <= j < |results[i].importedSymbols| && results[i].importedSymbols[j] == x;
      }
    }
  }

  /** Recording a file's symbols: an entry only when some symbol remains. */
  function RecordFile(byFile: map<string, set<string>>, path: string, results: seq<PackageUsage>): (m: map<string, set<string>>)
    ensures FileSymbols(results) == {} ==> m == byFile
    ensures FileSymbols(results) != {} ==> path in m && m[path] == FileSymbols(results)
    ensures forall p :: p != path ==> (p in m <==> p in byFile) && (p in m ==> m[p] == byFile[p])
  {
    var symbols := FileSymbols(results);
    if symbols != {} then byFile[path := symbols] else byFile
  }

  // ---------------------------------------------------------------------
  // The names searched for (finder.go:906-921).

  /** A namespace symbol `* as X` is searched as `X`. */
  function SearchName(symbol: string): (r: string)
    ensures HasPrefix(symbol, "* as ") ==> "* as " + r == symbol
    ensures !HasPrefix(symbol, "* as ") ==> r == symbol
  {
    TrimPrefix(symbol, "* as ")
  }

  /** A namespace import is searched under the name it binds. */
  lemma SearchNameOfNamespace(namespaceName: string)
    ensures SearchName(NamespaceSymbols(namespaceName)[0]) == namespaceName
  {
  }

  // ---------------------------------------------------------------------
  // One match of the symbol pattern (finder.go:927-982).

  /** A match of `\b(<names>)(?:\b|\.)`: the match and its name group. */
  datatype SymbolMatch = SymbolMatch(whole: Span, name: Span)

  predicate ValidSymbolMatch(m: SymbolMatch, content: string) {
    Present(m.whole, content) && SpanIn(m.name, content)
  }

  /** The lines the pass does not count as a use: an `import ... from` line
      or a `require(` line (finder.go:944-950). */
  predicate SkipsLine(line: string) {
    (Contains(line, "import") && Contains(line, "from")) || Contains(line, "require(")
  }

  /** Any line holding `import` and, later, `from` is skipped. */
  lemma ImportLineSkipped(pre: string, mid: string, post: string)
    ensures SkipsLine(pre + "import" + mid + "from" + post)
  {
    var line := pre + "import" + mid + "from" + post;
    assert OccursAt(line, "import", |pre|);
    assert OccursAt(line, "from", |pre| + 6 + |mid|);
  }

  /** Any line holding `require(` is skipped. */
  lemma RequireLineSkipped(pre: string, post: string)
    ensures SkipsLine(pre + "require(" + post)
  {
    assert OccursAt(pre + "require(" + post, "require(", |pre|);
  }

  /** A line without `require(` that lacks `import` or `from` counts. */
  lemma PlainLineCounts(line: string)
    requires !Contains(line, "require(")
    requires !Contains(line, "import") || !Contains(line, "from")
    ensures !SkipsLine(line)
  {
  }

  /** The line the pass tests: from the start of the match's line to the
      first newline at or after the match's end. */
  function UsageLine(content: string, m: SymbolMatch): (line: string)
    requires ValidSymbolMatch(m, content)
    ensures forall k :: 0 <= k < |line| && k < m.whole.start - LineStart(content, m.whole.start) ==> line[k] != '\n'
    ensures m.whole.end <= LineStart(content, m.whole.start) + |line| <= |content|
    ensures line == content[LineStart(content, m.whole.start)..LineStart(content, m.whole.start) + |line|]
    ensures LineStart(content, m.whole.start) + |line| == |content| || content[LineStart(content, m.whole.start) + |line|] == '\n'
    ensures forall k :: m.whole.end <= k < LineStart(content, m.whole.start) + |line| ==> content[k] != '\n'
  {
    var w := StatementWindow(content, m.whole.start, m.whole.end);
    content[w.lineStart..w.lineEnd]
  }

  /** The match is counted: its name group took part and is not empty, and
      its line is not an import line. */
  predicate Counted(content: string, m: SymbolMatch)
    requires ValidSymbolMatch(m, content)
  {
    m.name.start >= 0 && m.name.end > m.name.start && !SkipsLine(UsageLine(content, m))
  }

  /** The location of a match: its position, and as context the trimmed
      line `strings.Split(content, "\n")[line - 1]`, which is the line
      holding the match's start. */
  function LocationOf(content: string, m: SymbolMatch): (loc: Location)
    requires ValidSymbolMatch(m, content)
    ensures LineChar(loc.line, loc.character) == LineAndCharacter(content, m.whole.start)
    ensures loc.context == TrimSpace(content[LineStart(content, m.whole.start)..LineEnd(content, m.whole.start)])
  {
    var p := LineAndCharacter(content, m.whole.start);
    var lineText := LineText(content, p.line);
    LineTextAt(content, m.whole.start);
    Location(p.line, p.character, TrimSpace(lineText))
  }

  /** `lines[lineNum-1]` of `strings.Split(content, "\n")`, or "" past the
      last line (finder.go:902, finder.go:958-961). */
  function LineText(content: string, lineNum: int): string {
    var lines := Split(content, "\n");
    if 0 <= lineNum - 1 < |lines| then lines[lineNum - 1] else ""
  }

  /** The line `getLineAndCharacter` names is the line holding the offset. */
  lemma LineTextAt(content: string, o: nat)
    requires o <= |content|
    ensures LineText(content, LineAndCharacter(content, o).line) == content[LineStart(content, o)..LineEnd(content, o)]
  {
    SplitLine(content, o);
  }

  // ---------------------------------------------------------------------
  // The usages of a file.

  predicate AllValidSymbolMatches(ms: seq<SymbolMatch>, content: string) {
    forall i :: 0 <= i < |ms| ==> ValidSymbolMatch(ms[i], content)
  }

  /** What one match adds: its symbol and location when it is counted. */
  datatype Entry = Entry(symbol: string, location: Location)

  function EntryOf(content: string, m: SymbolMatch): (e: Option<Entry>)
    requires ValidSymbolMatch(m, content)
    ensures e.Some? <==> Counted(content, m)
    ensures e.Some? ==> e.value.symbol == SpanText(content, m.name) && e.value.location == LocationOf(content, m)
  {
    if Counted(content, m) then Some(Entry(SpanText(content, m.name), LocationOf(content, m))) else None
  }

  /** The entry of each match, in match order. */
  function Entries(content: string, ms: seq<SymbolMatch>): (es: seq<Option<Entry>>)
    requires AllValidSymbolMatches(ms, content)
    ensures |es| == |ms|
    ensures forall i :: 0 <= i < |ms| ==> es[i] == EntryOf(content, ms[i])
  {
    seq(|ms|, i requires 0 <= i < |ms| => EntryOf(content, ms[i]))
  }

  /** The `usages` map after the entries `es`, one at a time: an entry
      appends its location to its symbol's list, creating the list on first
      use (finder.go:963-981). */
  function Collect(es: seq<Option<Entry>>): (r: map<string, seq<Location>>)
    ensures forall s :: s in r ==> r[s] != []
  {
    if es == [] then map[]
    else
      var acc := Collect(es[..|es| - 1]);
      match es[|es| - 1]
      case None => acc
      case Some(e) => acc[e.symbol := (if e.symbol in acc then acc[e.symbol] else []) + [e.location]]
  }

  /** The locations of the entries naming `symbol`, in order: a definition
      symbol by symbol, independent of the shared map. */
  function LocationsOf(es: seq<Option<Entry>>, symbol: string): (r: seq<Location>)
    ensures |r| <= |es|
  {
    if es == [] then []
    else
      (if es[0].Some? && es[0].value.symbol == symbol then [es[0].value.location] else [])
        + LocationsOf(es[1..], symbol)
  }

  lemma {:induction false} LocationsOfSnoc(es: seq<Option<Entry>>, symbol: string)
    requires es != []
    ensures LocationsOf(es, symbol) == LocationsOf(es[..|es| - 1], symbol) +
      (if es[|es| - 1].Some? && es[|es| - 1].value.symbol == symbol then [es[|es| - 1].value.location] else [])
  {
    if |es| > 1 {
      assert es[1..][..|es[1..]| - 1] == es[..|es| - 1][1..];
      assert es[1..][|es[1..]| - 1] == es[|es| - 1];
      LocationsOfSnoc(es[1..], symbol);
    }
  }

  /** The map holds, for each symbol, exactly its locations in order, and
      has an entry only for symbols with at least one counted use. */
  lemma {:induction false} CollectIs(es: seq<Option<Entry>>, symbol: string)
    ensures symbol in Collect(es) <==> LocationsOf(es, symbol) != []
    ensures symbol in Collect(es) ==> Collect(es)[symbol] == LocationsOf(es, symbol)
  {
    if es != [] {
      CollectIs(es[..|es| - 1], symbol);
      LocationsOfSnoc(es, symbol);
    }
  }

  /** An entry that is absent adds nothing to any symbol. */
  lemma {:induction false} LocationsOfSkip(es: seq<Option<Entry>>, i: nat, symbol: string)
    requires i < |es| && es[i].None?
    ensures LocationsOf(es, symbol) == LocationsOf(es[..i], symbol) + LocationsOf(es[i + 1..], symbol)
  {
    if i > 0 {
      assert es[1..][..i - 1] == es[..i][1..];
      assert es[1..][i - 1 + 1..] == es[i + 1..];
      assert es[1..][i - 1] == es[i];
      LocationsOfSkip(es[1..], i - 1, symbol);
    } else {
      assert es[1..] == es[i + 1..];
    }
  }

  /** `findSymbolUsages`: one `SymbolUsage` per symbol with a counted use;
      the source returns them in map order, so the model returns a set. */
  function FindSymbolUsages(content: string, ms: seq<SymbolMatch>): (r: set<SymbolUsage>)
    requires AllValidSymbolMatches(ms, content)
    ensures forall u :: u in r ==> u.locations != []
    ensures forall u, v :: u in r && v in r && u.symbolName == v.symbolName ==> u == v
  {
    var usages := Collect(Entries(content, ms));
    set s | s in usages :: SymbolUsage(s, usages[s])
  }

  /** Each reported symbol's locations are its counted matches, in match
      order, and every symbol with a counted match is reported. */
  lemma FindSymbolUsagesIs(content: string, ms: seq<SymbolMatch>, symbol: string)
    requires AllValidSymbolMatches(ms, content)
    ensures LocationsOf(Entries(content, ms), symbol) != [] ==>
      SymbolUsage(symbol, LocationsOf(Entries(content, ms), symbol)) in FindSymbolUsages(content, ms)
    ensures forall u :: u in FindSymbolUsages(content, ms) && u.symbolName == symbol ==>
      u.locations == LocationsOf(Entries(content, ms), symbol)
  {
    CollectIs(Entries(content, ms), symbol);
  }

  /** A match on an import or `require(` line contributes no location,
      whatever it names. */
  lemma ImportLineNotCounted(content: string, ms: seq<SymbolMatch>, i: nat, symbol: string)
    requires AllValidSymbolMatches(ms, content) && i < |ms|
    requires SkipsLine(UsageLine(content, ms[i]))
    ensures LocationsOf(Entries(content, ms), symbol) ==
      LocationsOf(Entries(content, ms)[..i], symbol) + LocationsOf(Entries(content, ms)[i + 1..], symbol)
  {
    LocationsOfSkip(Entries(content, ms), i, symbol);
  }

  // ---------------------------------------------------------------------
  // The whole run (finder.go:43-131).

  /** A file the walk reads: its path, its content, the matches of the
      import patterns in it, and the matches the symbol pattern built from
      its searched names finds in it. */
  datatype ScannedFile = ScannedFile(path: string, content: string, matches: seq<Finder.Match>, symbolMatches: seq<SymbolMatch>)

  predicate ValidFile(f: ScannedFile) {
    AllValidSymbolMatches(f.symbolMatches, f.content) && Finder.AllValid(f.matches, f.content)
  }

  predicate AllValidFiles(files: seq<ScannedFile>) {
    forall i :: 0 <= i < |files| ==> ValidFile(files[i])
  }

  /** The usages `findPackageInFile` reports for a file: each names the file
      and carries no symbol usages yet. */
  function Results(f: ScannedFile, packageName: string): (r: seq<PackageUsage>)
    requires ValidFile(f)
    ensures forall k :: 0 <= k < |r| ==> r[k].fileName == f.path && r[k].symbolUsages == {}
  {
    var r := Finder.FindPackageInFile(f.path, f.content, packageName, f.matches);
    assert forall k :: 0 <= k < |r| ==> Finder.WellReported(r[k], f.path);
    r
  }

  /** A file's path with the usages the first pass found in it. */
  datatype FileReport = FileReport(path: string, results: seq<PackageUsage>)

  /** The first-pass report of every file, in walk order. */
  function Reports(files: seq<ScannedFile>, packageName: string): (r: seq<FileReport>)
    requires AllValidFiles(files)
    ensures |r| == |files|
    ensures forall i :: 0 <= i < |r| ==> r[i] == FileReport(files[i].path, Results(files[i], packageName))
  {
    if files == [] then []
    else
      assert ValidFile(files[0]);
      [FileReport(files[0].path, Results(files[0], packageName))] + Reports(files[1..], packageName)
  }

  /** No usage of a report carries symbol usages yet. */
  predicate Unattached(reports: seq<FileReport>) {
    forall i, k :: 0 <= i < |reports| && 0 <= k < |reports[i].results| ==> reports[i].results[k].symbolUsages == {}
  }

  /** The reports of the files carry no symbol usages yet. */
  lemma ReportsUnattached(files: seq<ScannedFile>, packageName: string)
    requires AllValidFiles(files)
    ensures Unattached(Reports(files, packageName))
  {
    var r := Reports(files, packageName);
    forall i, k | 0 <= i < |r| && 0 <= k < |r[i].results|
      ensures r[i].results[k].symbolUsages == {}
    {
      assert r[i].results == Results(files[i], packageName);
    }
  }

  /** The usages of the reports, one report after the other. */
  function AllResults(reports: seq<FileReport>): seq<PackageUsage> {
    if reports == [] then [] else reports[0].results + AllResults(reports[1..])
  }

  /** A last report adds its usages at the end. */
  lemma {:induction false} AllResultsSnoc(reports: seq<FileReport>, f: FileReport)
    ensures AllResults(reports + [f]) == AllResults(reports) + f.results
  {
    if reports == [] {
      assert [] + [f] == [f];
      assert [f][1..] == [];
    } else {
      assert (reports + [f])[1..] == reports[1..] + [f];
      AllResultsSnoc(reports[1..], f);
    }
  }

  /** The first pass: all usages in walk order, and the symbol set of every
      file that has one. */
  function FirstPass(reports: seq<FileReport>): (r: (seq<PackageUsage>, map<string, set<string>>))
    ensures forall p :: p in r.1 ==> r.1[p] != {}
    ensures Unattached(reports) ==> forall k :: 0 <= k < |r.0| ==> r.0[k].symbolUsages == {}
    decreases |reports|
  {
    if reports == [] then ([], map[])
    else
      var init := reports[..|reports| - 1];
      var (results, byFile) := FirstPass(init);
      var f := reports[|reports| - 1];
      assert Unattached(reports) ==> Unattached(init);
      (results + f.results, RecordFile(byFile, f.path, f.results))
  }

  /** The usages the first pass collects are the reports' usages, report
      after report in walk order, each report's in its own order. */
  lemma {:induction false} FirstPassCollects(reports: seq<FileReport>)
    ensures FirstPass(reports).0 == AllResults(reports)
    decreases |reports|
  {
    if reports != [] {
      var init, f := reports[..|reports| - 1], reports[|reports| - 1];
      FirstPassCollects(init);
      assert init + [f] == reports;
      AllResultsSnoc(init, f);
    }
  }

  /** A path has an entry exactly when some file with that path has a
      symbol left after the placeholder filter. */
  lemma {:induction false} FirstPassEntries(reports: seq<FileReport>, path: string)
    ensures path in FirstPass(reports).1 <==>
      exists i :: 0 <= i < |reports| && reports[i].path == path && FileSymbols(reports[i].results) != {}
    decreases |reports|
  {
    if reports != [] {
      var init := reports[..|reports| - 1];
      FirstPassEntries(init, path);
      if exists i :: 0 <= i < |init| && init[i].path == path && FileSymbols(init[i].results) != {} {
        var i :| 0 <= i < |init| && init[i].path == path && FileSymbols(init[i].results) != {};
        assert reports[i] == init[i];
      }
      if exists i :: 0 <= i < |reports| && reports[i].path == path && FileSymbols(reports[i].results) != {} {
        var i :| 0 <= i < |reports| && reports[i].path == path && FileSymbols(reports[i].results) != {};
        if i < |init| {
          assert init[i] == reports[i];
        }
      }
    }
  }

  /** The usages of one file from the second pass, or none. */
  function SecondPassUsages(files: seq<ScannedFile>, path: string, symbols: set<string>): (r: set<SymbolUsage>)
    requires forall i :: 0 <= i < |files| ==> ValidFile(files[i])
  {
    var i := FileIndex(files, path);
    if i < 0 || symbols == {} then {}
    else
      assert ValidFile(files[i]);
      FindSymbolUsages(files[i].content, files[i].symbolMatches)
  }

  /** The index of the file with `path`, or -1. */
  function FileIndex(files: seq<ScannedFile>, path: string): (r: int)
    ensures -1 <= r < |files|
    ensures r >= 0 ==> files[r].path == path
    ensures r < 0 ==> forall i :: 0 <= i < |files| ==> files[i].path != path
  {
    if files == [] then -1
    else if files[0].path == path then 0
    else
      var r := FileIndex(files[1..], path);
      if r < 0 then -1 else r + 1
  }

  /** The second pass: each usage of a file with symbols gets the symbol
      usages found in that file, when there are any. */
  function AttachUsages(results: seq<PackageUsage>, byFile: map<string, set<string>>,
                        files: seq<ScannedFile>): (r: seq<PackageUsage>)
    requires forall i :: 0 <= i < |files| ==> ValidFile(files[i])
    ensures |r| == |results|
    ensures forall i :: 0 <= i < |r| ==> r[i].(symbolUsages := results[i].symbolUsages) == results[i]
    ensures forall i :: 0 <= i < |r| ==> r[i].symbolUsages == results[i].symbolUsages || r[i].symbolUsages != {}
    ensures forall i :: 0 <= i < |r| && results[i].fileName !in byFile ==> r[i] == results[i]
  {
    if results == [] then []
    else
      var u := results[0];
      var found := if u.fileName in byFile then SecondPassUsages(files, u.fileName, byFile[u.fileName]) else {};
      var v := if found != {} then u.(symbolUsages := found) else u;
      [v] + AttachUsages(results[1..], byFile, files)
  }

  /** `FindPackageUsage` over the files the walk reads: every usage the
      first pass reports, in walk order, with the symbol usages of its file
      attached when its file has searched names and the second pass finds
      some. */
  function FindPackageUsage(files: seq<ScannedFile>, packageName: string): (r: seq<PackageUsage>)
    requires AllValidFiles(files)
    ensures |r| == |FirstPass(Reports(files, packageName)).0|
    ensures forall i :: 0 <= i < |r| ==> r[i].(symbolUsages := {}) == FirstPass(Reports(files, packageName)).0[i]
    ensures forall i :: 0 <= i < |r| ==>
      r[i].symbolUsages == (if r[i].fileName in FirstPass(Reports(files, packageName)).1
                            then SecondPassUsages(files, r[i].fileName, FirstPass(Reports(files, packageName)).1[r[i].fileName])
                            else {})
  {
    var (results, byFile) := FirstPass(Reports(files, packageName));
    ReportsUnattached(files, packageName);
    var r := AttachUsages(results, byFile, files);
    forall i | 0 <= i < |r|
      ensures r[i].symbolUsages == (if r[i].fileName in byFile then SecondPassUsages(files, r[i].fileName, byFile[r[i].fileName]) else {})
    {
      AttachUsagesAt(results, byFile, files, i);
    }
    r
  }


  /** The second pass attaches the usages of the whole file to every usage
      of that file alike: two imports in one file report the same symbol
      usages, whichever import introduced the symbols. */
  lemma {:induction false} SameFileSameUsages(results: seq<PackageUsage>, byFile: map<string, set<string>>,
                                              files: seq<ScannedFile>, i: nat, j: nat)
    requires forall k :: 0 <= k < |files| ==> ValidFile(files[k])
    requires forall k :: 0 <= k < |results| ==> results[k].symbolUsages == {}
    requires i < |results| && j < |results| && results[i].fileName == results[j].fileName
    ensures AttachUsages(results, byFile, files)[i].symbolUsages == AttachUsages(results, byFile, files)[j].symbolUsages
  {
    AttachUsagesAt(results, byFile, files, i);
    AttachUsagesAt(results, byFile, files, j);
  }

  /** What the second pass gives the usage at index `i`. */
  lemma {:induction false} AttachUsagesAt(results: seq<PackageUsage>, byFile: map<string, set<string>>,
                                          files: seq<ScannedFile>, i: nat)
    requires forall k :: 0 <= k < |files| ==> ValidFile(files[k])
    requires forall k :: 0 <= k < |results| ==> results[k].symbolUsages == {}
    requires i < |results|
    ensures AttachUsages(results, byFile, files)[i].symbolUsages ==
      if results[i].fileName in byFile then SecondPassUsages(files, results[i].fileName, byFile[results[i].fileName]) else {}
  {
    if i > 0 {
      assert results[1..][i - 1] == results[i];
      AttachUsagesAt(results[1..], byFile, files, i - 1);
    }
  }
}
